=== FILE: README.md ===
# SPB Exchange bond parser — a verified model

The repository scrapes the SPB Exchange (Saint Petersburg) website:
- it reads the securities list;
- it turns each bond's detail page into a CSV record with English column names;
- it downloads the prospectus documents of foreign and Russian issuers.

This project models the deterministic core between the browser/HTTP layer and the output. That core covers:
- the text normalisers;
- the ordered lookup tables and their first-match semantics;
- the paginated crawl of the list;
- the assembly of a bond record;
- the CSV column order;
- the older browser-driven parser's title mapping and Yes/No rewriting;
- the link scans with their de-duplication;
- the file-name rules;
- the ISIN search, whose shape check is the one from ISO 6166 (`[A-Z]{2}[A-Z0-9]{10}`, with no check digit);
- the counting of saved downloads.

Modules follow the program's files:

| module | file | models |
|---|---|---|
| `Text` | text.dfy | the Python string built-ins the code relies on: `lower`, `strip`, `split`, `join`, `str.split(p)[-1]`, `os.path.basename`/`splitext`/`join`, and code-point string order |
| `Dicts` | dicts.dfy | an insertion-ordered `dict` as a sequence of pairs, with `get`, assignment and the first-match table scan |
| `Lists` | lists.dfy | filtering, order-preserving de-duplication, and `sorted` |
| `Config` | config.dfy | `spbe_parser/config.py`: the field, coupon-frequency and boolean tables |
| `Utils` | utils.dfy | `spbe_parser/utils.py`: `normalize_text`, `sanitize_filename`, `parse_coupon_frequency`, `parse_boolean` |
| `PaymentDates` | dates.dfy | `parse_interest_payment_dates` of `spbe_parser/utils.py` |
| `ReferenceData` | reference.dfy | `spbe_parser/reference_data_parser.py` |
| `Scan` | scan.dfy | the listing-page link scan shared by `spbe_parser.py` and `spbe_prospectus_parser.py` |
| `LegacyParser` | legacy.dfy | `spbe_parser.py` |
| `ProspectusParser` | prospectus.dfy | `spbe_prospectus_parser.py` |
| `Documents` | documents.dfy | the document lists and download loops shared by both prospectus parsers |
| `ForeignProspectus` | foreign.dfy | `spbe_parser/foreign_prospectus_parser.py` |
| `RussianProspectus` | russian.dfy | `spbe_parser/russian_prospectus_parser.py` |

Everything effectful becomes a parameter:
- **a list page** is an oracle `fetch: nat -> Option<PageData>`, holding a page's decoded `content` and `totalPages`;
- **a labelled field of a detail page** is `field: string -> string`;
- **a foreign-bond listing page** is `pages: nat -> Option<seq<string>>`, its card hrefs or `None` when loading it raises;
- **a bond card** is `cards: string -> CardLoad`: its fields, or which of its two failures happened. A card that fails to open ends the crawl; one whose fields cannot be searched is skipped;
- **`urllib.parse.urljoin`** is `join: (string, string) -> string`;
- **the shared `download_file`** works on the set of paths on disk, `disk: set<string>`. Its network side is `fetch: nat -> Fetch`: how the request of the loop's `i`-th call would end. It either writes nothing, writes the file, or fails while writing and leaves a partial file;
- **`os.path.exists` in the prospectus downloader's own `download_file`** is a boolean per call.

A parsed page arrives as a value: its text, its anchors in document order, and the link lists of its matched sections.

Some behaviour of the source is reproduced exactly as written:
- **First-match tables.** `parse_boolean` maps "не предусмотрена" to "Yes", because "предусмотрена" is declared first (`Utils.NotProvidedIsYes`).
- **The ISIN table fallback never changes the answer.** In `get_bond_documents`, a table cell that validates is also a 12-character window of the page text, so the generic third pattern has already found an ISIN there (`RussianProspectus.TableFallbackUnreachable`).
- **The crawl.** The reference-data crawl stops at the first failed fetch. It keeps duplicate codes.

## Model

| member | source | states |
|---|---|---|
| Utils.NormalizeIsJoin | spbe_parser/utils.py:249-255 | normalising is the same as splitting on whitespace and joining the words with single spaces; "" stays "" |
| Utils.NormalizeShape | spbe_parser/utils.py:249-255 | the normalised text has no whitespace at either end and no two adjacent whitespace characters |
| Utils.NormalizeKeepsWords | spbe_parser/utils.py:252-254 | normalising keeps the whitespace-separated words and their order exactly |
| Utils.NormalizeIdempotent | spbe_parser/utils.py:252-254 | normalising a normalised text changes nothing |
| Utils.NormalizedWordOccurs | spbe_parser/utils.py:249-255 | a normalised single word occurs verbatim in the original text |
| Utils.ReplaceForbidden | spbe_parser/utils.py:229 | each of `<>:"/\|?*` becomes `_`; every other character and the length are kept |
| Utils.SanitizeFilenameSpec | spbe_parser/utils.py:228-236 | the result has no forbidden character; a stripped name of at most 200 characters is the result and has no `.` or space at its ends; a longer one is cut to exactly 200 characters and keeps its extension |
| Utils.CutToLength | spbe_parser/utils.py:233-235 | when the extension fits, the cut name has exactly 200 characters and ends with the original extension |
| Utils.SanitizeFixedPoint | spbe_parser/utils.py:228-236 | a short name with no forbidden characters and clean ends is left unchanged |
| Utils.SanitizeShortIdempotent | spbe_parser/utils.py:228-236 | sanitising a short name twice gives the same result as sanitising it once |
| Utils.ParseCouponFrequency | spbe_parser/utils.py:268-283 | "" for ""; a count in {1, 2, 4, 12} when a key occurs in the folded text; otherwise a run of digits taken from the text, or the text itself when it has no digit |
| Utils.CouponFrequencyFirstKey | spbe_parser/utils.py:271-276 | when a key occurs in the lower-cased, stripped text, the result is the value of the first such key in declaration order |
| Utils.CouponFrequencyDigits | spbe_parser/utils.py:279-281 | with no key found, the result is the leftmost maximal digit run of the original text |
| Utils.LeftmostRunUnique | spbe_parser/utils.py:279 | the `(\d+)` search returns exactly the leftmost maximal run of digits |
| Utils.FirstDigitRun | spbe_parser/utils.py:279-281 | there is no match exactly when the text has no digit; a match is a maximal digit run with no digit before it |
| Utils.HalfYearIsTwo | spbe_parser/utils.py:271-276 | a text mentioning "полугодие" reads as 2 payments a year, never 1 |
| Utils.ParseBoolean | spbe_parser/utils.py:296-305 | "No" for ""; "Yes" or "No" when a key occurs in the folded text; otherwise the original, un-lowered text |
| Utils.BooleanFirstKey | spbe_parser/utils.py:299-303 | when a key occurs in the folded text, the answer is the value of the first such key in declaration order |
| Utils.NotProvidedIsYes | spbe_parser/utils.py:299-303 | "не предусмотрена"/"не предусмотрено" read as "Yes", because the bare word's key comes first |
| Dicts.FirstMatchIsFirstKey | spbe_parser/utils.py:274-276 | the table scan stops at key `j` exactly when key `j` occurs and no earlier key does |
| Dicts.PutGet | spbe_parser/reference_data_parser.py:176-180 | after `d[k] = v`, looking up `k` gives `v` and every other key gives what it gave before |
| Dicts.PutKeys | spbe_parser/reference_data_parser.py:176-180 | assignment keeps the key order and appends a new key at the end |
| Config.FieldMappingKeysUnique | spbe_parser/config.py:26-68 | the Russian labels of the field table are pairwise distinct, as dictionary keys must be |
| Config.FieldNamesDistinct | spbe_parser/config.py:26-68 | the English column names of the field table are pairwise distinct |
| Config.ColumnIndexInverse | spbe_parser/config.py:26-68 | every English column name finds its own entry in the field table |
| Config.LabelIndexInverse | spbe_parser/config.py:26-68 | every Russian label finds its own entry in the field table |
| Config.FirstPaymentDateNotMapped | spbe_parser/config.py:71 | the additional "First Payment Date" column is not a column of the field table |
| Config.SpecialColumnsMapped | spbe_parser/config.py:40-57 | the coupon, payment-dates and three boolean columns are all columns of the field table |
| Config.CouponValuesAreCounts | spbe_parser/config.py:74-88 | every coupon-frequency value is 1, 2, 4 or 12 |
| Config.BooleanValuesAreYesNo | spbe_parser/config.py:91-99 | every boolean value is "Yes" or "No" |
| Config.HalfYearBeforeYear | spbe_parser/config.py:75-81 | in a text containing "полугодие", the first key that matches is a half-year key with value "2" |
| Config.NegationReadsAsYes | spbe_parser/config.py:92-98 | in a text containing "не предусмотрена"/"не предусмотрено", the first key that matches has value "Yes" |
| PaymentDates.MonthMappingIsMonthTable | spbe_parser/utils.py:325-329 | every Russian month name maps to a two-digit month number 01..12 |
| PaymentDates.MonthNumber | spbe_parser/utils.py:333 | a known month gives its own table entry's number; an unknown one gives "??" |
| PaymentDates.ZFill2 | spbe_parser/utils.py:334 | a one- or two-digit day is left-padded with zeros to two digits and keeps its digits |
| PaymentDates.DateMatchComplete | spbe_parser/utils.py:322 | every "day, whitespace, month" occurrence in the text is recognised where it starts |
| PaymentDates.Scan | spbe_parser/utils.py:322-323 | the matches are genuine, do not overlap, are in text order, and no position outside them starts a match |
| PaymentDates.ScanEmpty | spbe_parser/utils.py:322-323 | no matches are found exactly when no position of the text starts a day-month pair |
| PaymentDates.Token | spbe_parser/utils.py:332-334 | each token is `MM/DD`: the month's number from the table and the day padded to two digits |
| PaymentDates.DecodeDates | spbe_parser/utils.py:336-337 | a string is read as a token list exactly when it is "" or has the bracketed layout `[t1 ; t2 ; …]` of five-character tokens; the tokens read are the five characters between each pair of separators |
| PaymentDates.DecodeDatesString | spbe_parser/utils.py:336-337 | reading the tokens back out of `[t1 ; t2 ; …]` gives exactly the tokens, so the bracketed join loses nothing |
| PaymentDates.EncodeDecodedDates | spbe_parser/utils.py:336-337 | any string that is read as a token list is the bracketed join of those tokens, so no other text decodes |
| PaymentDates.SeparatorRequired | spbe_parser/utils.py:337 | text long enough for two tokens whose first separator is not `;` is not read as a token list |
| PaymentDates.DecodeRejectsOtherSeparator | spbe_parser/utils.py:337 | `[01/15 , 02/15]`, with `,` where the join puts `;`, is not read as a token list |
| PaymentDates.FirstClause | spbe_parser/utils.py:341 | a "начиная с D month YYYY" clause is found exactly when one occurs, and it is the leftmost one, as `re.search` returns |
| PaymentDates.SlashDateShape | spbe_parser/utils.py:345 | the first date has the form `MM/DD/YYYY`, with `??` allowed for an unknown month |
| PaymentDates.FirstDate | spbe_parser/utils.py:339-345 | the first date is "" exactly when there is no clause; otherwise it is `MM/DD/YYYY` built from the leftmost clause: its month's number (or `??`), its zero-filled day and its year |
| PaymentDates.ParseInterestPaymentDates | spbe_parser/utils.py:318-337 | ("","") for ""; the dates string is "" exactly when no day-month pair occurs; it always decodes as a bracketed join, and every token it holds is `MM/DD` |
| PaymentDates.ParseInterestPaymentDatesSpec | spbe_parser/utils.py:318-347 | the dates string decodes, in the bracketed layout, to one token per day-month pair `re.findall` finds in the lower-cased text, in text order; the first date is "" exactly when no "начиная с" clause occurs, and is otherwise the date of the leftmost clause |
| ReferenceData.AcceptItem | spbe_parser/reference_data_parser.py:86-108 | an item is kept exactly when its kind mentions "Облигац" and its stripped code is non-empty; the kept bond has the stripped code, ISIN and issuer, and the URL built from the code |
| ReferenceData.AcceptedExactly | spbe_parser/reference_data_parser.py:99-106 | the bonds of a page are exactly the images of its accepted items |
| ReferenceData.AcceptedAppend | spbe_parser/reference_data_parser.py:99-106 | acceptance distributes over concatenation, so page order is preserved and nothing is de-duplicated |
| ReferenceData.ReadPage | spbe_parser/reference_data_parser.py:67-121 | one loop iteration yields the page's accepted items (none on a failed fetch) and continues exactly when the page has content and is not the last |
| ReferenceData.CrawlPages | spbe_parser/reference_data_parser.py:53-126 | pages 0, 1, 2, … are requested in order, at least 1 and at most 200 of them; every page but the last requested one continues; the crawl stops early only at a page that does not continue |
| ReferenceData.GetBondsList | spbe_parser/reference_data_parser.py:46-126 | the bond list is the concatenation, in page order, of the accepted items of the pages read, within the 200-page limit |
| ReferenceData.SinglePage | spbe_parser/reference_data_parser.py:113-121 | a first page with at most one total page (or none given) ends the crawl after one page |
| ReferenceData.FirstPageFails | spbe_parser/reference_data_parser.py:67-70 | a failed first fetch gives an empty list after one request |
| ReferenceData.CrawlBonds | spbe_parser/reference_data_parser.py:59-123 | a bond is in the list exactly when some item of some page read is accepted as it, and then it is well formed |
| ReferenceData.PagesRead | spbe_parser/reference_data_parser.py:55-59 | never more than 200 pages, and at least one |
| ReferenceData.ParseBondDetails | spbe_parser/reference_data_parser.py:140-182 | the record is empty exactly when the page is missing or fails the bond test |
| ReferenceData.DetailKeys | spbe_parser/reference_data_parser.py:162-182 | a bond page's record has the table's columns as keys, in table order, with "First Payment Date" right after the payment dates |
| ReferenceData.DetailValue | spbe_parser/reference_data_parser.py:165-180 | each column holds its label's field value, passed through the coupon or boolean parser where that column calls for one |
| ReferenceData.DetailDates | spbe_parser/reference_data_parser.py:174-178 | the payment-dates column and "First Payment Date" hold the two halves of the parsed dates field |
| ReferenceData.DetailColumns | spbe_parser/reference_data_parser.py:162-180 | a bond record's columns are exactly the table's columns plus "First Payment Date" |
| ReferenceData.AssembleGet | spbe_parser/reference_data_parser.py:165-180 | with distinct columns, the loop leaves each column with its own processed value, with no later overwrite |
| ReferenceData.AssembleKeys | spbe_parser/reference_data_parser.py:165-180 | the loop creates the columns in table order, inserting "First Payment Date" right after the dates column |
| ReferenceData.ParseAllBondsExactly | spbe_parser/reference_data_parser.py:202-212 | a record is collected exactly when some bond's details are non-empty, and it is those details with the bond's code as "Security Symbol" |
| ReferenceData.ParseAllBondsAppend | spbe_parser/reference_data_parser.py:202-212 | records are collected in bond order: the result for a concatenation is the concatenation of the results |
| ReferenceData.RecordColumns | spbe_parser/reference_data_parser.py:206-210 | a collected record has the detail columns followed by "Security Symbol", which holds the bond's code |
| ReferenceData.HeaderSpec | spbe_parser/reference_data_parser.py:239-252 | the header has no duplicates, holds exactly the fields present, and lists the preferred columns first, in their preferred order |
| ReferenceData.CsvColumnsSpec | spbe_parser/reference_data_parser.py:230-252 | no header for no records; otherwise the header's columns are exactly the union of the record keys, without duplicates, with the symbol/ISIN/issuer columns, then the table columns, then "First Payment Date" in that order |
| ReferenceData.OrderedColumnsNoDup | spbe_parser/reference_data_parser.py:245-247 | the preferred column list has no duplicates |
| Scan.ScanLinks | spbe_parser.py:167-180 | the loop with its `seen` set yields the first occurrence of each accepted href, mapped, in page order |
| Scan.ScannedExactly | spbe_parser.py:167-180 | a result is produced exactly when some accepted href of the page maps to it |
| Scan.ScannedDistinct | spbe_parser.py:168-173 | no href yields two results |
| Scan.IssueId | spbe_parser.py:175-176 | the issue id is the non-empty text after the split's final `issue=` boundary, holding no `issue=`; a link without `issue=`, or one ending in it, yields none |
| Scan.IssueIdAfterLast | spbe_parser.py:175-176 | `issue=` cannot overlap itself, so the split's final boundary is the LAST occurrence of `issue=`; the id is what follows it, and there is none when it ends the link |
| Scan.PageLinks | spbe_parser.py:166-180 | the bond links of a listing page have distinct URLs and are exactly the hrefs of the page that carry an issue id |
| LegacyParser.LegacyFieldMappingKeys | spbe_parser.py:35-77 | the older parser's dictionary has the same labels, in the same order, as the package's table, each once |
| LegacyParser.LegacyFieldMappingSpecial | spbe_parser.py:53-66 | the three post-processed names are values of the older parser's dictionary |
| LegacyParser.CleanTitle | spbe_parser.py:238-242 | a stripped title without `[` is kept; otherwise the cut title has no `[` and no whitespace at its ends |
| LegacyParser.CleanTitleIdempotent | spbe_parser.py:238-242 | cleaning a clean title changes nothing |
| LegacyParser.CleanTitleFootnote | spbe_parser.py:241-242 | a clean title followed by a footnote marker cleans back to the title |
| LegacyParser.FieldValue | spbe_parser.py:248-252 | without links the value is the stripped text; with links it starts with the first link's value and ends with the last's |
| LegacyParser.FieldValueCons | spbe_parser.py:249-250 | a linked value is every link's href-or-text in link order, joined by ` \| `: one link gives its own value; more give the first link's value, the separator, then the value of the remaining links |
| LegacyParser.FieldValueChars | spbe_parser.py:250 | every character of a linked value comes from a link's href or text, or from the ` \| ` separator |
| LegacyParser.KeyOf | spbe_parser.py:255-260 | a mapped title gives its English name; an unmapped title is kept verbatim |
| LegacyParser.LegacyKeyOf | spbe_parser.py:255-257 | every label of the dictionary gives its own English name |
| LegacyParser.AssignGet | spbe_parser.py:234-264 | the record holds for each key the value of the last field written under it, and no value for a key never written |
| LegacyParser.Rewrite | spbe_parser.py:269-288 | one rewrite changes only its key, and only when the key is present, to Yes or No |
| LegacyParser.PostProcessGet | spbe_parser.py:266-288 | the early-redemption value becomes Yes iff it is exactly "Предусмотрена"; trading restrictions, iff exactly "Да"; index universe, iff its lower-cased form is "да"; other keys and absent keys are unchanged |
| LegacyParser.PostProcessYesNo | spbe_parser.py:269-288 | each of the three fields, when present, ends up "Yes" or "No" |
| LegacyParser.PostProcessCases | spbe_parser.py:269-288 | "Не предусмотрена" gives No, lower-case "да" gives No for trading restrictions, and upper-case "ДА" gives Yes for the index universe |
| LegacyParser.ParseBondDetailsGet | spbe_parser.py:213-300 | each key of a card's record is its last written value, rewritten to Yes/No for the three special fields |
| LegacyParser.Header | spbe_parser.py:350-360 | no header for no data; otherwise the header is strictly sorted and holds exactly the union of the record keys |
| LegacyParser.HeaderDeterministic | spbe_parser.py:355-360 | the header does not depend on the set's iteration order |
| ProspectusParser.SanitizeName | spbe_prospectus_parser.py:435-444 | the name has no forbidden character, no `__`, and no `_` at either end |
| ProspectusParser.SanitizeNameWords | spbe_prospectus_parser.py:440-442 | the underscore-separated words are those of the whitespace-normalised, character-replaced name |
| ProspectusParser.DownloadFile | spbe_prospectus_parser.py:76-117 | a path already in the set returns True with no fetch and the set unchanged; a path on disk is added and returns True; otherwise a successful fetch adds the path and a failed one returns False with the set unchanged |
| ProspectusParser.DownloadsFinal | spbe_prospectus_parser.py:87-117 | after a series of calls, a path is in the set exactly when it was there before or some call for it found it on disk or fetched it |
| ProspectusParser.DownloadsNoRefetch | spbe_prospectus_parser.py:88-90 | a path already in the set is never fetched, and a path is fetched again only after its earlier fetch failed |
| ProspectusParser.Ogrn | spbe_prospectus_parser.py:309-311 | an OGRN that is kept is a non-empty string of digits |
| ProspectusParser.OgrnSegment | spbe_prospectus_parser.py:309-311 | the OGRN is the segment after the last boundary of the left-to-right split on `/issuers/` (an occurrence with no further occurrence after it), with slashes stripped, when that is all digits |
| ProspectusParser.OgrnOverlappingMarker | spbe_prospectus_parser.py:309-311 | in `x/issuers/issuers/123` the marker occurs right before `123`, yet the split consumes the overlapping first occurrence, leaves `issuers/123` and reads no OGRN |
| ProspectusParser.OgrnOfIssuerUrl | spbe_prospectus_parser.py:298-311 | the OGRN of an issuer URL built from a digit string, with or without a trailing slash, is that digit string |
| ProspectusParser.IssuerOf | spbe_prospectus_parser.py:311-316 | a kept issuer's URL is the joined href and its OGRN is the href's |
| ProspectusParser.RfIssuers | spbe_prospectus_parser.py:301-316 | the issuers are exactly the kept hrefs of the page, each href once, in order, each with a digit OGRN, and with distinct URLs when joining is injective |
| ProspectusParser.CardForeign | spbe_prospectus_parser.py:176-186 | a card names a foreign issuer exactly when some category field's value contains "иностранного эмитента" |
| ProspectusParser.CardLatest | spbe_prospectus_parser.py:176-196 | the issuer name and ISIN read from a card are the values of the last field with that heading |
| ProspectusParser.CheckBondAccepts | spbe_prospectus_parser.py:198-201 | a bond is accepted exactly when it is foreign and its last issuer-name and ISIN values are non-empty |
| ProspectusParser.CheckBond | spbe_prospectus_parser.py:198-201 | an accepted bond keeps its link and issue id and has a non-empty issuer and ISIN |
| ProspectusParser.CardBond | spbe_prospectus_parser.py:164-206 | a card yields a bond only when it loads, and then exactly when its fields pass the acceptance test; a card that fails to open or to be read yields none |
| ProspectusParser.OpenedCount | spbe_prospectus_parser.py:164-165 | the links before the count all open their cards, and the link at the count, if any, is the first whose card fails to open |
| ProspectusParser.PageBondsExactly | spbe_prospectus_parser.py:164-206 | a listing page yields a bond exactly when one of its card links before the first card that fails to open passes the acceptance test |
| ProspectusParser.ReachesExactly | spbe_prospectus_parser.py:137-221 | the loop gets to page p exactly when p lies within the page bound, every page from the first to p loads with links, and every page before p lets the loop go on |
| ProspectusParser.CrawlExactly | spbe_prospectus_parser.py:137-221 | an item is collected exactly when it comes from a page the loop gets to: every page up to it loads with links, and every earlier page lets the loop go on |
| ProspectusParser.ForeignBondsExactly | spbe_prospectus_parser.py:137-221 | a bond is collected exactly when a page the crawl gets to yields it; a card that fails to open (`driver.get` at :165, caught only by the page handler at :219-221) ends the crawl after the bonds found before it |
| ProspectusParser.ForeignBondsStep | spbe_prospectus_parser.py:164-217 | a page's bonds come first, in link order, and the later pages' bonds follow only when every card of the page opened |
| ProspectusParser.ForeignBondsAccepted | spbe_prospectus_parser.py:137-221 | every bond the crawl collects passed the acceptance test on its own card |
| Documents.AddNewSpec | spbe_parser/foreign_prospectus_parser.py:162-171 | the section pass keeps what was collected in front, adds only documents whose URL is not yet collected, never the same URL twice, and leaves every candidate URL collected |
| Documents.DownloadFile | spbe_parser/utils.py:193-215 | a path already on disk counts as saved and changes nothing; otherwise the call succeeds exactly when the file is written, and a file the request created stays on disk even when writing fails |
| Documents.RunDisk | spbe_parser/utils.py:193-215 | after the loop's first n calls, a path is on disk exactly when it was there at the start or some earlier call to it left a file |
| Documents.CallSaves | spbe_parser/foreign_prospectus_parser.py:205-209 | a call of the loop counts a save exactly when its path was on disk at the start, its own request writes the file, or an earlier call to the same path left a file |
| Documents.RunSaved | spbe_parser/foreign_prospectus_parser.py:199-209 | a path is among the saved ones exactly when some call to it counts a save |
| Documents.SaveEach | spbe_parser/foreign_prospectus_parser.py:197-211 | the loop's count equals the number of saved paths and is at most the number of calls; the saved paths and the paths on disk afterwards are exactly those `RunSaved` and `RunDisk` describe |
| Documents.SaveAll | spbe_parser/foreign_prospectus_parser.py:197-211 | the same for the documents' paths under the directory, and nothing changes for no documents |
| Documents.FreshSaves | spbe_parser/utils.py:193-215 | with distinct paths and none on disk at the start, a call counts a save exactly when its own request writes the file |
| Documents.SavedStays | spbe_parser/utils.py:193-196 | once a call has counted a save, every later call to the same path counts one too |
| Documents.RetryCountsOnce | spbe_parser/foreign_prospectus_parser.py:199-209 | a document listed twice whose first request writes nothing and whose second writes the file counts one save |
| Documents.PartialFileCountsLater | spbe_parser/utils.py:193-215 | a document listed twice whose first request fails while writing counts one save: the second call finds the partial file on disk |
| Documents.SectionLinks | spbe_parser/foreign_prospectus_parser.py:153-156 | the section links are exactly the links that pass the filter in some matched section |
| Documents.DirectoryLayout | spbe_parser/utils.py:362-370 | the directory lies below the base and ends with the sanitised ISIN; below a base without a trailing slash it is `base/issuer/isin` with the sanitised issuer name as the middle level, as `os.path.join` builds it |
| ForeignProspectus.ForeignIssuerByStem | spbe_parser/foreign_prospectus_parser.py:72-82 | a page is foreign exactly when its lower-cased text contains "иностранного эмитента" or its category contains "иностран" |
| ForeignProspectus.FullUrl | spbe_parser/foreign_prospectus_parser.py:131 | an href starting with "http" is kept verbatim; any other is joined to the site's base URL |
| ForeignProspectus.EnsurePdf | spbe_parser/foreign_prospectus_parser.py:139-141 | the result ends in `.pdf` in any case; it is the name itself exactly when the name already ends in `.pdf` in any case, and otherwise the name with `.pdf` appended |
| ForeignProspectus.LinkFilenameSource | spbe_parser/foreign_prospectus_parser.py:134-141 | the file name is the normalised link text when that is non-empty and at most 200 characters, and the href's base name otherwise, with `.pdf` appended exactly when that name does not already end in it |
| ForeignProspectus.LinkDoc | spbe_parser/foreign_prospectus_parser.py:119-146 | a link yields a document exactly when it names a prospectus, or is PDF-like and offers a document, a file or a download |
| ForeignProspectus.ProspectusLinks | spbe_parser/foreign_prospectus_parser.py:96-104 | a missing or non-foreign page yields no documents |
| ForeignProspectus.ProspectusLinksFirst | spbe_parser/foreign_prospectus_parser.py:117-146 | the first pass's documents come first, and are exactly the selected links, in order and with repeats |
| ForeignProspectus.ProspectusLinksSections | spbe_parser/foreign_prospectus_parser.py:150-171 | the section pass adds only candidates built from the matched sections' PDF links, only with URLs not already collected, each once, and every section PDF link's URL ends up collected |
| ForeignProspectus.ProspectusLinksPdf | spbe_parser/foreign_prospectus_parser.py:139-166 | every produced file name ends in `.pdf`, in any case |
| ForeignProspectus.DownloadProspectus | spbe_parser/foreign_prospectus_parser.py:187-211 | 0 and nothing on disk changed for no documents; otherwise the count is at most the number of documents and counts exactly the calls that save under the issuer/ISIN directory, with defaults "Unknown" and the security code |
| RussianProspectus.IsinNoSep | spbe_parser/russian_prospectus_parser.py:234 | a valid ISIN contains no colon and no whitespace |
| RussianProspectus.MatchAtRegex | spbe_parser/russian_prospectus_parser.py:222-225 | the scanner matches a labelled pattern at a position exactly when the heading, one or more colons or whitespace characters, and a valid ISIN occur there |
| RussianProspectus.RegexRunWhole | spbe_parser/russian_prospectus_parser.py:223-224 | the separator run a match uses is the whole run, so the greedy scan loses no match |
| RussianProspectus.SearchLeftmost | spbe_parser/russian_prospectus_parser.py:230 | the search finds the leftmost position where the pattern matches, and nothing exactly when no position matches |
| RussianProspectus.FirstFoundOrder | spbe_parser/russian_prospectus_parser.py:229-236 | the patterns are tried in declared order and the first one that finds an ISIN wins |
| RussianProspectus.FindIsinSpec | spbe_parser/russian_prospectus_parser.py:218-236 | the text search returns the first pattern's leftmost valid ISIN, or "" when no pattern finds one |
| RussianProspectus.FindIsinEmpty | spbe_parser/russian_prospectus_parser.py:222-236 | the text search finds nothing exactly when no 12-character window of the text has the ISIN shape |
| RussianProspectus.RowIsinNone | spbe_parser/russian_prospectus_parser.py:245-251 | a row gives no ISIN exactly when no cell mentioning "isin" is followed by a cell that normalises to a valid ISIN |
| RussianProspectus.RowIsinFound | spbe_parser/russian_prospectus_parser.py:245-251 | a row's ISIN is the normalised cell after the first qualifying "isin" cell, and the cell loop stops there |
| RussianProspectus.LastTablesOnly | spbe_parser/russian_prospectus_parser.py:241 | tables before the last three never matter |
| RussianProspectus.LatestCodeSpec | spbe_parser/russian_prospectus_parser.py:243-251 | across rows, the last row that yields an ISIN wins, since the `break` leaves only the cell loop |
| RussianProspectus.ScanRows | spbe_parser/russian_prospectus_parser.py:243-251 | the row loop computes the overwrite-by-later-rows result |
| RussianProspectus.TableIsin | spbe_parser/russian_prospectus_parser.py:239-251 | the fallback's ISIN is the last row ISIN found in the last three tables, or "" |
| RussianProspectus.PageIsin | spbe_parser/russian_prospectus_parser.py:218-251 | the page's ISIN is "" or valid, and is the text search's result whenever that search finds one |
| RussianProspectus.TableFallbackUnreachable | spbe_parser/russian_prospectus_parser.py:228-251 | when the page text contains every cell's text, the table fallback never changes the result |
| RussianProspectus.DocNameOfLink | spbe_parser/russian_prospectus_parser.py:190-194 | a document link's name is never empty, and the base-name fallback keeps the document extension |
| RussianProspectus.LinkDoc | spbe_parser/russian_prospectus_parser.py:186-199 | a link yields a document exactly when its href ends in a document extension; the URL is joined against the bond page |
| RussianProspectus.BondDocumentsFirst | spbe_parser/russian_prospectus_parser.py:186-199 | the first pass's documents come first, and are exactly the document links, in order and with repeats |
| RussianProspectus.BondDocumentsSections | spbe_parser/russian_prospectus_parser.py:202-216 | the section pass adds only documents built from the sections' document links, only with URLs not already collected, each once, and every section document link's URL ends up collected |
| RussianProspectus.BondDocumentsNamed | spbe_parser/russian_prospectus_parser.py:190-212 | every document has a non-empty file name |
| RussianProspectus.GetBondDocuments | spbe_parser/russian_prospectus_parser.py:167-254 | a page that fails to load gives no documents and ""; otherwise the page's documents and ISIN, and the ISIN is "" or valid |
| RussianProspectus.FixExtension | spbe_parser/russian_prospectus_parser.py:280-285 | a name with a document extension is kept; otherwise the URL's extension is appended |
| RussianProspectus.FixExtensionSpec | spbe_parser/russian_prospectus_parser.py:280-285 | the fixed name has a document extension whenever the name or the URL's extension has one |
| RussianProspectus.DownloadBondDocuments | spbe_parser/russian_prospectus_parser.py:268-295 | 0 and nothing on disk changed when there are no documents or no ISIN; otherwise the count equals the calls that save the extension-fixed names under the issuer/ISIN directory |
| RussianProspectus.FallbackIsin | spbe_parser/russian_prospectus_parser.py:335-337 | a found ISIN is kept; a missing one becomes the first 20 characters of the bond name |
| RussianProspectus.FallbackIsinEmpty | spbe_parser/russian_prospectus_parser.py:335-337 | the fallback is empty only when both the ISIN and the bond name are empty |
| Text.LastPieceSplit | spbe_parser.py:175 | when `p` occurs, `s.split(p)[-1]` is the text after an occurrence of `p`, and no occurrence lies inside that text (for a `p` that overlaps itself this need not be the last occurrence) |
| Text.LastPieceAtLast | spbe_parser.py:175 | for a separator no proper prefix of which is also its suffix, `s.split(p)[-1]` is the text after the last occurrence of `p` |
| Text.NoOverlap | spbe_parser.py:175 | two occurrences of such a separator lie at least its length apart |
| Text.FieldsJoin | spbe_prospectus_parser.py:441 | splitting the single-separator join of non-empty words gives the words back |
| Text.SplitJoin | spbe_prospectus_parser.py:442 | splitting a join of separator-free parts on the separator gives the parts back |
| Text.SplitExt | spbe_parser/utils.py:234 | name and extension concatenate back to the path; the extension is empty or a dot with no slash and no further dot after it |
| Text.SplitExtEmpty | spbe_parser/utils.py:234 | the extension is empty exactly when every dot of the base name has only dots before it in the base name, i.e. all its dots are leading dots |
| Text.Basename | spbe_parser/foreign_prospectus_parser.py:137 | the base name is a suffix of the path with no slash, and it is the whole path or starts right after a slash |
| Text.StripCharsShape | spbe_parser/utils.py:231 | the stripped text has none of the stripped characters at either end and occurs in the original |
| Text.LexLessTotal | spbe_parser.py:360 | code-point order puts any two distinct strings in some order |
| Text.LexLessTrans | spbe_parser.py:360 | code-point order is transitive |
| Lists.SortSorted | spbe_parser.py:360 | sorting distinct keys gives a strictly increasing list |
| Lists.SortedUnique | spbe_parser.py:360 | two strictly sorted lists with the same members are equal |
| Lists.DedupSpec | spbe_parser.py:168-173 | order-preserving de-duplication has no duplicates and keeps exactly the members of its input |
| Lists.DedupFirstOrder | spbe_parser.py:168-173 | the kept elements come in the order of their first occurrences in the input |

## Left out

- Embedded-payload decoding is left out: `get_html` and `extract_json_from_nextjs_html` have no body in `spbe_parser/utils.py`. The crawl takes already-decoded `PageData`.
- Browser, HTTP and timing are left out: Selenium/Playwright set-up, waits, `requests`, `make_request` retries and `time.sleep`. Fetches and downloads are parameters.
- Only the document tree's content is modelled, not BeautifulSoup or Selenium traversal:
  - `extract_field_value` is the abstract `field: string -> string`;
  - `get_soup` returns `Option` of a parsed page, or of a list of card fields, as data.
- Filesystem writes are left out: file contents, `os.makedirs` and the CSV writer itself. `create_directory_structure` is modelled as the path it returns. Disk state is only the set of existing paths, and `force=True` is never passed.
- Date-stamped default file names are left out: they come from the clock.
- Orchestration and logging are left out:
  - `run`, `main`, `parse_all_prospectuses`;
  - `get_issuers_list`, `get_issuer_bonds`, the `parse_issuer` loop and `parse_all_issuers`;
  - `download_foreign_prospectuses`, `download_rf_prospectuses`, `parse_and_download_all`.

  Only `parse_issuer`'s ISIN fallback is modelled.
- `get_foreign_bonds` of `spbe_parser/foreign_prospectus_parser.py` is left out: it copies its input list unchanged.
- The older parser's `get_bonds_list` pagination is left out: it depends on a next-page button. Only the per-page link scan is modelled. The older `parse_all_bonds` is a loop over the same details function.
- A field that raises inside the older parser's field loop is skipped. It is modelled as an absent item (`None`).
- Unicode is modelled only in part:
  - `lower()` is modelled on ASCII and the basic Cyrillic capitals U+0400..U+042F;
  - `\d` and `isdigit()` are ASCII digits;
  - `\w` is ASCII letters, digits, `_` and the Cyrillic block;
  - whitespace is the finite set that `str.isspace` accepts.
- Regular expressions are deterministic scanners for the specific patterns used, not a regex engine. The `$` anchor's acceptance of a match just before a final newline is not modelled.
- ProspectusParser.ForeignBonds: the foreign-bond crawl is bounded by a fuel argument. The source loops until a page has no links, which the model cannot bound.
- ProspectusParser.ForeignBonds: loading the first listing page (`driver.get` at spbe_prospectus_parser.py:130) sits outside every `try`, so its failure raises out of `get_foreign_bonds`. The model treats a failed first page like a failed later page and returns no bonds.
- Non-string item values are left out: decoded list items are modelled as string-valued. A `null` or numeric `securityKind` or `srtsCode` makes the `in` test or `.strip()` at reference_data_parser.py:88-96 raise, with no `try` around it, so `get_bonds_list` fails. The model has no such values.
- ProspectusParser.OgrnSegment: `/issuers/` overlaps itself (it starts and ends with `/`), so the segment follows the split's last boundary, which is not always the last occurrence of the marker; `ProspectusParser.OgrnOverlappingMarker` shows such a link. The model follows the split.
- ProspectusParser.OgrnOfIssuerUrl: the round trip is stated for prefixes that do not themselves end in "/issuers". Such a prefix would create an earlier marker.
- `ProcessValue`, the per-column dispatch in the reference-data parser, has no contract of its own. Its meaning is stated by `ReferenceData.DetailValue`.
- The reference-data crawl stops at the first failed or empty page. There is no tolerance for several consecutive failures, and no de-duplication of codes. The model follows the code.

=== FILE: config.dfy ===
/** The static tables of the parser: the Russian-to-English field dictionary and the two
    value dictionaries whose keys are matched as substrings, first match in declaration
    order. Each table is a `Dict`, so declaration order is part of the model. */
module Config {
  import opened Text
  import opened Dicts

  const BaseUrl: string := "https://spbexchange.ru"

  /** Russian field label on the detail page -> English column name. */
  const FieldMapping: Dict := [
    ("ISIN код",
     "ISIN"),
    ("Регистрационный номер",
     "Registration Number"),
    ("Вид, категория (тип) ценной бумаги",
     "Security Category"),
    ("Идентификационный код ценной бумаги",
     "Security Identification Code"),
    ("Международный код классификации финансовых инструментов (CFI), присвоенный ценным бумагам",
     "CFI code assigned to the securities"),
    ("Международный код классификации финансовых инструментов (CFI), присвоенный ценным бумагам на дату принятия решения о листинге ценных бумаг",
     "CFI code as of the listing decision date"),
    ("Номер серии",
     "Series Number"),
    ("Номинальная стоимость",
     "Face Value"),
    ("Валюта номинальной стоимости",
     "Face Value Currency"),
    ("Общее количество ценных бумаг в выпуске, шт.",
     "Issue Size, pcs"),
    ("Дата выпуска",
     "Issue Date"),
    ("Ставка купона",
     "Coupon"),
    ("Дата погашения",
     "Maturity Date"),
    ("Порядок выплаты процентов",
     "Coupon Frequency"),
    ("Даты выплаты процентов",
     "Interest Payment Dates"),
    ("Информация о размере текущего процента (купона) по облигациям (о порядке определения размера)",
     "Current Сoupon Information (calculation method)"),
    ("Сумма погашения",
     "Redemption Amount"),
    ("Указание на наличие возможности досрочного погашения облигаций",
     "Early Redemption Option"),
    ("Раздел Списка",
     "Listing Section"),
    ("Дата принятия решения о включении ценных бумаг в Список",
     "Decision date to include in the List"),
    ("Дата включения ценных бумаг в Список",
     "Listing Inclusion Date"),
    ("Биржа, на которой ценные бумаги эмитента прошли процедуру листинга",
     "Listing Exchange"),
    ("Дата начала организованных торгов",
     "Start Date Organized Trading"),
    ("Режимы торгов, в которых возможно заключение договоров",
     "Available Trading Modes"),
    ("Группа инструментов",
     "Instrument Group"),
    ("Лот",
     "Lot Size"),
    ("Шаг цены",
     "Price Tick"),
    ("Валюта цены",
     "Price Quotation Units"),
    ("Валюта расчетов",
     "Settlement Currency"),
    ("Указание на то, что ценные бумаги ограничены в обороте (в том числе предназначены для квалифицированных инвесторов)",
     "Trading Restrictions (incl. qualified investors)"),
    ("Указание на то, что ценные бумаги включены в базу расчета индексов организатора торговли",
     "Included in the exchange index universe"),
    ("Полное наименование эмитента",
     "Full Name Issuer"),
    ("Государство учреждения эмитента",
     "Country Incorporation"),
    ("Идентификационный номер налогоплательщика эмитента (при наличии)",
     "Issuer TIN"),
    ("Юридический адрес эмитента",
     "Legal Address"),
    ("Информация о фактах дефолта эмитента",
     "Information Issuer Default Events"),
    ("Информация о фактах технического дефолта эмитента",
     "Information Issuer Technical Default Events"),
    ("Адрес страницы сайта в сети Интернет, используемой для раскрытия информации для инвесторов",
     "Issuer's Investor Relations Website"),
    ("Адрес страницы иностранной биржи в сети Интернет, на которой раскрывается информация об эмитенте иностранных ценных бумаг и о ценных бумагах данного эмитента",
     "Foreign Exchange Disclosure Page"),
    ("Адрес страницы государственного органа, и/или уполномоченного лица в сети Интернет, на которой раскрывается информация об эмитенте иностранных ценных бумаг и о ценных бумагах данного эмитента",
     "Competent Authority/OAM Disclosure Page"),
    ("Годовые отчеты, раскрытые эмитентом",
     "Annual Reports Disclosed Issuer")
  ]

  const FirstPaymentDate: string := "First Payment Date"

  /** Columns produced in addition to the mapped ones. */
  const AdditionalFields: seq<string> := [FirstPaymentDate]

  /** Coupon payment schedule text -> payments per year. */
  const CouponFrequencyMapping: Dict := [
    ("один раз в полугодие в конце полугодия", "2"),
    ("раз в полугодие", "2"),
    ("полугодие", "2"),
    ("один раз в год", "1"),
    ("раз в год", "1"),
    ("ежегодно", "1"),
    ("год", "1"),
    ("квартал", "4"),
    ("ежеквартально", "4"),
    ("раз в квартал", "4"),
    ("месяц", "12"),
    ("ежемесячно", "12"),
    ("раз в месяц", "12")
  ]

  /** Yes/no field text -> "Yes" or "No". */
  const BooleanMapping: Dict := [
    ("да", "Yes"),
    ("предусмотрена", "Yes"),
    ("предусмотрено", "Yes"),
    ("есть", "Yes"),
    ("нет", "No"),
    ("не предусмотрена", "No"),
    ("не предусмотрено", "No")
  ]

  /** The position of an English column name in `FieldMapping`, told apart by its length
      and its last and tenth-from-last characters; -1 when no column has that shape. */
  function ColumnIndex(s: string): (r: int)
    ensures -1 <= r < |FieldMapping|
  {
    if |s| == 4 && s[|s| - 1] == 'N' then 0
    else if |s| == 19 && s[|s| - 1] == 'r' && s[|s| - 10] == 'i' then 1
    else if |s| == 17 && s[|s| - 1] == 'y' && s[|s| - 10] == 'y' then 2
    else if |s| == 28 && s[|s| - 1] == 'e' && s[|s| - 10] == 'a' then 3
    else if |s| == 35 && s[|s| - 1] == 's' && s[|s| - 10] == 's' then 4
    else if |s| == 40 && s[|s| - 1] == 'e' && s[|s| - 10] == 'i' then 5
    else if |s| == 13 && s[|s| - 1] == 'r' && s[|s| - 10] == 'i' then 6
    else if |s| == 10 && s[|s| - 1] == 'e' && s[|s| - 10] == 'F' then 7
    else if |s| == 19 && s[|s| - 1] == 'y' && s[|s| - 10] == 'e' then 8
    else if |s| == 15 && s[|s| - 1] == 's' && s[|s| - 10] == ' ' then 9
    else if |s| == 10 && s[|s| - 1] == 'e' && s[|s| - 10] == 'I' then 10
    else if |s| == 6 && s[|s| - 1] == 'n' then 11
    else if |s| == 13 && s[|s| - 1] == 'e' && s[|s| - 10] == 'u' then 12
    else if |s| == 16 && s[|s| - 1] == 'y' && s[|s| - 10] == ' ' then 13
    else if |s| == 22 && s[|s| - 1] == 's' && s[|s| - 10] == 'm' then 14
    else if |s| == 47 && s[|s| - 1] == ')' && s[|s| - 10] == 'o' then 15
    else if |s| == 17 && s[|s| - 1] == 't' && s[|s| - 10] == 'i' then 16
    else if |s| == 23 && s[|s| - 1] == 'n' && s[|s| - 10] == 'i' then 17
    else if |s| == 15 && s[|s| - 1] == 'n' && s[|s| - 10] == 'n' then 18
    else if |s| == 36 && s[|s| - 1] == 't' && s[|s| - 10] == 'n' then 19
    else if |s| == 22 && s[|s| - 1] == 'e' && s[|s| - 10] == 'u' then 20
    else if |s| == 16 && s[|s| - 1] == 'e' && s[|s| - 10] == 'g' then 21
    else if |s| == 28 && s[|s| - 1] == 'g' && s[|s| - 10] == 'e' then 22
    else if |s| == 23 && s[|s| - 1] == 's' && s[|s| - 10] == 'd' then 23
    else if |s| == 16 && s[|s| - 1] == 'p' && s[|s| - 10] == 'm' then 24
    else if |s| == 8 && s[|s| - 1] == 'e' then 25
    else if |s| == 10 && s[|s| - 1] == 'k' && s[|s| - 10] == 'P' then 26
    else if |s| == 21 && s[|s| - 1] == 's' && s[|s| - 10] == 't' then 27
    else if |s| == 19 && s[|s| - 1] == 'y' && s[|s| - 10] == 't' then 28
    else if |s| == 48 && s[|s| - 1] == ')' && s[|s| - 10] == 'i' then 29
    else if |s| == 39 && s[|s| - 1] == 'e' && s[|s| - 10] == 'x' then 30
    else if |s| == 16 && s[|s| - 1] == 'r' && s[|s| - 10] == 'a' then 31
    else if |s| == 21 && s[|s| - 1] == 'n' && s[|s| - 10] == 'o' then 32
    else if |s| == 10 && s[|s| - 1] == 'N' && s[|s| - 10] == 'I' then 33
    else if |s| == 13 && s[|s| - 1] == 's' && s[|s| - 10] == 'a' then 34
    else if |s| == 33 && s[|s| - 1] == 's' && s[|s| - 10] == 'u' then 35
    else if |s| == 43 && s[|s| - 1] == 's' && s[|s| - 10] == 'u' then 36
    else if |s| == 35 && s[|s| - 1] == 'e' && s[|s| - 10] == 'n' then 37
    else if |s| == 32 && s[|s| - 1] == 'e' && s[|s| - 10] == 'o' then 38
    else if |s| == 39 && s[|s| - 1] == 'e' && s[|s| - 10] == 'o' then 39
    else if |s| == 31 && s[|s| - 1] == 'r' && s[|s| - 10] == 's' then 40
    else -1
  }

  /** The position of a Russian label in `FieldMapping`, told apart by its length and its
      last two characters; -1 when no label has that shape. */
  function LabelIndex(s: string): (r: int)
    ensures -1 <= r < |FieldMapping|
  {
    if |s| == 8 && s[|s| - 1] == 'д' && s[|s| - 2] == 'о' then 0
    else if |s| == 21 && s[|s| - 1] == 'р' && s[|s| - 2] == 'е' then 1
    else if |s| == 34 && s[|s| - 1] == 'и' && s[|s| - 2] == 'г' then 2
    else if |s| == 35 && s[|s| - 1] == 'и' && s[|s| - 2] == 'г' then 3
    else if |s| == 89 && s[|s| - 1] == 'м' && s[|s| - 2] == 'а' then 4
    else if |s| == 138 && s[|s| - 1] == 'г' && s[|s| - 2] == 'а' then 5
    else if |s| == 11 && s[|s| - 1] == 'и' && s[|s| - 2] == 'и' then 6
    else if |s| == 21 && s[|s| - 1] == 'ь' && s[|s| - 2] == 'т' then 7
    else if |s| == 28 && s[|s| - 1] == 'и' && s[|s| - 2] == 'т' then 8
    else if |s| == 44 && s[|s| - 1] == '.' && s[|s| - 2] == 'т' then 9
    else if |s| == 12 && s[|s| - 1] == 'а' && s[|s| - 2] == 'к' then 10
    else if |s| == 13 && s[|s| - 1] == 'а' && s[|s| - 2] == 'н' then 11
    else if |s| == 14 && s[|s| - 1] == 'я' && s[|s| - 2] == 'и' then 12
    else if |s| == 25 && s[|s| - 1] == 'в' && s[|s| - 2] == 'о' then 13
    else if |s| == 22 && s[|s| - 1] == 'в' && s[|s| - 2] == 'о' then 14
    else if |s| == 93 && s[|s| - 1] == ')' && s[|s| - 2] == 'а' then 15
    else if |s| == 15 && s[|s| - 1] == 'я' && s[|s| - 2] == 'и' then 16
    else if |s| == 62 && s[|s| - 1] == 'й' && s[|s| - 2] == 'и' then 17
    else if |s| == 13 && s[|s| - 1] == 'а' && s[|s| - 2] == 'к' then 18
    else if |s| == 55 && s[|s| - 1] == 'к' && s[|s| - 2] == 'о' then 19
    else if |s| == 36 && s[|s| - 1] == 'к' && s[|s| - 2] == 'о' then 20
    else if |s| == 66 && s[|s| - 1] == 'а' && s[|s| - 2] == 'г' then 21
    else if |s| == 33 && s[|s| - 1] == 'в' && s[|s| - 2] == 'о' then 22
    else if |s| == 54 && s[|s| - 1] == 'в' && s[|s| - 2] == 'о' then 23
    else if |s| == 19 && s[|s| - 1] == 'в' && s[|s| - 2] == 'о' then 24
    else if |s| == 3 && s[|s| - 1] == 'т' && s[|s| - 2] == 'о' then 25
    else if |s| == 8 && s[|s| - 1] == 'ы' && s[|s| - 2] == 'н' then 26
    else if |s| == 11 && s[|s| - 1] == 'ы' && s[|s| - 2] == 'н' then 27
    else if |s| == 15 && s[|s| - 1] == 'в' && s[|s| - 2] == 'о' then 28
    else if |s| == 115 && s[|s| - 1] == ')' && s[|s| - 2] == 'в' then 29
    else if |s| == 88 && s[|s| - 1] == 'и' && s[|s| - 2] == 'л' then 30
    else if |s| == 28 && s[|s| - 1] == 'а' && s[|s| - 2] == 'т' then 31
    else if |s| == 31 && s[|s| - 1] == 'а' && s[|s| - 2] == 'т' then 32
    else if |s| == 64 && s[|s| - 1] == ')' && s[|s| - 2] == 'и' then 33
    else if |s| == 26 && s[|s| - 1] == 'а' && s[|s| - 2] == 'т' then 34
    else if |s| == 36 && s[|s| - 1] == 'а' && s[|s| - 2] == 'т' then 35
    else if |s| == 49 && s[|s| - 1] == 'а' && s[|s| - 2] == 'т' then 36
    else if |s| == 90 && s[|s| - 1] == 'в' && s[|s| - 2] == 'о' then 37
    else if |s| == 157 && s[|s| - 1] == 'а' && s[|s| - 2] == 'т' then 38
    else if |s| == 191 && s[|s| - 1] == 'а' && s[|s| - 2] == 'т' then 39
    else if |s| == 35 && s[|s| - 1] == 'м' && s[|s| - 2] == 'о' then 40
    else -1
  }

  lemma ColumnIndexInverse0()
    ensures forall i :: 0 <= i < 4 ==> ColumnIndex(FieldMapping[i].1) == i
  {
    assert ColumnIndex(FieldMapping[0].1) == 0;
    assert ColumnIndex(FieldMapping[1].1) == 1;
    assert ColumnIndex(FieldMapping[2].1) == 2;
    assert ColumnIndex(FieldMapping[3].1) == 3;
  }

  lemma ColumnIndexInverse4()
    ensures forall i :: 4 <= i < 8 ==> ColumnIndex(FieldMapping[i].1) == i
  {
    assert ColumnIndex(FieldMapping[4].1) == 4;
    assert ColumnIndex(FieldMapping[5].1) == 5;
    assert ColumnIndex(FieldMapping[6].1) == 6;
    assert ColumnIndex(FieldMapping[7].1) == 7;
  }

  lemma ColumnIndexInverse8()
    ensures forall i :: 8 <= i < 12 ==> ColumnIndex(FieldMapping[i].1) == i
  {
    assert ColumnIndex(FieldMapping[8].1) == 8;
    assert ColumnIndex(FieldMapping[9].1) == 9;
    assert ColumnIndex(FieldMapping[10].1) == 10;
    assert ColumnIndex(FieldMapping[11].1) == 11;
  }

  lemma ColumnIndexInverse12()
    ensures forall i :: 12 <= i < 16 ==> ColumnIndex(FieldMapping[i].1) == i
  {
    assert ColumnIndex(FieldMapping[12].1) == 12;
    assert ColumnIndex(FieldMapping[13].1) == 13;
    assert ColumnIndex(FieldMapping[14].1) == 14;
    assert ColumnIndex(FieldMapping[15].1) == 15;
  }

  lemma ColumnIndexInverse16()
    ensures forall i :: 16 <= i < 20 ==> ColumnIndex(FieldMapping[i].1) == i
  {
    assert ColumnIndex(FieldMapping[16].1) == 16;
    assert ColumnIndex(FieldMapping[17].1) == 17;
    assert ColumnIndex(FieldMapping[18].1) == 18;
    assert ColumnIndex(FieldMapping[19].1) == 19;
  }

  lemma ColumnIndexInverse20()
    ensures forall i :: 20 <= i < 24 ==> ColumnIndex(FieldMapping[i].1) == i
  {
    assert ColumnIndex(FieldMapping[20].1) == 20;
    assert ColumnIndex(FieldMapping[21].1) == 21;
    assert ColumnIndex(FieldMapping[22].1) == 22;
    assert ColumnIndex(FieldMapping[23].1) == 23;
  }

  lemma ColumnIndexInverse24()
    ensures forall i :: 24 <= i < 28 ==> ColumnIndex(FieldMapping[i].1) == i
  {
    assert ColumnIndex(FieldMapping[24].1) == 24;
    assert ColumnIndex(FieldMapping[25].1) == 25;
    assert ColumnIndex(FieldMapping[26].1) == 26;
    assert ColumnIndex(FieldMapping[27].1) == 27;
  }

  lemma ColumnIndexInverse28()
    ensures forall i :: 28 <= i < 32 ==> ColumnIndex(FieldMapping[i].1) == i
  {
    assert ColumnIndex(FieldMapping[28].1) == 28;
    assert ColumnIndex(FieldMapping[29].1) == 29;
    assert ColumnIndex(FieldMapping[30].1) == 30;
    assert ColumnIndex(FieldMapping[31].1) == 31;
  }

  lemma ColumnIndexInverse32()
    ensures forall i :: 32 <= i < 36 ==> ColumnIndex(FieldMapping[i].1) == i
  {
    assert ColumnIndex(FieldMapping[32].1) == 32;
    assert ColumnIndex(FieldMapping[33].1) == 33;
    assert ColumnIndex(FieldMapping[34].1) == 34;
    assert ColumnIndex(FieldMapping[35].1) == 35;
  }

  lemma ColumnIndexInverse36()
    ensures forall i :: 36 <= i < 40 ==> ColumnIndex(FieldMapping[i].1) == i
  {
    assert ColumnIndex(FieldMapping[36].1) == 36;
    assert ColumnIndex(FieldMapping[37].1) == 37;
    assert ColumnIndex(FieldMapping[38].1) == 38;
    assert ColumnIndex(FieldMapping[39].1) == 39;
  }

  lemma ColumnIndexInverse40()
    ensures forall i :: 40 <= i < 41 ==> ColumnIndex(FieldMapping[i].1) == i
  {
    assert ColumnIndex(FieldMapping[40].1) == 40;
  }

  /** `ColumnIndex` recovers the position of every English column name. */
  lemma ColumnIndexInverse()
    ensures forall i :: 0 <= i < |FieldMapping| ==> ColumnIndex(FieldMapping[i].1) == i
  {
    ColumnIndexInverse0(); ColumnIndexInverse4(); ColumnIndexInverse8(); ColumnIndexInverse12(); ColumnIndexInverse16(); ColumnIndexInverse20(); ColumnIndexInverse24(); ColumnIndexInverse28(); ColumnIndexInverse32(); ColumnIndexInverse36(); ColumnIndexInverse40();
  }

  lemma LabelIndexInverse0()
    ensures forall i :: 0 <= i < 4 ==> LabelIndex(FieldMapping[i].0) == i
  {
    assert LabelIndex(FieldMapping[0].0) == 0;
    assert LabelIndex(FieldMapping[1].0) == 1;
    assert LabelIndex(FieldMapping[2].0) == 2;
    assert LabelIndex(FieldMapping[3].0) == 3;
  }

  lemma LabelIndexInverse4()
    ensures forall i :: 4 <= i < 8 ==> LabelIndex(FieldMapping[i].0) == i
  {
    assert LabelIndex(FieldMapping[4].0) == 4;
    assert LabelIndex(FieldMapping[5].0) == 5;
    assert LabelIndex(FieldMapping[6].0) == 6;
    assert LabelIndex(FieldMapping[7].0) == 7;
  }

  lemma LabelIndexInverse8()
    ensures forall i :: 8 <= i < 12 ==> LabelIndex(FieldMapping[i].0) == i
  {
    assert LabelIndex(FieldMapping[8].0) == 8;
    assert LabelIndex(FieldMapping[9].0) == 9;
    assert LabelIndex(FieldMapping[10].0) == 10;
    assert LabelIndex(FieldMapping[11].0) == 11;
  }

  lemma LabelIndexInverse12()
    ensures forall i :: 12 <= i < 16 ==> LabelIndex(FieldMapping[i].0) == i
  {
    assert LabelIndex(FieldMapping[12].0) == 12;
    assert LabelIndex(FieldMapping[13].0) == 13;
    assert LabelIndex(FieldMapping[14].0) == 14;
    assert LabelIndex(FieldMapping[15].0) == 15;
  }

  lemma LabelIndexInverse16()
    ensures forall i :: 16 <= i < 20 ==> LabelIndex(FieldMapping[i].0) == i
  {
    assert LabelIndex(FieldMapping[16].0) == 16;
    assert LabelIndex(FieldMapping[17].0) == 17;
    assert LabelIndex(FieldMapping[18].0) == 18;
    assert LabelIndex(FieldMapping[19].0) == 19;
  }

  lemma LabelIndexInverse20()
    ensures forall i :: 20 <= i < 24 ==> LabelIndex(FieldMapping[i].0) == i
  {
    assert LabelIndex(FieldMapping[20].0) == 20;
    assert LabelIndex(FieldMapping[21].0) == 21;
    assert LabelIndex(FieldMapping[22].0) == 22;
    assert LabelIndex(FieldMapping[23].0) == 23;
  }

  lemma LabelIndexInverse24()
    ensures forall i :: 24 <= i < 28 ==> LabelIndex(FieldMapping[i].0) == i
  {
    assert LabelIndex(FieldMapping[24].0) == 24;
    assert LabelIndex(FieldMapping[25].0) == 25;
    assert LabelIndex(FieldMapping[26].0) == 26;
    assert LabelIndex(FieldMapping[27].0) == 27;
  }

  lemma LabelIndexInverse28()
    ensures forall i :: 28 <= i < 32 ==> LabelIndex(FieldMapping[i].0) == i
  {
    assert LabelIndex(FieldMapping[28].0) == 28;
    assert LabelIndex(FieldMapping[29].0) == 29;
    assert LabelIndex(FieldMapping[30].0) == 30;
    assert LabelIndex(FieldMapping[31].0) == 31;
  }

  lemma LabelIndexInverse32()
    ensures forall i :: 32 <= i < 36 ==> LabelIndex(FieldMapping[i].0) == i
  {
    assert LabelIndex(FieldMapping[32].0) == 32;
    assert LabelIndex(FieldMapping[33].0) == 33;
    assert LabelIndex(FieldMapping[34].0) == 34;
    assert LabelIndex(FieldMapping[35].0) == 35;
  }

  lemma LabelIndexInverse36()
    ensures forall i :: 36 <= i < 40 ==> LabelIndex(FieldMapping[i].0) == i
  {
    assert LabelIndex(FieldMapping[36].0) == 36;
    assert LabelIndex(FieldMapping[37].0) == 37;
    assert LabelIndex(FieldMapping[38].0) == 38;
    assert LabelIndex(FieldMapping[39].0) == 39;
  }

  lemma LabelIndexInverse40()
    ensures forall i :: 40 <= i < 41 ==> LabelIndex(FieldMapping[i].0) == i
  {
    assert LabelIndex(FieldMapping[40].0) == 40;
  }

  /** `LabelIndex` recovers the position of every Russian label. */
  lemma LabelIndexInverse()
    ensures forall i :: 0 <= i < |FieldMapping| ==> LabelIndex(FieldMapping[i].0) == i
  {
    LabelIndexInverse0(); LabelIndexInverse4(); LabelIndexInverse8(); LabelIndexInverse12(); LabelIndexInverse16(); LabelIndexInverse20(); LabelIndexInverse24(); LabelIndexInverse28(); LabelIndexInverse32(); LabelIndexInverse36(); LabelIndexInverse40();
  }

  /** The dictionary literal holds each Russian label once. */
  lemma FieldMappingKeysUnique()
    ensures UniqueKeys(FieldMapping)
  {
    LabelIndexInverse();
  }

  /** No two Russian labels map to the same English column. */
  lemma FieldNamesDistinct()
    ensures forall i, j :: 0 <= i < j < |FieldMapping| ==> FieldMapping[i].1 != FieldMapping[j].1
  {
    ColumnIndexInverse();
  }

  /** A name that `ColumnIndex` does not place is not a mapped column. */
  lemma UnmappedColumn(s: string)
    requires ColumnIndex(s) == -1
    ensures forall i :: 0 <= i < |FieldMapping| ==> FieldMapping[i].1 != s
  {
    ColumnIndexInverse();
  }

  /** The extra column is not one of the mapped ones. */
  lemma FirstPaymentDateNotMapped()
    ensures forall i :: 0 <= i < |FieldMapping| ==> FieldMapping[i].1 != FirstPaymentDate
  {
    UnmappedColumn(FirstPaymentDate);
  }

  /** The columns that later processing treats specially are all mapped. */
  lemma SpecialColumnsMapped()
    ensures exists i :: 0 <= i < |FieldMapping| && FieldMapping[i].1 == "Coupon Frequency"
    ensures exists i :: 0 <= i < |FieldMapping| && FieldMapping[i].1 == "Interest Payment Dates"
    ensures exists i :: 0 <= i < |FieldMapping| && FieldMapping[i].1 == "Early Redemption Option"
    ensures exists i :: 0 <= i < |FieldMapping| &&
              FieldMapping[i].1 == "Trading Restrictions (incl. qualified investors)"
    ensures exists i :: 0 <= i < |FieldMapping| &&
              FieldMapping[i].1 == "Included in the exchange index universe"
  {
    assert FieldMapping[13].1 == "Coupon Frequency";
    assert FieldMapping[14].1 == "Interest Payment Dates";
    assert FieldMapping[17].1 == "Early Redemption Option";
    assert FieldMapping[29].1 == "Trading Restrictions (incl. qualified investors)";
    assert FieldMapping[30].1 == "Included in the exchange index universe";
  }

  /** Every coupon frequency is a number of payments per year. */
  lemma CouponValuesAreCounts()
    ensures forall i :: 0 <= i < |CouponFrequencyMapping| ==>
              CouponFrequencyMapping[i].1 in ["1", "2", "4", "12"]
  {
  }

  /** Every boolean value is "Yes" or "No". */
  lemma BooleanValuesAreYesNo()
    ensures forall i :: 0 <= i < |BooleanMapping| ==>
              BooleanMapping[i].1 == "Yes" || BooleanMapping[i].1 == "No"
  {
  }

  /** "полугодие" contains the generic key "год", but all half-year keys come first, so a
      text mentioning a half-year is looked up as two payments a year. */
  lemma HalfYearBeforeYear(text: string)
    requires Contains(text, "полугодие")
    ensures Contains("полугодие", CouponFrequencyMapping[6].0)
    ensures FirstMatch(CouponFrequencyMapping, text).Some?
    ensures CouponFrequencyMapping[FirstMatch(CouponFrequencyMapping, text).value].1 == "2"
  {
    assert OccursAt("полугодие", "год", 4);
    FirstMatchAtMost(CouponFrequencyMapping, text, 2);
  }

  /** "предусмотрена" and "предусмотрено" are declared before their negations and occur in
      them, so a text stating that something is not provided is looked up as "Yes". */
  lemma NegationReadsAsYes(text: string)
    requires Contains(text, "не предусмотрена") || Contains(text, "не предусмотрено")
    ensures FirstMatch(BooleanMapping, text).Some?
    ensures BooleanMapping[FirstMatch(BooleanMapping, text).value].1 == "Yes"
  {
    if Contains(text, "не предусмотрена") {
      NegationOccurs();
      ContainsTrans(text, "не предусмотрена", "предусмотрена");
      FirstMatchAtMost(BooleanMapping, text, 1);
    } else {
      NegationOccurs();
      ContainsTrans(text, "не предусмотрено", "предусмотрено");
      FirstMatchAtMost(BooleanMapping, text, 2);
    }
  }

  /** Each negated key ends with the key it negates. */
  lemma NegationOccurs()
    ensures OccursAt("не предусмотрена", "предусмотрена", 3)
    ensures OccursAt("не предусмотрено", "предусмотрено", 3)
  {
    assert "не предусмотрена"[3..] == "предусмотрена";
    assert "не предусмотрено"[3..] == "предусмотрено";
  }
}

=== FILE: dates.dfy ===
/** `parse_interest_payment_dates` (`spbe_parser/utils.py`): the Russian "DD month"
    dates of a coupon schedule as `[MM/DD ; MM/DD]`, and the first payment date of a
    `начиная с D month YYYY` clause as `MM/DD/YYYY`. The two regular expressions are
    modelled as scanners; for both patterns backtracking cannot change the outcome, since
    a month name or word never starts with whitespace and a one-digit day must be
    followed by whitespace. */
module PaymentDates {
  import opened Text
  import opened Dicts

  /** The genitive month names and their two-digit numbers. */
  const MonthMapping: Dict := [
    ("января", "01"), ("февраля", "02"), ("марта", "03"), ("апреля", "04"),
    ("мая", "05"), ("июня", "06"), ("июля", "07"), ("августа", "08"),
    ("сентября", "09"), ("октября", "10"), ("ноября", "11"), ("декабря", "12")
  ]

  /** A month number from `01` to `12`. */
  predicate IsMonthNumber(s: string) {
    |s| == 2 && IsDigit(s[0]) && IsDigit(s[1]) &&
    1 <= (s[0] as int - '0' as int) * 10 + (s[1] as int - '0' as int) <= 12
  }

  /** What the scanner needs of a month table: names that start with a non-whitespace
      character, and month numbers as values. */
  predicate MonthTable(months: Dict) {
    forall k :: 0 <= k < |months| ==>
      months[k].0 != [] && !IsSpace(months[k].0[0]) && IsMonthNumber(months[k].1)
  }

  lemma MonthMappingIsMonthTable()
    ensures MonthTable(MonthMapping)
  {
    forall k | 0 <= k < |MonthMapping|
      ensures MonthMapping[k].0 != [] && !IsSpace(MonthMapping[k].0[0]) && IsMonthNumber(MonthMapping[k].1)
    {
      assert '\U{0430}' <= MonthMapping[k].0[0] <= '\U{044F}';
    }
  }

  /** `month_mapping.get(name, '??')`. */
  function MonthNumber(months: Dict, name: string): (r: string)
    requires MonthTable(months)
    ensures |r| == 2
    ensures name in Keys(months) ==>
              IsMonthNumber(r) && exists i :: 0 <= i < |months| && months[i] == (name, r)
    ensures name !in Keys(months) ==> r == "??"
  {
    GetOr(months, name, "??")
  }

  /** `str.zfill(2)` on a string of digits. */
  function ZFill2(s: string): (r: string)
    ensures |s| <= 2 ==> |r| == 2
    ensures AllDigits(s) ==> AllDigits(r)
    ensures IsSuffix(s, r) && forall i :: 0 <= i < |r| - |s| ==> r[i] == '0'
  {
    if |s| >= 2 then s else if |s| == 1 then "0" + s else "00"
  }

  // ---------------------------------------------------------------------------
  // the scanner pieces

  /** `\d{1,2}` at `p`, taking two digits when there are two. */
  function DayAt(t: string, p: nat): (r: Option<string>)
    ensures r.None? <==> !(p < |t| && IsDigit(t[p]))
    ensures r.Some? ==> 1 <= |r.value| <= 2 && AllDigits(r.value) && OccursAt(t, r.value, p)
    ensures r.Some? ==> (|r.value| == 2 <==> p + 1 < |t| && IsDigit(t[p + 1]))
  {
    if p < |t| && IsDigit(t[p]) then
      if p + 1 < |t| && IsDigit(t[p + 1]) then Some(t[p..p + 2]) else Some(t[p..p + 1])
    else None
  }

  /** Every character of `t[a..b]` is whitespace. */
  predicate AllSpace(t: string, a: int, b: int)
    requires 0 <= a && b <= |t|
  {
    forall i :: a <= i < b ==> IsSpace(t[i])
  }

  /** The end of the whitespace run starting at `q`. */
  function SpaceEnd(t: string, q: nat): (r: nat)
    requires q <= |t|
    ensures q <= r <= |t|
    ensures AllSpace(t, q, r)
    ensures r == |t| || !IsSpace(t[r])
    decreases |t| - q
  {
    if q < |t| && IsSpace(t[q]) then SpaceEnd(t, q + 1) else q
  }

  /** The end of the word-character run starting at `q`. */
  function WordEnd(t: string, q: nat): (r: nat)
    requires q <= |t|
    ensures q <= r <= |t|
    ensures forall i :: q <= i < r ==> IsWordChar(t[i])
    ensures r == |t| || !IsWordChar(t[r])
    decreases |t| - q
  {
    if q < |t| && IsWordChar(t[q]) then WordEnd(t, q + 1) else q
  }

  /** A whitespace run ends exactly where the first non-whitespace character stands. */
  lemma SpaceEndAt(t: string, a: nat, q: nat)
    requires a <= q < |t|
    requires AllSpace(t, a, q)
    requires !IsSpace(t[q])
    ensures SpaceEnd(t, a) == q
  {
    var r := SpaceEnd(t, a);
    assert r >= q;
    assert r <= q;
  }

  /** The alternation of month names at `q`, tried in declaration order. */
  function MonthAt(months: Dict, t: string, q: nat): (r: Option<string>)
    ensures r.Some? ==> r.value in Keys(months) && OccursAt(t, r.value, q)
    ensures r.None? ==> forall k :: 0 <= k < |months| ==> !OccursAt(t, months[k].0, q)
  {
    MonthFrom(months, t, q, 0)
  }

  function MonthFrom(months: Dict, t: string, q: nat, k: nat): (r: Option<string>)
    requires k <= |months|
    ensures r.Some? ==> r.value in Keys(months) && OccursAt(t, r.value, q)
    ensures r.None? ==> forall j :: k <= j < |months| ==> !OccursAt(t, months[j].0, q)
    decreases |months| - k
  {
    if k == |months| then None
    else if OccursAt(t, months[k].0, q) then
      assert Keys(months)[k] == months[k].0;
      Some(months[k].0)
    else MonthFrom(months, t, q, k + 1)
  }

  // ---------------------------------------------------------------------------
  // findall(r'(\d{1,2})\s+(января|…|декабря)')

  datatype DateMatch = DateMatch(start: nat, day: string, month: string, end: nat)

  /** The pattern matches the text from `m.start` to `m.end` with these two groups. */
  predicate IsDateMatch(months: Dict, t: string, m: DateMatch) {
    && 1 <= |m.day| <= 2 && AllDigits(m.day) && OccursAt(t, m.day, m.start)
    && m.month in Keys(months)
    && m.start + |m.day| < m.end - |m.month|
    && OccursAt(t, m.month, m.end - |m.month|)
    && AllSpace(t, m.start + |m.day|, m.end - |m.month|)
  }

  /** The match the regular expression finds at `p`, if any. */
  function DateMatchAt(months: Dict, t: string, p: nat): (r: Option<DateMatch>)
    ensures r.Some? ==> IsDateMatch(months, t, r.value) && r.value.start == p && p < r.value.end <= |t|
  {
    match DayAt(t, p)
    case None => None
    case Some(d) =>
      var q := SpaceEnd(t, p + |d|);
      if q == p + |d| then None
      else match MonthAt(months, t, q)
        case None => None
        case Some(m) => Some(DateMatch(p, d, m, q + |m|))
  }

  /** Whenever the pattern can match at a position, the scanner finds a match there. */
  lemma DateMatchComplete(months: Dict, t: string, m: DateMatch)
    requires MonthTable(months) && IsDateMatch(months, t, m)
    ensures DateMatchAt(months, t, m.start).Some?
  {
    var p, q := m.start, m.end - |m.month|;
    var k :| 0 <= k < |months| && months[k].0 == m.month;
    assert t[q] == m.month[0];
    SpaceEndAt(t, p + |m.day|, q);
    DayFound(t, p, m.day);
    MonthFound(months, t, q, k);
  }

  /** One or two digits followed by a non-digit are read as the day. */
  lemma DayFound(t: string, p: nat, day: string)
    requires 1 <= |day| <= 2 && AllDigits(day) && OccursAt(t, day, p)
    requires p + |day| < |t| && IsSpace(t[p + |day|])
    ensures DayAt(t, p) == Some(day)
  {
    assert t[p] == day[0];
    if |day| == 2 {
      assert t[p + 1] == day[1];
    }
  }

  /** A month name occurring at `q` makes the alternation match there. */
  lemma MonthFound(months: Dict, t: string, q: nat, k: int)
    requires 0 <= k < |months| && OccursAt(t, months[k].0, q)
    ensures MonthAt(months, t, q).Some?
  {
  }

  /** Position `p` lies inside one of the matches. */
  predicate Covered(ms: seq<DateMatch>, p: nat) {
    exists k :: 0 <= k < |ms| && ms[k].start <= p < ms[k].end
  }

  /** `re.findall` from position `from`: the leftmost match, then the search goes on after
      its end. */
  function Scan(months: Dict, t: string, from: nat): (r: seq<DateMatch>)
    requires from <= |t|
    ensures forall k :: 0 <= k < |r| ==> IsDateMatch(months, t, r[k]) && from <= r[k].start
    ensures forall k :: 0 <= k < |r| ==> DateMatchAt(months, t, r[k].start) == Some(r[k])
    ensures Ordered(r)
    ensures forall p :: from <= p < |t| && !Covered(r, p) ==> DateMatchAt(months, t, p).None?
    decreases |t| - from
  {
    if from == |t| then []
    else match DateMatchAt(months, t, from)
      case None => Scan(months, t, from + 1)
      case Some(m) =>
        var rest := Scan(months, t, m.end);
        ScanCons(months, t, from, m, rest);
        [m] + rest
  }

  /** A match at `from` followed by the scan after its end satisfies the scan's contract. */
  lemma ScanCons(months: Dict, t: string, from: nat, m: DateMatch, rest: seq<DateMatch>)
    requires from < |t| && DateMatchAt(months, t, from) == Some(m)
    requires forall k :: 0 <= k < |rest| ==> IsDateMatch(months, t, rest[k]) && m.end <= rest[k].start
    requires forall k :: 0 <= k < |rest| ==> DateMatchAt(months, t, rest[k].start) == Some(rest[k])
    requires Ordered(rest)
    requires forall p :: m.end <= p < |t| && !Covered(rest, p) ==> DateMatchAt(months, t, p).None?
    ensures var r := [m] + rest;
      && (forall k :: 0 <= k < |r| ==> IsDateMatch(months, t, r[k]) && from <= r[k].start)
      && (forall k :: 0 <= k < |r| ==> DateMatchAt(months, t, r[k].start) == Some(r[k]))
      && Ordered(r)
      && (forall p :: from <= p < |t| && !Covered(r, p) ==> DateMatchAt(months, t, p).None?)
  {
    ConsMatches(months, t, from, m, rest);
    OrderedCons(m, rest);
    ConsComplete(months, t, from, m, rest);
  }

  /** Consing a match found at `from` keeps every match well formed and found where it starts. */
  lemma ConsMatches(months: Dict, t: string, from: nat, m: DateMatch, rest: seq<DateMatch>)
    requires from < |t| && DateMatchAt(months, t, from) == Some(m)
    requires forall k :: 0 <= k < |rest| ==> IsDateMatch(months, t, rest[k]) && m.end <= rest[k].start
    requires forall k :: 0 <= k < |rest| ==> DateMatchAt(months, t, rest[k].start) == Some(rest[k])
    ensures var r := [m] + rest;
      && (forall k :: 0 <= k < |r| ==> IsDateMatch(months, t, r[k]) && from <= r[k].start)
      && (forall k :: 0 <= k < |r| ==> DateMatchAt(months, t, r[k].start) == Some(r[k]))
  {
    var found := (x: DateMatch) =>
      IsDateMatch(months, t, x) && from <= x.start && DateMatchAt(months, t, x.start) == Some(x);
    assert found(m);
    assert forall k :: 0 <= k < |rest| ==> found(rest[k]);
    AllCons(found, m, rest);
  }

  lemma AllCons<T>(P: T -> bool, x: T, xs: seq<T>)
    requires P(x) && forall k :: 0 <= k < |xs| ==> P(xs[k])
    ensures forall k :: 0 <= k < |[x] + xs| ==> P(([x] + xs)[k])
  {
    forall k | 0 <= k < |[x] + xs| ensures P(([x] + xs)[k]) {
      if k > 0 { assert ([x] + xs)[k] == xs[k - 1]; }
    }
  }

  /** Consing a match found at `from` covers every position from `from` that starts a match. */
  lemma ConsComplete(months: Dict, t: string, from: nat, m: DateMatch, rest: seq<DateMatch>)
    requires from < |t| && DateMatchAt(months, t, from) == Some(m)
    requires forall p :: m.end <= p < |t| && !Covered(rest, p) ==> DateMatchAt(months, t, p).None?
    ensures forall p :: from <= p < |t| && !Covered([m] + rest, p) ==> DateMatchAt(months, t, p).None?
  {
    CoveredCons(m, rest);
  }

  /** Each match ends before the next one starts. */
  predicate Ordered(ms: seq<DateMatch>) {
    forall k :: 0 <= k < |ms| - 1 ==> ms[k].end <= ms[k + 1].start
  }

  lemma OrderedCons(m: DateMatch, rest: seq<DateMatch>)
    requires Ordered(rest)
    requires forall k :: 0 <= k < |rest| ==> m.end <= rest[k].start
    ensures Ordered([m] + rest)
  {
    var r := [m] + rest;
    forall k | 0 <= k < |r| - 1 ensures r[k].end <= r[k + 1].start {
      assert r[k + 1] == rest[k];
      if k > 0 { assert r[k] == rest[k - 1]; }
    }
  }

  /** A match covers its own span, and consing keeps what the rest covers. */
  lemma CoveredCons(m: DateMatch, rest: seq<DateMatch>)
    ensures forall k :: 1 <= k <= |rest| ==> ([m] + rest)[k] == rest[k - 1]
    ensures forall p: nat :: m.start <= p < m.end ==> Covered([m] + rest, p)
    ensures forall p: nat :: Covered(rest, p) ==> Covered([m] + rest, p)
  {
    var r := [m] + rest;
    forall p: nat | Covered(rest, p) ensures Covered(r, p) {
      var k :| 0 <= k < |rest| && rest[k].start <= p < rest[k].end;
      assert r[k + 1] == rest[k];
    }
    forall p: nat | m.start <= p < m.end ensures Covered(r, p) {
      assert r[0] == m;
    }
  }

  /** The scan finds nothing exactly when the pattern matches nowhere. */
  lemma ScanEmpty(months: Dict, t: string)
    ensures Scan(months, t, 0) == [] <==> forall p :: 0 <= p < |t| ==> DateMatchAt(months, t, p).None?
  {
    var r := Scan(months, t, 0);
    if r != [] {
      assert DateMatchAt(months, t, r[0].start).Some?;
    } else {
      assert forall p :: !Covered(r, p);
    }
  }

  // ---------------------------------------------------------------------------
  // formatting

  /** `MM/DD`. */
  predicate IsDateToken(s: string) {
    |s| == 5 && IsMonthNumber(s[..2]) && s[2] == '/' && IsDigit(s[3]) && IsDigit(s[4])
  }

  /** `f"{month_num}/{day.zfill(2)}"` for one match. */
  function Token(months: Dict, m: DateMatch): (r: string)
    requires MonthTable(months)
    requires 1 <= |m.day| <= 2 && AllDigits(m.day) && m.month in Keys(months)
    ensures IsDateToken(r)
    ensures exists i :: 0 <= i < |months| && months[i] == (m.month, r[..2])
    ensures r[3..] == m.day || r[3..] == "0" + m.day
  {
    var mm := MonthNumber(months, m.month);
    var dd := ZFill2(m.day);
    assert dd == m.day || dd == "0" + m.day;
    TokenShape(mm, dd);
    mm + "/" + dd
  }

  /** A month number and two digits joined by `/` make a token, and can be cut back out. */
  lemma TokenShape(mm: string, dd: string)
    requires IsMonthNumber(mm) && |dd| == 2 && AllDigits(dd)
    ensures IsDateToken(mm + "/" + dd)
    ensures (mm + "/" + dd)[..2] == mm && (mm + "/" + dd)[3..] == dd
  {
    var r := mm + "/" + dd;
    assert r[..2] == mm && r[2] == '/' && r[3..] == dd;
    assert r[3] == dd[0] && r[4] == dd[1];
  }

  function Tokens(months: Dict, t: string, ms: seq<DateMatch>): (r: seq<string>)
    requires MonthTable(months)
    requires forall k :: 0 <= k < |ms| ==> IsDateMatch(months, t, ms[k])
    ensures |r| == |ms|
    ensures forall k :: 0 <= k < |r| ==> IsDateToken(r[k])
  {
    seq(|ms|, k requires 0 <= k < |ms| && MonthTable(months) && IsDateMatch(months, t, ms[k]) =>
      Token(months, ms[k]))
  }

  /** `"[" + " ; ".join(tokens) + "]"`, or `""` without tokens. */
  function DatesString(tokens: seq<string>): (r: string)
    ensures r == [] <==> tokens == []
  {
    if tokens == [] then [] else "[" + Join(" ; ", tokens) + "]"
  }

  /** `s` is laid out as `[t0 ; t1 ; … ]` with five-character tokens: `8 n - 1` characters
      for `n` tokens, brackets at the ends, and `" ; "` between neighbouring tokens. */
  predicate DatesLayout(s: string) {
    && |s| >= 7 && (|s| + 1) % 8 == 0 && s[0] == '[' && s[|s| - 1] == ']'
    && forall k :: 0 <= k < (|s| + 1) / 8 - 1 ==> s[8 * k + 6..8 * k + 9] == " ; "
  }

  /** Reads the five-character tokens back out of a dates string; `None` for a string
      that is neither empty nor laid out as a bracketed `" ; "` join. */
  function DecodeDates(s: string): (r: Option<seq<string>>)
    ensures r.Some? <==> s == [] || DatesLayout(s)
    ensures s == [] ==> r == Some([])
    ensures r.Some? && s != [] ==>
              && |r.value| == (|s| + 1) / 8
              && forall k :: 0 <= k < |r.value| ==> r.value[k] == s[8 * k + 1..8 * k + 6]
  {
    if s == [] then Some([])
    else if !DatesLayout(s) then None
    else Some(seq((|s| + 1) / 8, k requires 0 <= k < (|s| + 1) / 8 => s[8 * k + 1..8 * k + 6]))
  }

  /** The layout of a join of five-character tokens: token `k` at offset `8 k`, `" ; "`
      between neighbours. */
  lemma {:induction false} JoinLayout(tokens: seq<string>)
    requires tokens != []
    requires forall k :: 0 <= k < |tokens| ==> |tokens[k]| == 5
    ensures |Join(" ; ", tokens)| == 8 * |tokens| - 3
    ensures forall k :: 0 <= k < |tokens| ==> Join(" ; ", tokens)[8 * k..8 * k + 5] == tokens[k]
    ensures forall k :: 0 <= k < |tokens| - 1 ==> Join(" ; ", tokens)[8 * k + 5..8 * k + 8] == " ; "
  {
    if |tokens| > 1 {
      var tail := tokens[1..];
      JoinLayout(tail);
      var j := Join(" ; ", tokens);
      var jt := Join(" ; ", tail);
      assert j == tokens[0] + " ; " + jt;
      HeadSlices(tokens[0], jt);
      forall k | 0 <= k < |tokens| ensures j[8 * k..8 * k + 5] == tokens[k] {
        if k > 0 {
          ShiftSlice(tokens[0], jt, 8 * k, 8 * k + 5);
          assert 8 * k - 8 == 8 * (k - 1) && tail[k - 1] == tokens[k];
        }
      }
      forall k | 0 <= k < |tokens| - 1 ensures j[8 * k + 5..8 * k + 8] == " ; " {
        if k > 0 {
          ShiftSlice(tokens[0], jt, 8 * k + 5, 8 * k + 8);
          assert 8 * k + 5 - 8 == 8 * (k - 1) + 5 && k - 1 < |tail| - 1;
        }
      }
    }
  }

  /** Past a five-character token and its separator, the join is the rest of the join. */
  lemma ShiftSlice(a: string, jt: string, lo: int, hi: int)
    requires |a| == 5 && 8 <= lo <= hi <= |jt| + 8
    ensures (a + " ; " + jt)[lo..hi] == jt[lo - 8..hi - 8]
  {
  }

  /** A join starts with its first token and then the separator. */
  lemma HeadSlices(a: string, jt: string)
    requires |a| == 5
    ensures (a + " ; " + jt)[..5] == a && (a + " ; " + jt)[5..8] == " ; "
  {
  }

  /** Decoding a dates string gives back its tokens. */
  lemma DecodeDatesString(tokens: seq<string>)
    requires forall k :: 0 <= k < |tokens| ==> |tokens[k]| == 5
    ensures DecodeDates(DatesString(tokens)) == Some(tokens)
  {
    if tokens != [] {
      JoinLayout(tokens);
      var j := Join(" ; ", tokens);
      var s := DatesString(tokens);
      assert s == "[" + j + "]";
      forall k | 0 <= k < (|s| + 1) / 8 - 1 ensures s[8 * k + 6..8 * k + 9] == " ; " {
        assert s[8 * k + 6..8 * k + 9] == j[8 * k + 5..8 * k + 8];
      }
      assert DatesLayout(s);
      DecodeLayout(s, j, tokens);
    }
  }

  /** Decoding a bracketed string that has token `k` at offset `8 k` inside the brackets. */
  lemma DecodeLayout(s: string, j: string, tokens: seq<string>)
    requires tokens != [] && s == "[" + j + "]" && |j| == 8 * |tokens| - 3 && DatesLayout(s)
    requires forall k :: 0 <= k < |tokens| ==> j[8 * k..8 * k + 5] == tokens[k]
    ensures DecodeDates(s) == Some(tokens)
  {
    var r := DecodeDates(s).value;
    assert |s| + 1 == 8 * |tokens|;
    assert |r| == |tokens|;
    forall k | 0 <= k < |tokens| ensures r[k] == tokens[k] {
      assert r[k] == s[8 * k + 1..8 * k + 6];
      assert s[8 * k + 1..8 * k + 6] == j[8 * k..8 * k + 5];
    }
    assert r == tokens;
  }

  /** Between two tokens of the layout stands `;`. */
  lemma LayoutSeparator(s: string, k: nat)
    requires DatesLayout(s) && k < (|s| + 1) / 8 - 1
    ensures s[8 * k + 7] == ';'
  {
    assert s[8 * k + 6..8 * k + 9] == " ; ";
  }

  /** Text long enough for two tokens is read only when its first separator is `;`. */
  lemma SeparatorRequired(s: string)
    requires |s| >= 15 && s[7] != ';'
    ensures DecodeDates(s).None?
  {
    if DatesLayout(s) {
      LayoutSeparator(s, 0);
    }
  }

  /** Text in another layout is not read: with `,` in place of `;` no token list is decoded. */
  lemma DecodeRejectsOtherSeparator()
    ensures DecodeDates("[01/15 , 02/15]").None?
  {
    SeparatorRequired("[01/15 , 02/15]");
  }

  /** The other half of the round trip: a string that decodes is the dates string of its
      tokens, so no two dates strings decode alike. */
  lemma EncodeDecodedDates(s: string)
    requires DecodeDates(s).Some?
    ensures DatesString(DecodeDates(s).value) == s
  {
    if s != [] {
      var tokens := DecodeDates(s).value;
      var n := |tokens|;
      JoinLayout(tokens);
      var j := Join(" ; ", tokens);
      var e := DatesString(tokens);
      assert e == "[" + j + "]";
      forall i | 1 <= i < |s| - 1 ensures e[i] == s[i] {
        LayoutAt(s, j, tokens, i - 1);
      }
      assert e[0] == s[0] && e[|e| - 1] == s[|s| - 1];
    }
  }

  /** Character `i` of a laid-out join is the same in the decoded string. */
  lemma LayoutAt(s: string, j: string, tokens: seq<string>, i: int)
    requires DatesLayout(s) && DecodeDates(s) == Some(tokens)
    requires |j| == 8 * |tokens| - 3 && 0 <= i < |j|
    requires forall k :: 0 <= k < |tokens| ==> j[8 * k..8 * k + 5] == tokens[k]
    requires forall k :: 0 <= k < |tokens| - 1 ==> j[8 * k + 5..8 * k + 8] == " ; "
    ensures j[i] == s[i + 1]
  {
    var k := i / 8;
    var r := i % 8;
    assert i == 8 * k + r && 0 <= r < 8;
    if r < 5 {
      assert j[i] == j[8 * k..8 * k + 5][r];
      assert tokens[k] == s[8 * k + 1..8 * k + 6];
    } else {
      assert k < |tokens| - 1;
      assert j[i] == j[8 * k + 5..8 * k + 8][r - 5];
      assert s[8 * k + 6..8 * k + 9] == " ; ";
      assert s[i + 1] == s[8 * k + 6..8 * k + 9][r - 5];
    }
  }

  // ---------------------------------------------------------------------------
  // re.search(r'начиная с (\d{1,2})\s+(\w+)\s+(\d{4})')

  const Since: string := "начиная с "

  datatype Clause = Clause(day: string, month: string, year: string)

  /** The clause the regular expression matches at `p`, if any. */
  function ClauseAt(t: string, p: nat): (r: Option<Clause>)
    ensures r.Some? ==> OccursAt(t, Since, p)
    ensures r.Some? ==> 1 <= |r.value.day| <= 2 && AllDigits(r.value.day)
    ensures r.Some? ==> r.value.month != [] && forall i :: 0 <= i < |r.value.month| ==> IsWordChar(r.value.month[i])
    ensures r.Some? ==> |r.value.year| == 4 && AllDigits(r.value.year)
  {
    if !OccursAt(t, Since, p) then None
    else
      var a := p + |Since|;
      match DayAt(t, a)
      case None => None
      case Some(d) =>
        var b := SpaceEnd(t, a + |d|);
        var c := WordEnd(t, b);
        var e := SpaceEnd(t, c);
        if b == a + |d| || c == b || e == c then None
        else if e + 4 <= |t| && AllDigits(t[e..e + 4]) then Some(Clause(d, t[b..c], t[e..e + 4]))
        else None
  }

  /** A clause starts at `p`, and none starts between `from` and `p`. */
  predicate LeftmostClause(t: string, from: nat, p: nat) {
    && from <= p <= |t|
    && ClauseAt(t, p).Some?
    && forall q :: from <= q < p ==> ClauseAt(t, q).None?
  }

  /** The leftmost clause at or after `from`, as `re.search` finds it. */
  function FirstClause(t: string, from: nat): (r: Option<Clause>)
    requires from <= |t|
    ensures r.None? <==> forall p :: from <= p <= |t| ==> ClauseAt(t, p).None?
    ensures r.Some? ==> exists p :: LeftmostClause(t, from, p) && ClauseAt(t, p) == r
    decreases |t| - from
  {
    if ClauseAt(t, from).Some? then
      assert LeftmostClause(t, from, from);
      ClauseAt(t, from)
    else if from == |t| then None
    else
      var r := FirstClause(t, from + 1);
      LeftmostStep(t, from, r);
      r
  }

  /** Past a position where no clause starts, the leftmost clause from the next position is
      the leftmost one. */
  lemma LeftmostStep(t: string, from: nat, c: Option<Clause>)
    requires from < |t| && ClauseAt(t, from).None?
    requires c.Some? ==> exists p :: LeftmostClause(t, from + 1, p) && ClauseAt(t, p) == c
    ensures c.Some? ==> exists p :: LeftmostClause(t, from, p) && ClauseAt(t, p) == c
  {
    if c.Some? {
      var p :| LeftmostClause(t, from + 1, p) && ClauseAt(t, p) == c;
      assert LeftmostClause(t, from, p);
    }
  }

  /** `MM/DD/YYYY`, where the month may be `??`. */
  predicate IsFirstDate(s: string) {
    && |s| == 10 && s[2] == '/' && s[5] == '/'
    && (IsMonthNumber(s[..2]) || s[..2] == "??")
    && IsDigit(s[3]) && IsDigit(s[4]) && AllDigits(s[6..])
  }

  /** `f"{mm}/{dd}/{yyyy}"`. */
  function SlashDate(mm: string, dd: string, yyyy: string): (r: string)
    requires |mm| == 2 && |dd| == 2
    ensures |r| == 6 + |yyyy| && r[2] == '/' && r[5] == '/'
    ensures r[..2] == mm && r[3..5] == dd && r[6..] == yyyy
  {
    mm + "/" + dd + "/" + yyyy
  }

  lemma SlashDateShape(mm: string, dd: string, yyyy: string)
    requires IsMonthNumber(mm) || mm == "??"
    requires |dd| == 2 && AllDigits(dd) && |yyyy| == 4 && AllDigits(yyyy)
    ensures IsFirstDate(SlashDate(mm, dd, yyyy))
  {
    var r := SlashDate(mm, dd, yyyy);
    assert r[3] == dd[0] && r[4] == dd[1];
  }

  /** `r` is the date `MM/DD/YYYY` of clause `c`: the month's number, the zero-filled day
      and the year. */
  predicate DateOfClause(months: Dict, r: string, c: Clause)
    requires MonthTable(months)
  {
    && |r| == 10
    && r[..2] == MonthNumber(months, c.month)
    && r[3..5] == ZFill2(c.day)
    && r[6..] == c.year
  }

  /** The first payment date of the lower-cased text, `""` without a clause: the date of
      the leftmost clause. */
  function FirstDate(months: Dict, t: string): (r: string)
    requires MonthTable(months)
    ensures r == [] <==> forall p :: 0 <= p <= |t| ==> ClauseAt(t, p).None?
    ensures r != [] ==> IsFirstDate(r)
    ensures r != [] ==> exists p :: LeftmostClause(t, 0, p) && DateOfClause(months, r, ClauseAt(t, p).value)
  {
    match FirstClause(t, 0)
    case None => []
    case Some(c) =>
      var p :| LeftmostClause(t, 0, p) && ClauseAt(t, p) == Some(c);
      var mm := MonthNumber(months, c.month);
      var dd := ZFill2(c.day);
      SlashDateShape(mm, dd, c.year);
      var r := SlashDate(mm, dd, c.year);
      assert DateOfClause(months, r, c);
      r
  }

  // ---------------------------------------------------------------------------
  // parse_interest_payment_dates

  /** `(dates_str, first_date)` for a schedule text. */
  function ParseInterestPaymentDates(text: string): (r: (string, string))
    ensures text == [] ==> r == ([], [])
    ensures r.0 == [] <==> text == [] || forall p :: 0 <= p < |text| ==> DateMatchAt(MonthMapping, Lower(text), p).None?
    ensures r.0 != [] ==> r.0[0] == '[' && r.0[|r.0| - 1] == ']'
    ensures DecodeDates(r.0).Some?
    ensures forall k :: 0 <= k < |DecodeDates(r.0).value| ==> IsDateToken(DecodeDates(r.0).value[k])
    ensures r.1 != [] ==> text != [] && IsFirstDate(r.1)
  {
    if text == [] then ([], [])
    else
      var t := Lower(text);
      var months := MonthMapping;
      MonthMappingIsMonthTable();
      var ms := Scan(months, t, 0);
      var tokens := Tokens(months, t, ms);
      ScanEmpty(months, t);
      DecodeDatesString(tokens);
      (DatesString(tokens), FirstDate(months, t))
  }

  /** The dates string lists, in text order, one `MM/DD` token per day-month pair that
      `re.findall` finds in the lower-cased text; the first date is the date of the leftmost
      "начиная с" clause, and `""` exactly when there is none. */
  lemma ParseInterestPaymentDatesSpec(text: string)
    ensures text != [] ==>
              && MonthTable(MonthMapping)
              && DecodeDates(ParseInterestPaymentDates(text).0) ==
                   Some(Tokens(MonthMapping, Lower(text), Scan(MonthMapping, Lower(text), 0)))
    ensures ParseInterestPaymentDates(text).1 == [] <==>
              text == [] || forall p :: 0 <= p <= |Lower(text)| ==> ClauseAt(Lower(text), p).None?
    ensures ParseInterestPaymentDates(text).1 != [] ==>
              && MonthTable(MonthMapping)
              && exists p :: && LeftmostClause(Lower(text), 0, p)
                             && DateOfClause(MonthMapping, ParseInterestPaymentDates(text).1, ClauseAt(Lower(text), p).value)
  {
    if text != [] {
      MonthMappingIsMonthTable();
      var t := Lower(text);
      DecodeDatesString(Tokens(MonthMapping, t, Scan(MonthMapping, t, 0)));
    }
  }
}

=== FILE: dicts.dfy ===
/** Python's `dict` from `str` to `str`: keys in insertion order, assignment to a present
    key keeps its position, assignment to a new key appends it. */
module Dicts {
  import opened Text

  type Dict = seq<(string, string)>

  function Keys(d: Dict): (r: seq<string>)
    ensures |r| == |d|
    ensures forall i :: 0 <= i < |d| ==> r[i] == d[i].0
  {
    if |d| == 0 then [] else [d[0].0] + Keys(d[1..])
  }

  function Values(d: Dict): (r: seq<string>)
    ensures |r| == |d|
    ensures forall i :: 0 <= i < |d| ==> r[i] == d[i].1
  {
    seq(|d|, i requires 0 <= i < |d| => d[i].1)
  }

  /** A dictionary holds each key once. */
  predicate UniqueKeys(d: Dict) {
    forall i, j :: 0 <= i < j < |d| ==> d[i].0 != d[j].0
  }

  /** `d.get(k)`: the value stored under `k`. */
  function Get(d: Dict, k: string): (r: Option<string>)
    ensures r.None? <==> k !in Keys(d)
    ensures r.Some? ==> exists i :: 0 <= i < |d| && d[i] == (k, r.value)
  {
    if |d| == 0 then None
    else if d[0].0 == k then Some(d[0].1)
    else
      var r := Get(d[1..], k);
      assert r.Some? ==> exists i :: 0 <= i < |d[1..]| && d[1..][i] == (k, r.value);
      assert k in Keys(d) <==> k in Keys(d[1..]) by {
        assert Keys(d) == [d[0].0] + Keys(d[1..]);
      }
      r
  }

  /** `d.get(k, default)`. */
  function GetOr(d: Dict, k: string, default: string): string {
    match Get(d, k)
    case Some(v) => v
    case None => default
  }

  /** With unique keys, the value found under a key is the one stored with it. */
  lemma {:induction false} GetUnique(d: Dict, i: int)
    requires UniqueKeys(d)
    requires 0 <= i < |d|
    ensures Get(d, d[i].0) == Some(d[i].1)
  {
    if i > 0 {
      GetUnique(d[1..], i - 1);
    }
  }

  /** `d[k] = v`. */
  function Put(d: Dict, k: string, v: string): (r: Dict)
    ensures Get(r, k) == Some(v)
  {
    if |d| == 0 || d[0].0 == k then [(k, v)] + (if |d| == 0 then [] else d[1..])
    else [d[0]] + Put(d[1..], k, v)
  }

  /** Assignment changes the value of its own key only. */
  lemma {:induction false} PutGet(d: Dict, k: string, v: string, k': string)
    ensures Get(Put(d, k, v), k') == if k' == k then Some(v) else Get(d, k')
  {
    if |d| > 0 && d[0].0 != k {
      PutGet(d[1..], k, v, k');
      assert Put(d, k, v)[1..] == Put(d[1..], k, v);
    }
  }

  /** Assignment keeps the key order, appending a key that was absent. */
  lemma {:induction false} PutKeys(d: Dict, k: string, v: string)
    ensures Keys(Put(d, k, v)) == if k in Keys(d) then Keys(d) else Keys(d) + [k]
  {
    if |d| > 0 {
      var r := Put(d, k, v);
      KeysCons(d);
      KeysCons(r);
      if d[0].0 != k {
        var t := Put(d[1..], k, v);
        assert r == [d[0]] + t;
        assert r[0] == d[0] && r[1..] == t;
        PutKeys(d[1..], k, v);
        if k in Keys(d[1..]) {
          assert Keys(r) == Keys(d);
        } else {
          assert k !in Keys(d);
          AppendAssoc(d[0].0, Keys(d[1..]), k);
        }
      } else {
        assert r == [(k, v)] + d[1..];
        assert r[1..] == d[1..];
        assert k in Keys(d);
      }
    }
  }

  lemma AppendAssoc(x: string, xs: seq<string>, y: string)
    ensures [x] + (xs + [y]) == ([x] + xs) + [y]
  {
  }

  /** The keys of a non-empty dictionary: its first key, then the rest's. */
  lemma KeysCons(d: Dict)
    requires d != []
    ensures Keys(d) == [d[0].0] + Keys(d[1..])
    ensures forall k :: k in Keys(d) <==> k == d[0].0 || k in Keys(d[1..])
  {
  }

  /** Assignment keeps a dictionary's keys unique. */
  lemma PutUnique(d: Dict, k: string, v: string)
    requires UniqueKeys(d)
    ensures UniqueKeys(Put(d, k, v))
  {
    PutKeys(d, k, v);
    DistinctKeys(d);
    var kd := Keys(d);
    if k !in kd {
      AppendDistinct(kd, k);
    }
    DistinctKeys(Put(d, k, v));
  }

  /** No two positions of `xs` hold the same element. */
  predicate Distinct(xs: seq<string>) {
    forall i, j :: 0 <= i < j < |xs| ==> xs[i] != xs[j]
  }

  /** Unique keys are distinct entries of the key list. */
  lemma DistinctKeys(d: Dict)
    ensures UniqueKeys(d) <==> Distinct(Keys(d))
  {
    var u := UniqueKeys(d);
    var q := Distinct(Keys(d));
    if u {
      UniqueKeysDistinct(d);
    }
    if q {
      DistinctUniqueKeys(d);
    }
  }

  lemma UniqueKeysDistinct(d: Dict)
    requires UniqueKeys(d)
    ensures Distinct(Keys(d))
  {
    var ks := Keys(d);
    forall i, j | 0 <= i < j < |ks| ensures ks[i] != ks[j] {
      assert ks[i] == d[i].0 && ks[j] == d[j].0;
    }
  }

  lemma DistinctUniqueKeys(d: Dict)
    requires Distinct(Keys(d))
    ensures UniqueKeys(d)
  {
    var ks := Keys(d);
    forall i, j | 0 <= i < j < |d| ensures d[i].0 != d[j].0 {
      assert ks[i] == d[i].0 && ks[j] == d[j].0;
    }
  }

  /** A new element appended to distinct elements keeps them distinct. */
  lemma AppendDistinct(xs: seq<string>, x: string)
    requires Distinct(xs)
    requires x !in xs
    ensures Distinct(xs + [x])
  {
  }

  /** Replacing the value of an entry keeps the keys. */
  lemma ReplaceValueKeys(d: Dict, i: int, v: string)
    requires 0 <= i < |d|
    ensures Keys(d[i := (d[i].0, v)]) == Keys(d)
    ensures UniqueKeys(d) ==> UniqueKeys(d[i := (d[i].0, v)])
  {
    assert forall j :: 0 <= j < |d| ==> d[i := (d[i].0, v)][j].0 == d[j].0;
  }

  /** The position of the first entry, in declaration order, whose key occurs in `text`
      (the loop `for key, value in table.items(): if key in text: return value`). */
  function FirstMatch(table: Dict, text: string): (r: Option<nat>)
    ensures r.Some? ==> r.value < |table| && Contains(text, table[r.value].0)
    ensures r.Some? ==> forall j :: 0 <= j < r.value ==> !Contains(text, table[j].0)
    ensures r.None? ==> forall j :: 0 <= j < |table| ==> !Contains(text, table[j].0)
  {
    FirstMatchFrom(table, text, 0)
  }

  function FirstMatchFrom(table: Dict, text: string, from: nat): (r: Option<nat>)
    requires from <= |table|
    ensures r.Some? ==> from <= r.value < |table| && Contains(text, table[r.value].0)
    ensures r.Some? ==> forall j :: from <= j < r.value ==> !Contains(text, table[j].0)
    ensures r.None? ==> forall j :: from <= j < |table| ==> !Contains(text, table[j].0)
    decreases |table| - from
  {
    if from == |table| then None
    else if Contains(text, table[from].0) then Some(from)
    else FirstMatchFrom(table, text, from + 1)
  }

  /** The key at position `j` occurs in `text` and no earlier key does. */
  predicate FirstKeyAt(table: Dict, text: string, j: int) {
    0 <= j < |table| && Contains(text, table[j].0) &&
    forall i :: 0 <= i < j ==> !Contains(text, table[i].0)
  }

  /** The scan stops exactly at the first key, in declaration order, that occurs. */
  lemma FirstMatchIsFirstKey(table: Dict, text: string, j: int)
    ensures FirstMatch(table, text) == Some(j) <==> FirstKeyAt(table, text, j)
  {
    var m := FirstMatch(table, text);
    if FirstKeyAt(table, text, j) {
      assert m.Some?;
      assert !(m.value < j);
      assert !(j < m.value);
    }
  }

  /** When the key at position `j` occurs in the text, the first match is at `j` or before. */
  lemma FirstMatchAtMost(table: Dict, text: string, j: nat)
    requires j < |table| && Contains(text, table[j].0)
    ensures FirstMatch(table, text).Some? && FirstMatch(table, text).value <= j
  {
  }

  /** Every key of every record. */
  function AllFields(records: seq<Dict>): set<string> {
    if records == [] then {}
    else (set x | x in Keys(records[0])) + AllFields(records[1..])
  }

  lemma {:induction false} AllFieldsMembers(records: seq<Dict>, x: string)
    ensures x in AllFields(records) <==> exists k :: 0 <= k < |records| && x in Keys(records[k])
  {
    if records != [] {
      AllFieldsMembers(records[1..], x);
      if exists k :: 0 <= k < |records[1..]| && x in Keys(records[1..][k]) {
        var k :| 0 <= k < |records[1..]| && x in Keys(records[1..][k]);
        assert records[k + 1] == records[1..][k];
      }
      if exists k :: 0 <= k < |records| && x in Keys(records[k]) {
        var k :| 0 <= k < |records| && x in Keys(records[k]);
        if k > 0 { assert records[1..][k - 1] == records[k]; }
      }
    }
  }
}

=== FILE: documents.dfy ===
/** What the prospectus parsers share about documents: the links they pick up, the
    documents (URL and file name) they collect without repeating a URL, the directory a
    bond's files go to, and the loop that downloads them and counts the successes. */
module Documents {
  import opened Text
  import opened Lists
  import Utils

  /** An `<a href>` element: its text and its `href`. */
  datatype Anchor = Anchor(text: string, href: string)

  /** A prospectus document: where to fetch it and the name to save it under. */
  datatype Doc = Doc(url: string, filename: string)

  function Urls(docs: seq<Doc>): (r: seq<string>)
    ensures |r| == |docs| && forall k :: 0 <= k < |docs| ==> r[k] == docs[k].url
  {
    seq(|docs|, k requires 0 <= k < |docs| => docs[k].url)
  }

  /** The links of the matched sections that `keep` accepts, section by section in
      document order. */
  function SectionLinks(sections: seq<seq<Anchor>>, keep: Anchor -> bool): (r: seq<Anchor>)
    ensures forall a :: a in r <==> keep(a) && exists k :: 0 <= k < |sections| && a in sections[k]
    decreases |sections|
  {
    if sections == [] then []
    else
      var rest := SectionLinks(sections[1..], keep);
      assert forall a :: (exists k :: 0 <= k < |sections| && a in sections[k]) <==>
                         a in sections[0] || exists k :: 0 <= k < |sections[1..]| && a in sections[1..][k] by {
        forall a | exists k :: 0 <= k < |sections| && a in sections[k]
          ensures a in sections[0] || exists k :: 0 <= k < |sections[1..]| && a in sections[1..][k] {
          var k :| 0 <= k < |sections| && a in sections[k];
          if k > 0 { assert sections[1..][k - 1] == sections[k]; }
        }
      }
      Filter(sections[0], keep) + rest
  }

  /** The section pass: a candidate is appended when no collected document has its URL. */
  function AddNew(docs: seq<Doc>, candidates: seq<Doc>): (r: seq<Doc>)
    ensures |docs| <= |r| <= |docs| + |candidates|
    decreases |candidates|
  {
    if candidates == [] then docs
    else
      var c := candidates[0];
      AddNew(if c.url in Urls(docs) then docs else docs + [c], candidates[1..])
  }

  /** The section pass keeps what the first pass found, appends only candidates whose URL
      is not yet collected, never the same URL twice, and leaves no candidate's URL out. */
  lemma {:induction false} AddNewSpec(docs: seq<Doc>, candidates: seq<Doc>)
    ensures var r := AddNew(docs, candidates);
      && r[..|docs|] == docs
      && (forall k :: |docs| <= k < |r| ==> r[k] in candidates && r[k].url !in Urls(docs))
      && (forall i, j :: |docs| <= i < j < |r| ==> r[i].url != r[j].url)
      && (forall c :: c in candidates ==> c.url in Urls(r))
    decreases |candidates|
  {
    if candidates != [] {
      var c := candidates[0];
      var next := if c.url in Urls(docs) then docs else docs + [c];
      AddNewSpec(next, candidates[1..]);
      var r := AddNew(next, candidates[1..]);
      assert r == AddNew(docs, candidates);
      AddNewStep(docs, c, candidates[1..], next, r);
    }
  }

  /** The inductive step of `AddNewSpec`: `next` is the collection after the first
      candidate `c`, and `r` what the rest of the candidates make of it. */
  lemma AddNewStep(docs: seq<Doc>, c: Doc, rest: seq<Doc>, next: seq<Doc>, r: seq<Doc>)
    requires next == if c.url in Urls(docs) then docs else docs + [c]
    requires |next| <= |r| && r[..|next|] == next
    requires forall k :: |next| <= k < |r| ==> r[k] in rest && r[k].url !in Urls(next)
    requires forall i, j :: |next| <= i < j < |r| ==> r[i].url != r[j].url
    requires forall d :: d in rest ==> d.url in Urls(r)
    ensures r[..|docs|] == docs
    ensures forall k :: |docs| <= k < |r| ==> r[k] in [c] + rest && r[k].url !in Urls(docs)
    ensures forall i, j :: |docs| <= i < j < |r| ==> r[i].url != r[j].url
    ensures forall d :: d in [c] + rest ==> d.url in Urls(r)
  {
    assert next[..|docs|] == docs;
    UrlsOfPrefix(docs, next);
    UrlsOfPrefix(next, r);
    assert c.url in Urls(next) by {
      if c.url !in Urls(docs) { assert Urls(next)[|docs|] == c.url; }
    }
    forall k | |docs| <= k < |r| ensures r[k] in [c] + rest && r[k].url !in Urls(docs) {
      if k < |next| {
        assert r[k] == next[k] == c;
      }
    }
    forall i, j | |docs| <= i < j < |r| ensures r[i].url != r[j].url {
      if i < |next| {
        assert r[i] == next[i] == c;
      }
    }
  }

  /** A collection's URLs stay in any collection that starts with it. */
  lemma UrlsOfPrefix(xs: seq<Doc>, ys: seq<Doc>)
    requires |xs| <= |ys| && ys[..|xs|] == xs
    ensures forall u :: u in Urls(xs) ==> u in Urls(ys)
  {
    forall u | u in Urls(xs) ensures u in Urls(ys) {
      var k :| 0 <= k < |xs| && Urls(xs)[k] == u;
      assert ys[k] == xs[k];
    }
  }

  /** Everything the section pass returns was collected before or is a candidate. */
  lemma AddNewWithin(docs: seq<Doc>, candidates: seq<Doc>, d: Doc)
    requires d in AddNew(docs, candidates)
    ensures d in docs || d in candidates
  {
    AddNewSpec(docs, candidates);
    var r := AddNew(docs, candidates);
    var k :| 0 <= k < |r| && r[k] == d;
    if k < |docs| { assert r[k] == r[..|docs|][k]; }
  }

  /** `create_directory_structure(issuer_name, isin, base_dir)`: the issuer's and the ISIN's
      cleaned names as two directory levels below `base`. */
  function DirectoryFor(issuerName: string, isin: string, base: string): (r: string)
    ensures IsSuffix(Utils.SanitizeFilename(isin), r)
  {
    PathJoin(PathJoin(base, Utils.SanitizeFilename(issuerName)), Utils.SanitizeFilename(isin))
  }

  /** The directory lies below `base`: a cleaned name has no `/`, so neither level replaces
      the path so far. Below a base without a trailing slash it is `base/issuer/isin`, where
      an empty issuer level leaves a single slash. */
  lemma DirectoryLayout(issuerName: string, isin: string, base: string)
    ensures var i := Utils.SanitizeFilename(issuerName);
      var s := Utils.SanitizeFilename(isin);
      var r := DirectoryFor(issuerName, isin, base);
      && IsPrefix(base, r)
      && IsSuffix(s, r)
      && (base != [] && base[|base| - 1] != '/' ==> r == base + "/" + i + (if i == [] then "" else "/") + s)
  {
    var i := Utils.SanitizeFilename(issuerName);
    var s := Utils.SanitizeFilename(isin);
    NoSlash(issuerName);
    NoSlash(isin);
    TwoLevels(base, i, s);
  }

  /** A cleaned name has no `/`. */
  lemma NoSlash(name: string)
    ensures '/' !in Utils.SanitizeFilename(name)
  {
    Utils.SanitizeFilenameSpec(name);
    assert '/' in Utils.Forbidden;
  }

  /** Joining a part that does not start with `/` extends the path. */
  lemma JoinBelow(a: string, b: string)
    requires b == [] || b[0] != '/'
    ensures IsPrefix(a, PathJoin(a, b))
    ensures a != [] && a[|a| - 1] != '/' ==> PathJoin(a, b) == a + "/" + b
    ensures a == [] || a[|a| - 1] == '/' ==> PathJoin(a, b) == a + b
  {
    assert (a + "/" + b)[..|a|] == a;
    assert (a + b)[..|a|] == a;
  }

  lemma PrefixTrans(a: string, b: string, c: string)
    requires IsPrefix(a, b) && IsPrefix(b, c)
    ensures IsPrefix(a, c)
  {
    assert c[..|a|] == c[..|b|][..|a|];
  }

  /** Joining two slash-free levels below `base`. */
  lemma TwoLevels(base: string, i: string, s: string)
    requires '/' !in i && '/' !in s
    ensures var r := PathJoin(PathJoin(base, i), s);
      && IsPrefix(base, r)
      && IsSuffix(s, r)
      && (base != [] && base[|base| - 1] != '/' ==> r == base + "/" + i + (if i == [] then "" else "/") + s)
  {
    assert i != [] ==> i[0] in i && i[|i| - 1] in i;
    assert s != [] ==> s[0] in s;
    var mid := PathJoin(base, i);
    JoinBelow(base, i);
    JoinBelow(mid, s);
    var r := PathJoin(mid, s);
    PrefixTrans(base, mid, r);
    if base != [] && base[|base| - 1] != '/' {
      if i == [] {
        assert mid == base + "/";
      } else {
        assert mid[|mid| - 1] == i[|i| - 1];
      }
    }
  }

  // ---------------------------------------------------------------------------
  // download_file and the download loop

  /** What a request for a file not yet on disk ends in: nothing is written (the request or
      the `open` fails), the file is written in full, or writing fails after `open` created
      the file, which then stays on disk. */
  datatype Fetch = NothingWritten | Written | WriteFails

  /** `download_file(url, path, force=False)` over the set of paths on disk: a path already
      there counts as saved and nothing is requested; otherwise the request's outcome
      decides the result, and any file it created stays. */
  function DownloadFile(disk: set<string>, path: string, outcome: Fetch): (r: (bool, set<string>))
    ensures r.0 <==> path in disk || outcome == Written
    ensures path in disk ==> r.1 == disk
    ensures r.0 ==> path in r.1
    ensures r.1 == disk || r.1 == disk + {path}
    ensures path in r.1 <==> path in disk || outcome != NothingWritten
  {
    if path in disk then (true, disk)
    else match outcome
      case NothingWritten => (false, disk)
      case Written => (true, disk + {path})
      case WriteFails => (false, disk + {path})
  }

  /** The paths the documents are saved to under `dir`, in order. */
  function Paths(dir: string, docs: seq<Doc>): (r: seq<string>)
    ensures |r| == |docs| && forall i :: 0 <= i < |docs| ==> r[i] == PathJoin(dir, docs[i].filename)
  {
    seq(|docs|, i requires 0 <= i < |docs| => PathJoin(dir, docs[i].filename))
  }

  /** The download loop's first `n` calls, to `paths[0]`, …, `paths[n - 1]`, starting from
      the paths on `disk`: `fetch(i)` is how the request of the `i`-th call would end. The
      result is the paths saved, in order, and the paths on disk afterwards. */
  function Run(paths: seq<string>, disk: set<string>, fetch: nat -> Fetch, n: nat): (r: (seq<string>, set<string>))
    requires n <= |paths|
    ensures |r.0| <= n && disk <= r.1
    decreases n
  {
    if n == 0 then ([], disk)
    else
      var before := Run(paths, disk, fetch, n - 1);
      var call := DownloadFile(before.1, paths[n - 1], fetch(n - 1));
      (before.0 + (if call.0 then [paths[n - 1]] else []), call.1)
  }

  /** Some call before the `n`-th is to `p` and its request left a file there. */
  ghost predicate LeftBefore(paths: seq<string>, fetch: nat -> Fetch, n: nat, p: string)
    requires n <= |paths|
  {
    exists j :: 0 <= j < n && paths[j] == p && fetch(j) != NothingWritten
  }

  /** Whether the `i`-th call counts a save, stated without the loop: its path was on disk
      at the start, its own request writes the file, or an earlier call to the same path
      left a file behind (even a partly written one). */
  ghost predicate Saves(paths: seq<string>, disk: set<string>, fetch: nat -> Fetch, i: nat)
    requires i < |paths|
  {
    || paths[i] in disk
    || fetch(i) == Written
    || LeftBefore(paths, fetch, i, paths[i])
  }

  /** Some call before the `n`-th is to `p` and counts a save. */
  ghost predicate SavedBefore(paths: seq<string>, disk: set<string>, fetch: nat -> Fetch, n: nat, p: string)
    requires n <= |paths|
  {
    exists i :: 0 <= i < n && paths[i] == p && Saves(paths, disk, fetch, i)
  }

  /** One more call leaves a file at `p` exactly when it is to `p` and its request left one. */
  lemma LeftBeforeStep(paths: seq<string>, fetch: nat -> Fetch, n: nat, p: string)
    requires n < |paths|
    ensures LeftBefore(paths, fetch, n + 1, p) <==>
            LeftBefore(paths, fetch, n, p) || (p == paths[n] && fetch(n) != NothingWritten)
  {
    if LeftBefore(paths, fetch, n + 1, p) && !(p == paths[n] && fetch(n) != NothingWritten) {
      var j :| 0 <= j < n + 1 && paths[j] == p && fetch(j) != NothingWritten;
      assert j < n;
    }
  }

  /** One step of the loop, unfolded. */
  lemma RunStep(paths: seq<string>, disk: set<string>, fetch: nat -> Fetch, n: nat)
    requires n < |paths|
    ensures var before := Run(paths, disk, fetch, n);
            var call := DownloadFile(before.1, paths[n], fetch(n));
            && Run(paths, disk, fetch, n + 1).0 == before.0 + (if call.0 then [paths[n]] else [])
            && Run(paths, disk, fetch, n + 1).1 == call.1
  {
  }

  /** The loop's state after `n` calls determines its state after one more. */
  lemma SaveStep(paths: seq<string>, disk: set<string>, fetch: nat -> Fetch, n: nat,
                 saved: seq<string>, now: set<string>)
    requires n < |paths|
    requires saved == Run(paths, disk, fetch, n).0 && now == Run(paths, disk, fetch, n).1
    ensures var call := DownloadFile(now, paths[n], fetch(n));
            && Run(paths, disk, fetch, n + 1).0 == saved + (if call.0 then [paths[n]] else [])
            && Run(paths, disk, fetch, n + 1).1 == call.1
  {
    RunStep(paths, disk, fetch, n);
  }

  /** The paths on disk after `n` calls: those there at the start, and the path of every
      call whose request left a file. */
  lemma {:induction false} RunDisk(paths: seq<string>, disk: set<string>, fetch: nat -> Fetch, n: nat, p: string)
    requires n <= |paths|
    ensures p in Run(paths, disk, fetch, n).1 <==> p in disk || LeftBefore(paths, fetch, n, p)
    decreases n
  {
    if n > 0 {
      RunDisk(paths, disk, fetch, n - 1, p);
      LeftBeforeStep(paths, fetch, n - 1, p);
      RunStep(paths, disk, fetch, n - 1);
    }
  }

  /** A call of the loop counts a save exactly when `Saves` says so. */
  lemma CallSaves(paths: seq<string>, disk: set<string>, fetch: nat -> Fetch, i: nat)
    requires i < |paths|
    ensures DownloadFile(Run(paths, disk, fetch, i).1, paths[i], fetch(i)).0 <==> Saves(paths, disk, fetch, i)
  {
    RunDisk(paths, disk, fetch, i, paths[i]);
  }

  /** A path is among the saved ones exactly when some call to it counts a save. */
  lemma {:induction false} RunSaved(paths: seq<string>, disk: set<string>, fetch: nat -> Fetch, n: nat, p: string)
    requires n <= |paths|
    ensures p in Run(paths, disk, fetch, n).0 <==> SavedBefore(paths, disk, fetch, n, p)
    decreases n
  {
    if n > 0 {
      RunSaved(paths, disk, fetch, n - 1, p);
      CallSaves(paths, disk, fetch, n - 1);
      RunStep(paths, disk, fetch, n - 1);
      if SavedBefore(paths, disk, fetch, n, p) && !SavedBefore(paths, disk, fetch, n - 1, p) {
        var i :| 0 <= i < n && paths[i] == p && Saves(paths, disk, fetch, i);
        assert i == n - 1;
      }
    }
  }

  /** The download loop over `paths`: every call is made, and the saves that succeed are
      counted and listed; `after` is what is on disk afterwards. */
  method SaveEach(paths: seq<string>, disk: set<string>, fetch: nat -> Fetch)
    returns (count: nat, saved: seq<string>, after: set<string>)
    ensures count == |saved| <= |paths|
    ensures saved == Run(paths, disk, fetch, |paths|).0
    ensures after == Run(paths, disk, fetch, |paths|).1
    ensures forall p :: p in saved <==> SavedBefore(paths, disk, fetch, |paths|, p)
    ensures forall p :: p in after <==> p in disk || LeftBefore(paths, fetch, |paths|, p)
  {
    count := 0;
    saved := [];
    after := disk;
    var i := 0;
    while i < |paths|
      invariant 0 <= i <= |paths|
      invariant count == |saved|
      invariant saved == Run(paths, disk, fetch, i).0
      invariant after == Run(paths, disk, fetch, i).1
    {
      var call := DownloadFile(after, paths[i], fetch(i));
      SaveStep(paths, disk, fetch, i, saved, after);
      if call.0 {
        count := count + 1;
      }
      saved := saved + (if call.0 then [paths[i]] else []);
      after := call.1;
      i := i + 1;
    }
    forall p ensures p in saved <==> SavedBefore(paths, disk, fetch, |paths|, p) {
      RunSaved(paths, disk, fetch, |paths|, p);
    }
    forall p ensures p in after <==> p in disk || LeftBefore(paths, fetch, |paths|, p) {
      RunDisk(paths, disk, fetch, |paths|, p);
    }
  }

  /** `download_prospectus`'s and `download_bond_documents`' loop: every document is saved
      under `dir`, and the saves that succeed are counted and listed. */
  method SaveAll(dir: string, docs: seq<Doc>, disk: set<string>, fetch: nat -> Fetch)
    returns (count: nat, saved: seq<string>, after: set<string>)
    ensures docs == [] ==> count == 0 && saved == [] && after == disk
    ensures count == |saved| <= |docs|
    ensures disk <= after
    ensures saved == Run(Paths(dir, docs), disk, fetch, |docs|).0
    ensures after == Run(Paths(dir, docs), disk, fetch, |docs|).1
    ensures forall p :: p in saved <==> SavedBefore(Paths(dir, docs), disk, fetch, |docs|, p)
    ensures forall p :: p in after <==> p in disk || LeftBefore(Paths(dir, docs), fetch, |docs|, p)
  {
    count, saved, after := SaveEach(Paths(dir, docs), disk, fetch);
  }

  /** With distinct paths none of which is on disk, a call counts a save exactly when its
      own request writes the file. */
  lemma FreshSaves(paths: seq<string>, disk: set<string>, fetch: nat -> Fetch, i: nat)
    requires i < |paths|
    requires forall j :: 0 <= j < |paths| ==> paths[j] !in disk
    requires forall j, k :: 0 <= j < k < |paths| ==> paths[j] != paths[k]
    ensures Saves(paths, disk, fetch, i) <==> fetch(i) == Written
  {
  }

  /** Once a call has counted a save, every later call to the same path counts one too,
      without a request. */
  lemma SavedStays(paths: seq<string>, disk: set<string>, fetch: nat -> Fetch, i: nat, k: nat)
    requires i < k < |paths| && paths[i] == paths[k]
    requires Saves(paths, disk, fetch, i)
    ensures Saves(paths, disk, fetch, k)
  {
    if fetch(i) != NothingWritten {
      assert 0 <= i < k && paths[i] == paths[k] && fetch(i) != NothingWritten;
    } else if paths[i] !in disk {
      var j :| 0 <= j < i && paths[j] == paths[i] && fetch(j) != NothingWritten;
      assert 0 <= j < k;
    }
  }

  /** The same path twice, with nothing on disk: a failed first request and a successful
      second one count one save. */
  lemma RetryCountsOnce(p: string, fetch: nat -> Fetch)
    requires fetch(0) == NothingWritten && fetch(1) == Written
    ensures Run([p, p], {}, fetch, 2).0 == [p]
  {
    RunStep([p, p], {}, fetch, 0);
    RunStep([p, p], {}, fetch, 1);
  }

  /** The same path twice, with nothing on disk: a first request that fails while writing
      leaves a file behind, and the second call counts it as saved without a request. */
  lemma PartialFileCountsLater(p: string, fetch: nat -> Fetch)
    requires fetch(0) == WriteFails
    ensures Run([p, p], {}, fetch, 2).0 == [p]
  {
    RunStep([p, p], {}, fetch, 0);
    RunStep([p, p], {}, fetch, 1);
  }
}

=== FILE: foreign.dfy ===
/** The foreign issuers' prospectus parser: deciding that a bond page belongs to a foreign
    issuer, picking its prospectus links with their file names, and counting the files a
    download saves. The parsed page arrives as a value; `urljoin` and the download itself
    are parameters. */
module ForeignProspectus {
  import opened Text
  import opened Lists
  import opened Dicts
  import opened Documents
  import Utils
  import Config

  // ---------------------------------------------------------------------------
  // is_foreign_issuer

  const ForeignMarker: string := "иностранного эмитента"

  const ForeignStem: string := "иностран"

  /** A parsed bond page: its whole text, the value of its category field ("" when the
      field is not found), its links in document order, and for every section matching a
      prospectus keyword the links of that section's parent. */
  datatype BondPage = BondPage(text: string, category: string, links: seq<Anchor>, sections: seq<seq<Anchor>>)

  /** The page text, lower-cased, names a foreign issuer, or the category mentions one. */
  predicate IsForeignIssuer(page: BondPage) {
    Contains(Lower(page.text), ForeignMarker) ||
    (page.category != [] && Contains(Lower(page.category), ForeignStem))
  }

  /** The category test reads as "contains the stem": the empty-category guard never
      changes the answer, and the marker implies the stem. */
  lemma ForeignIssuerByStem(page: BondPage)
    ensures IsForeignIssuer(page) <==>
            Contains(Lower(page.text), ForeignMarker) || Contains(Lower(page.category), ForeignStem)
    ensures Contains(Lower(page.text), ForeignMarker) ==> Contains(Lower(page.text), ForeignStem)
  {
    assert ForeignMarker[..|ForeignStem|] == ForeignStem;
    if Contains(Lower(page.text), ForeignMarker) {
      var t := Lower(page.text);
      var i :| 0 <= i <= |t| - |ForeignMarker| && OccursAt(t, ForeignMarker, i);
      assert t[i..i + |ForeignStem|] == ForeignMarker[..|ForeignStem|];
      assert OccursAt(t, ForeignStem, i);
    }
  }

  // ---------------------------------------------------------------------------
  // parse_prospectus_links: link selection

  const ProspectusKeywords: seq<string> := ["резюме проспекта", "проспект ценных бумаг", "prospectus"]

  const DownloadWords: seq<string> := ["документ", "файл", "скачать"]

  /** Some word of `words` occurs in `text` (`any(w in text for w in words)`). */
  predicate AnyIn(words: seq<string>, text: string) {
    exists k :: 0 <= k < |words| && Contains(text, words[k])
  }

  /** The link text as the selection sees it: normalised, then lower-cased. */
  function LinkText(a: Anchor): string {
    Lower(Utils.NormalizeText(a.text))
  }

  /** The `href` ends in `.pdf` in any case, or the text mentions `pdf`. */
  predicate IsPdf(a: Anchor) {
    IsSuffix(".pdf", Lower(a.href)) || Contains(LinkText(a), "pdf")
  }

  /** The first pass keeps a link whose text names a prospectus, or a PDF-like link whose
      text offers a document, a file or a download. */
  predicate Selected(a: Anchor) {
    AnyIn(ProspectusKeywords, LinkText(a)) || (IsPdf(a) && AnyIn(DownloadWords, LinkText(a)))
  }

  // ---------------------------------------------------------------------------
  // parse_prospectus_links: URLs and file names

  /** An absolute `href` (one starting with `http`) is kept; any other is resolved against
      the exchange's site with `join`, standing for `urllib.parse.urljoin`. */
  function FullUrl(join: (string, string) -> string, href: string): (r: string)
    ensures IsPrefix("http", href) ==> r == href
    ensures !IsPrefix("http", href) ==> r == join(Config.BaseUrl, href)
  {
    if IsPrefix("http", href) then href else join(Config.BaseUrl, href)
  }

  /** `.pdf` is appended unless the name already ends in it, in any case. */
  function EnsurePdf(name: string): (r: string)
    ensures IsSuffix(".pdf", Lower(r))
    ensures r == name || r == name + ".pdf"
    ensures r == name <==> IsSuffix(".pdf", Lower(name))
  {
    if IsSuffix(".pdf", Lower(name)) then name
    else
      LowerAppend(name, ".pdf");
      LowerOfLowered(".pdf");
      name + ".pdf"
  }

  /** A name that already ends in `.pdf`, in any case, is kept as it is. */
  lemma EnsurePdfKeeps(name: string)
    requires IsSuffix(".pdf", Lower(name))
    ensures EnsurePdf(name) == name
  {
  }

  /** The first pass's file name: the normalised link text, or the `href`'s base name when
      that text is empty or longer than 200 characters; then `.pdf` is ensured. */
  function LinkFilename(a: Anchor): (r: string)
    ensures IsSuffix(".pdf", Lower(r))
  {
    var text := Utils.NormalizeText(a.text);
    EnsurePdf(if text == [] || |text| > Utils.MaxNameLength then Basename(a.href) else text)
  }

  /** The section pass's file name: the normalised link text, or the `href`'s base name when
      that text is empty (no length limit here); then `.pdf` is ensured. */
  function SectionFilename(a: Anchor): (r: string)
    ensures IsSuffix(".pdf", Lower(r))
  {
    var text := Utils.NormalizeText(a.text);
    EnsurePdf(if text == [] then Basename(a.href) else text)
  }

  /** The first pass's file name is the short link text, or else the `href`'s base name,
      with `.pdf` appended exactly when that name does not already end in it. */
  lemma LinkFilenameSource(a: Anchor)
    ensures var text := Utils.NormalizeText(a.text);
      var source := if text != [] && |text| <= Utils.MaxNameLength then text else Basename(a.href);
      && (LinkFilename(a) == source || LinkFilename(a) == source + ".pdf")
      && (LinkFilename(a) == source <==> IsSuffix(".pdf", Lower(source)))
  {
  }

  // ---------------------------------------------------------------------------
  // parse_prospectus_links: the two passes

  /** The document a first-pass link yields, if it is selected. */
  function LinkDoc(join: (string, string) -> string, a: Anchor): (r: Option<Doc>)
    ensures r.Some? <==> Selected(a)
    ensures r.Some? ==> r.value == Doc(FullUrl(join, a.href), LinkFilename(a))
  {
    if Selected(a) then Some(Doc(FullUrl(join, a.href), LinkFilename(a))) else None
  }

  /** The `href` ends in `.pdf`, in any case: the section pass's link filter. */
  predicate PdfHref(a: Anchor) {
    IsSuffix(".pdf", Lower(a.href))
  }

  /** Both passes over a page that `get_soup` could load (`None` when it could not). */
  function ProspectusLinks(join: (string, string) -> string, page: Option<BondPage>): (r: seq<Doc>)
    ensures page.None? || !IsForeignIssuer(page.value) ==> r == []
  {
    if page.None? || !IsForeignIssuer(page.value) then []
    else
      var first := FilterMap(a => LinkDoc(join, a), page.value.links);
      var candidates := Candidates(join, SectionLinks(page.value.sections, PdfHref));
      AddNew(first, candidates)
  }

  /** The documents the section pass would add for its links, in order. */
  function Candidates(join: (string, string) -> string, links: seq<Anchor>): (r: seq<Doc>)
    ensures |r| == |links|
    ensures forall k :: 0 <= k < |links| ==> r[k] == Doc(FullUrl(join, links[k].href), SectionFilename(links[k]))
  {
    seq(|links|, k requires 0 <= k < |links| => Doc(FullUrl(join, links[k].href), SectionFilename(links[k])))
  }

  /** The first pass yields exactly the selected links of the page, in order and with
      repeats, and the section pass keeps them in front. */
  lemma ProspectusLinksFirst(join: (string, string) -> string, page: BondPage, d: Doc)
    requires IsForeignIssuer(page)
    ensures var first := FilterMap(a => LinkDoc(join, a), page.links);
      && ProspectusLinks(join, Some(page))[..|first|] == first
      && (d in first <==> exists i :: 0 <= i < |page.links| && Selected(page.links[i]) &&
                                      d == Doc(FullUrl(join, page.links[i].href), LinkFilename(page.links[i])))
  {
    var f := a => LinkDoc(join, a);
    FilterMapExactly(f, page.links, d);
    AddNewSpec(FilterMap(f, page.links), Candidates(join, SectionLinks(page.sections, PdfHref)));
  }

  /** The section pass adds only candidates of the matched sections' PDF links whose URLs
      the first pass did not collect, and every such link ends up with its URL collected. */
  lemma ProspectusLinksSections(join: (string, string) -> string, page: BondPage)
    requires IsForeignIssuer(page)
    ensures var first := FilterMap(a => LinkDoc(join, a), page.links);
      var r := ProspectusLinks(join, Some(page));
      && (forall k :: |first| <= k < |r| ==>
            r[k] in Candidates(join, SectionLinks(page.sections, PdfHref)) && r[k].url !in Urls(first))
      && (forall i, j :: |first| <= i < j < |r| ==> r[i].url != r[j].url)
      && (forall a :: a in SectionLinks(page.sections, PdfHref) ==> FullUrl(join, a.href) in Urls(r))
  {
    var first := FilterMap(a => LinkDoc(join, a), page.links);
    var links := SectionLinks(page.sections, PdfHref);
    var candidates := Candidates(join, links);
    var r := AddNew(first, candidates);
    assert r == ProspectusLinks(join, Some(page));
    AddNewSpec(first, candidates);
    forall a | a in links ensures FullUrl(join, a.href) in Urls(r) {
      var k :| 0 <= k < |links| && links[k] == a;
      assert candidates[k] in candidates;
    }
  }

  /** Every file name the parser produces ends in `.pdf`, in any case. */
  lemma ProspectusLinksPdf(join: (string, string) -> string, page: Option<BondPage>)
    ensures forall d :: d in ProspectusLinks(join, page) ==> IsSuffix(".pdf", Lower(d.filename))
  {
    if page.Some? && IsForeignIssuer(page.value) {
      var f := a => LinkDoc(join, a);
      var first := FilterMap(f, page.value.links);
      var candidates := Candidates(join, SectionLinks(page.value.sections, PdfHref));
      forall d | d in AddNew(first, candidates) ensures IsSuffix(".pdf", Lower(d.filename)) {
        AddNewWithin(first, candidates, d);
        if d in first {
          FilterMapExactly(f, page.value.links, d);
        } else {
          var m :| 0 <= m < |candidates| && candidates[m] == d;
        }
      }
    }
  }

  // ---------------------------------------------------------------------------
  // download_prospectus

  /** Saves a bond's documents under the issuer/ISIN directory below `base` and counts the
      saves that succeed; the issuer name defaults to `Unknown`, the ISIN to the security
      code and then to `Unknown`. `disk` is what is on disk before, `after` after. */
  method DownloadProspectus(base: string, bond: Dict, docs: seq<Doc>, disk: set<string>, fetch: nat -> Fetch)
    returns (count: nat, saved: seq<string>, after: set<string>)
    ensures docs == [] ==> count == 0 && saved == [] && after == disk
    ensures count == |saved| <= |docs|
    ensures docs != [] ==>
              var dir := DirectoryFor(GetOr(bond, "issuer_name", "Unknown"),
                                      GetOr(bond, "isin", GetOr(bond, "code", "Unknown")), base);
              && saved == Run(Paths(dir, docs), disk, fetch, |docs|).0
              && after == Run(Paths(dir, docs), disk, fetch, |docs|).1
              && (forall p :: p in saved <==> SavedBefore(Paths(dir, docs), disk, fetch, |docs|, p))
              && (forall p :: p in after <==> p in disk || LeftBefore(Paths(dir, docs), fetch, |docs|, p))
  {
    if docs == [] {
      return 0, [], disk;
    }
    var dir := DirectoryFor(GetOr(bond, "issuer_name", "Unknown"),
                            GetOr(bond, "isin", GetOr(bond, "code", "Unknown")), base);
    count, saved, after := SaveAll(dir, docs, disk, fetch);
  }
}

=== FILE: legacy.dfy ===
/** The older browser-driven parser: the record read from the list items of a bond card,
    the fixed Yes/No rewriting of three fields, the sorted CSV header, and the scan of the
    bond links on one listing page. The browser, its waits and the page-to-page navigation
    are outside the model: the items of a card arrive as data. */
module LegacyParser {
  import opened Text
  import opened Dicts
  import opened Lists
  import Config

  /** The parser's own label dictionary. It holds the same Russian labels, in the same order,
      as the package's `FieldMapping`; only entry 15 differs, spelling "Coupon" with a Latin C
      where the package's table has a Cyrillic one. */
  const LegacyFieldMapping: Dict :=
    Config.FieldMapping[15 := (Config.FieldMapping[15].0, "Current Coupon Information (calculation method)")]

  const EarlyRedemption: string := "Early Redemption Option"
  const TradingRestrictions: string := "Trading Restrictions (incl. qualified investors)"
  const IndexUniverse: string := "Included in the exchange index universe"

  /** The parser's dictionary holds the package's labels, each once. */
  lemma LegacyFieldMappingKeys()
    ensures Keys(LegacyFieldMapping) == Keys(Config.FieldMapping)
    ensures UniqueKeys(LegacyFieldMapping)
  {
    Config.FieldMappingKeysUnique();
    ReplaceValueKeys(Config.FieldMapping, 15, "Current Coupon Information (calculation method)");
  }

  /** The three post-processed fields are English names of the parser's dictionary. */
  lemma LegacyFieldMappingSpecial()
    ensures LegacyFieldMapping[17].1 == EarlyRedemption
    ensures LegacyFieldMapping[29].1 == TradingRestrictions
    ensures LegacyFieldMapping[30].1 == IndexUniverse
  {
    assert LegacyFieldMapping[17] == Config.FieldMapping[17];
    assert LegacyFieldMapping[29] == Config.FieldMapping[29];
    assert LegacyFieldMapping[30] == Config.FieldMapping[30];
    Config.SpecialColumnsMapped();
  }

  // ---------------------------------------------------------------------------
  // field titles

  /** The title of a field with surrounding whitespace removed and, when it carries a
      footnote marker, everything from the first `[` on dropped. */
  function CleanTitle(raw: string): (r: string)
    ensures '[' !in r
    ensures r == [] || (r[0] !in Whitespace && r[|r| - 1] !in Whitespace)
    ensures '[' !in Strip(raw) ==> r == Strip(raw)
  {
    var t := Strip(raw);
    StripEdges(raw);
    if '[' in t then
      FootnoteCut(t);
      Strip(t[..IndexOf(t, '[')])
    else t
  }

  /** What precedes the first `[`, stripped, holds no `[` and no edge whitespace. */
  lemma FootnoteCut(t: string)
    requires '[' in t
    ensures var r := Strip(t[..IndexOf(t, '[')]);
      '[' !in r && (r == [] || (r[0] !in Whitespace && r[|r| - 1] !in Whitespace))
  {
    var head := t[..IndexOf(t, '[')];
    assert '[' !in head;
    StripWithin(head);
    StripEdges(head);
  }

  /** Cleaning a clean title changes nothing. */
  lemma CleanTitleIdempotent(raw: string)
    ensures CleanTitle(CleanTitle(raw)) == CleanTitle(raw)
  {
    StripIdle(CleanTitle(raw));
  }

  /** A clean title followed by a footnote marker cleans to the title. */
  lemma CleanTitleFootnote(title: string, note: string)
    requires '[' !in title
    requires title == [] || (title[0] !in Whitespace && title[|title| - 1] !in Whitespace)
    requires note != [] && note[0] == '['
    ensures CleanTitle(title + note) == title
  {
    var s := title + note;
    assert s[0] !in Whitespace;
    StripLeftIdle(s, Whitespace);
    StripRightAppend(title, note, Whitespace);
    var t := Strip(s);
    assert t == title + StripRight(note, Whitespace);
    assert StripRight(note, Whitespace)[0] == '[';
    assert t[|title|] == '[';
    assert IndexOf(t, '[') == |title| by {
      forall j | 0 <= j < |title| ensures t[j] != '[' { assert t[j] == title[j]; }
    }
    assert t[..|title|] == title;
    StripIdle(title);
  }

  // ---------------------------------------------------------------------------
  // field values

  /** A link inside a field's description; an empty `href` stands for a missing attribute. */
  datatype Link = Link(href: string, text: string)

  /** `link.get_attribute('href') or link.text`. */
  function LinkValue(l: Link): string {
    if l.href != [] then l.href else l.text
  }

  /** One list item of the bond card: its title, the links of its description and the
      description's text. */
  datatype FieldItem = FieldItem(title: string, links: seq<Link>, text: string)

  function LinkValues(links: seq<Link>): (r: seq<string>)
    ensures |r| == |links|
    ensures forall i :: 0 <= i < |links| ==> r[i] == LinkValue(links[i])
  {
    seq(|links|, i requires 0 <= i < |links| => LinkValue(links[i]))
  }

  /** The value of a field: its link targets joined by `" | "` when it has links, else its
      stripped text. */
  function FieldValue(f: FieldItem): (r: string)
    ensures f.links == [] ==> r == Strip(f.text)
    ensures f.links != [] ==> IsPrefix(LinkValue(f.links[0]), r)
    ensures f.links != [] ==> IsSuffix(LinkValue(f.links[|f.links| - 1]), r)
  {
    if f.links == [] then Strip(f.text)
    else
      var vs := LinkValues(f.links);
      JoinEnds(" | ", vs);
      Join(" | ", vs)
  }

  /** A linked value lists every link's value in order: one link gives its own value, and
      more give the first link's value, the separator, then the value of the rest. */
  lemma FieldValueCons(f: FieldItem)
    ensures |f.links| == 1 ==> FieldValue(f) == LinkValue(f.links[0])
    ensures |f.links| >= 2 ==>
              FieldValue(f) == LinkValue(f.links[0]) + " | " + FieldValue(f.(links := f.links[1..]))
  {
    if |f.links| >= 2 {
      var vs := LinkValues(f.links);
      assert vs[1..] == LinkValues(f.links[1..]);
    }
  }

  /** Every character of a linked field's value comes from a link value or a separator. */
  lemma FieldValueChars(f: FieldItem, c: char)
    requires f.links != [] && c in FieldValue(f)
    ensures c in " | " || exists i :: 0 <= i < |f.links| && c in LinkValue(f.links[i])
  {
    var vs := LinkValues(f.links);
    JoinChars(" | ", vs, c);
    if c !in " | " {
      var k, j :| 0 <= k < |vs| && 0 <= j < |vs[k]| && vs[k][j] == c;
      assert c in LinkValue(f.links[k]);
    }
  }

  /** The record key of a title: its English name when the dictionary maps it, else the
      title itself. */
  function KeyOf(mapping: Dict, title: string): (r: string)
    ensures title in Keys(mapping) ==> Get(mapping, title) == Some(r)
    ensures title !in Keys(mapping) ==> r == title
  {
    match Get(mapping, title)
    case Some(english) => english
    case None => title
  }

  /** Every label of the parser's dictionary turns into its English name. */
  lemma LegacyKeyOf(i: int)
    requires 0 <= i < |LegacyFieldMapping|
    ensures KeyOf(LegacyFieldMapping, LegacyFieldMapping[i].0) == LegacyFieldMapping[i].1
  {
    LegacyFieldMappingKeys();
    GetUnique(LegacyFieldMapping, i);
  }

  // ---------------------------------------------------------------------------
  // the record

  /** The key and value an item writes; `None` for an item whose title or description
      element is missing (the exception skips the item). */
  function Write(mapping: Dict, item: Option<FieldItem>): Option<(string, string)> {
    match item
    case None => None
    case Some(f) => Some((KeyOf(mapping, CleanTitle(f.title)), FieldValue(f)))
  }

  /** What each item writes, in page order. */
  function Writes(mapping: Dict, items: seq<Option<FieldItem>>): (r: seq<Option<(string, string)>>)
    ensures |r| == |items|
    ensures forall i :: 0 <= i < |items| ==> r[i] == Write(mapping, items[i])
  {
    seq(|items|, i requires 0 <= i < |items| => Write(mapping, items[i]))
  }

  /** The dictionary after performing the writes in order, `d[k] = v` for each. */
  function Assign(ws: seq<Option<(string, string)>>): (r: Dict)
    ensures UniqueKeys(r)
    decreases |ws|
  {
    if ws == [] then []
    else
      var d := Assign(ws[..|ws| - 1]);
      match ws[|ws| - 1]
      case None => d
      case Some(kv) =>
        PutUnique(d, kv.0, kv.1);
        Put(d, kv.0, kv.1)
  }

  /** `bond_data` after the item loop. */
  function ParseFields(mapping: Dict, items: seq<Option<FieldItem>>): (r: Dict)
    ensures UniqueKeys(r)
  {
    Assign(Writes(mapping, items))
  }

  predicate WritesKey(w: Option<(string, string)>, k: string) {
    w.Some? && w.value.0 == k
  }

  /** Position `i` holds the last write to `k`, and it writes `v`. */
  predicate LastWriter(ws: seq<Option<(string, string)>>, k: string, i: int, v: string) {
    0 <= i < |ws| && ws[i] == Some((k, v)) && forall j :: i < j < |ws| ==> !WritesKey(ws[j], k)
  }

  /** The value of the last write to `k`, read off the writes themselves. */
  function LastWrite(ws: seq<Option<(string, string)>>, k: string): (r: Option<string>)
    ensures r.None? <==> forall i :: 0 <= i < |ws| ==> !WritesKey(ws[i], k)
    ensures r.Some? ==> exists i :: LastWriter(ws, k, i, r.value)
    decreases |ws|
  {
    if ws == [] then None
    else
      var init := ws[..|ws| - 1];
      var w := ws[|ws| - 1];
      if WritesKey(w, k) then
        assert LastWriter(ws, k, |ws| - 1, w.value.1);
        Some(w.value.1)
      else
        var r := LastWrite(init, k);
        assert forall i :: 0 <= i < |init| ==> init[i] == ws[i];
        assert r.Some? ==> exists i :: LastWriter(ws, k, i, r.value) by {
          if r.Some? {
            var i :| LastWriter(init, k, i, r.value);
            assert LastWriter(ws, k, i, r.value);
          }
        }
        r
  }

  /** After the writes, a key holds the value of its last write; a key never written is
      absent. */
  lemma {:induction false} AssignGet(ws: seq<Option<(string, string)>>, k: string)
    ensures Get(Assign(ws), k) == LastWrite(ws, k)
    decreases |ws|
  {
    if ws != [] {
      var init := ws[..|ws| - 1];
      AssignGet(init, k);
      match ws[|ws| - 1]
      case None =>
      case Some(kv) => PutGet(Assign(init), kv.0, kv.1, k);
    }
  }

  // ---------------------------------------------------------------------------
  // Yes/No post-processing

  function YesNo(b: bool): string {
    if b then "Yes" else "No"
  }

  /** Replaces the value under `key`, when present, by "Yes" or "No" as `yes` decides. */
  function Rewrite(d: Dict, key: string, yes: string -> bool): (r: Dict)
    ensures Keys(r) == Keys(d)
    ensures forall k :: Get(r, k) ==
              (if k == key && Get(d, key).Some? then Some(YesNo(yes(Get(d, key).value))) else Get(d, k))
  {
    match Get(d, key)
    case None => d
    case Some(v) =>
      PutKeys(d, key, YesNo(yes(v)));
      PutGetAll(d, key, YesNo(yes(v)));
      Put(d, key, YesNo(yes(v)))
  }

  lemma PutGetAll(d: Dict, key: string, v: string)
    ensures forall k :: Get(Put(d, key, v), k) == if k == key then Some(v) else Get(d, k)
  {
    forall k ensures Get(Put(d, key, v), k) == if k == key then Some(v) else Get(d, k) {
      PutGet(d, key, v, k);
    }
  }

  /** The exact-match tests of the three rewritten fields. */
  predicate IsProvided(v: string) { v == "Предусмотрена" }
  predicate IsYes(v: string) { v == "Да" }
  predicate IsYesAnyCase(v: string) { Lower(v) == "да" }

  /** The three rewrites, in source order. */
  function PostProcess(d: Dict): (r: Dict)
    ensures Keys(r) == Keys(d)
  {
    var d1 := Rewrite(d, EarlyRedemption, IsProvided);
    var d2 := Rewrite(d1, TradingRestrictions, IsYes);
    Rewrite(d2, IndexUniverse, IsYesAnyCase)
  }

  /** Each of the three fields, when present, is replaced by "Yes" or "No" by its own test;
      every other key keeps its value, and a missing field stays missing. */
  lemma PostProcessGet(d: Dict, k: string)
    ensures Get(PostProcess(d), k) ==
              if Get(d, k).None? then None
              else if k == EarlyRedemption then Some(YesNo(IsProvided(Get(d, k).value)))
              else if k == TradingRestrictions then Some(YesNo(IsYes(Get(d, k).value)))
              else if k == IndexUniverse then Some(YesNo(IsYesAnyCase(Get(d, k).value)))
              else Get(d, k)
  {
    assert |EarlyRedemption| == 23 && |TradingRestrictions| == 48 && |IndexUniverse| == 39;
  }

  /** After post-processing each of the three fields that is present reads "Yes" or "No". */
  lemma PostProcessYesNo(d: Dict, k: string)
    requires k == EarlyRedemption || k == TradingRestrictions || k == IndexUniverse
    requires k in Keys(d)
    ensures Get(PostProcess(d), k) == Some("Yes") || Get(PostProcess(d), k) == Some("No")
  {
    PostProcessGet(d, k);
  }

  /** Only the exact Russian words count as "Yes": a lower-case "да" does for the index
      field, but not for the trading-restrictions field, and "Не предусмотрена" reads "No". */
  lemma PostProcessCases(d: Dict)
    requires Get(d, EarlyRedemption) == Some("Не предусмотрена")
    requires Get(d, TradingRestrictions) == Some("да")
    requires Get(d, IndexUniverse) == Some("ДА")
    ensures Get(PostProcess(d), EarlyRedemption) == Some("No")
    ensures Get(PostProcess(d), TradingRestrictions) == Some("No")
    ensures Get(PostProcess(d), IndexUniverse) == Some("Yes")
  {
    PostProcessGet(d, EarlyRedemption);
    PostProcessGet(d, TradingRestrictions);
    PostProcessGet(d, IndexUniverse);
    UpperYes();
    assert IsYesAnyCase("ДА");
    assert !IsProvided("Не предусмотрена") && !IsYes("да");
  }

  lemma UpperYes()
    ensures Lower("ДА") == "да"
  {
    assert LowerChar('Д') == 'д' && LowerChar('А') == 'а';
  }

  /** The record of one bond card. */
  function ParseBondDetails(mapping: Dict, items: seq<Option<FieldItem>>): (r: Dict)
    ensures UniqueKeys(r)
    ensures Keys(r) == Keys(ParseFields(mapping, items))
  {
    var fields := ParseFields(mapping, items);
    var r := PostProcess(fields);
    assert forall i :: 0 <= i < |r| ==> r[i].0 == Keys(r)[i] == Keys(fields)[i] == fields[i].0;
    r
  }

  /** What the record holds under any key, in terms of the items alone. */
  lemma ParseBondDetailsGet(mapping: Dict, items: seq<Option<FieldItem>>, k: string)
    ensures var w := LastWrite(Writes(mapping, items), k);
      Get(ParseBondDetails(mapping, items), k) ==
        if w.None? then None
        else if k == EarlyRedemption then Some(YesNo(IsProvided(w.value)))
        else if k == TradingRestrictions then Some(YesNo(IsYes(w.value)))
        else if k == IndexUniverse then Some(YesNo(IsYesAnyCase(w.value)))
        else w
  {
    AssignGet(Writes(mapping, items), k);
    PostProcessGet(ParseFields(mapping, items), k);
  }

  // ---------------------------------------------------------------------------
  // the CSV header

  /** `sorted(all_keys)`, or nothing to write for no records; `setOrder` is the order in
      which the set of keys is listed. */
  function Header(records: seq<Dict>, setOrder: seq<string>): (r: Option<seq<string>>)
    requires Enumerates(setOrder, AllFields(records))
    ensures r.None? <==> records == []
    ensures r.Some? ==> SortedStrict(r.value) && NoDup(r.value)
    ensures r.Some? ==> forall x :: x in r.value <==> exists k :: 0 <= k < |records| && x in Keys(records[k])
  {
    if records == [] then None
    else
      SortSorted(setOrder);
      SortedNoDup(Sort(setOrder));
      AllFieldsAll(records);
      Some(Sort(setOrder))
  }

  lemma AllFieldsAll(records: seq<Dict>)
    ensures forall x :: x in AllFields(records) <==> exists k :: 0 <= k < |records| && x in Keys(records[k])
  {
    forall x ensures x in AllFields(records) <==> exists k :: 0 <= k < |records| && x in Keys(records[k]) {
      AllFieldsMembers(records, x);
    }
  }

  /** The header does not depend on the order in which the set of keys is listed. */
  lemma HeaderDeterministic(records: seq<Dict>, order1: seq<string>, order2: seq<string>)
    requires Enumerates(order1, AllFields(records)) && Enumerates(order2, AllFields(records))
    ensures Header(records, order1) == Header(records, order2)
  {
    if records != [] {
      SortedUnique(Header(records, order1).value, Header(records, order2).value);
    }
  }
}

=== FILE: lists.dfy ===
/** List comprehensions over sequences: filtering, first positions and the absence of
    duplicates, which the column ordering and the de-duplicating scans rely on. */
module Lists {
  import opened Text

  predicate NoDup<T(==)>(xs: seq<T>) {
    forall i, j :: 0 <= i < j < |xs| ==> xs[i] != xs[j]
  }

  /** `[x for x in xs if p(x)]`. */
  function Filter<T(==,!new)>(xs: seq<T>, p: T -> bool): (r: seq<T>)
    ensures |r| <= |xs|
    ensures forall x :: x in r <==> x in xs && p(x)
  {
    if xs == [] then []
    else
      var rest := Filter(xs[1..], p);
      assert forall x :: x in xs <==> x == xs[0] || x in xs[1..];
      if p(xs[0]) then [xs[0]] + rest else rest
  }

  lemma {:induction false} FilterAppend<T(!new)>(a: seq<T>, b: seq<T>, p: T -> bool)
    ensures Filter(a + b, p) == Filter(a, p) + Filter(b, p)
  {
    if a != [] {
      assert (a + b)[1..] == a[1..] + b;
      FilterAppend(a[1..], b, p);
    } else {
      assert a + b == b;
    }
  }

  /** Filtering a list with one more element at the end. */
  lemma FilterSnoc<T(!new)>(xs: seq<T>, x: T, p: T -> bool)
    ensures Filter(xs + [x], p) == if p(x) then Filter(xs, p) + [x] else Filter(xs, p)
  {
    FilterAppend(xs, [x], p);
    assert [x][1..] == [];
  }

  lemma {:induction false} FilterNoDup<T(!new)>(xs: seq<T>, p: T -> bool)
    requires NoDup(xs)
    ensures NoDup(Filter(xs, p))
  {
    if xs != [] {
      FilterNoDup(xs[1..], p);
      assert xs[0] !in xs[1..];
      var r := Filter(xs, p);
      var rest := Filter(xs[1..], p);
      if p(xs[0]) {
        forall i, j | 0 <= i < j < |r| ensures r[i] != r[j] {
          assert r[j] == rest[j - 1];
          if i > 0 { assert r[i] == rest[i - 1]; } else { assert r[j] in xs[1..]; }
        }
      }
    }
  }

  /** Position of the first occurrence of `x`. */
  function IndexOf<T(==)>(xs: seq<T>, x: T): (r: nat)
    requires x in xs
    ensures r < |xs| && xs[r] == x
    ensures forall i :: 0 <= i < r ==> xs[i] != x
  {
    if xs[0] == x then 0 else 1 + IndexOf(xs[1..], x)
  }

  /** In a sequence without duplicates, the position of the element at `i` is `i`. */
  lemma IndexOfNoDup<T>(xs: seq<T>, i: nat)
    requires NoDup(xs) && i < |xs|
    ensures IndexOf(xs, xs[i]) == i
  {
  }

  /** Filtering keeps the relative order of what it keeps. */
  lemma {:induction false} FilterOrder<T(!new)>(xs: seq<T>, p: T -> bool)
    requires NoDup(xs)
    ensures forall i, j :: 0 <= i < j < |Filter(xs, p)| ==>
              IndexOf(xs, Filter(xs, p)[i]) < IndexOf(xs, Filter(xs, p)[j])
  {
    if xs != [] {
      var r := Filter(xs, p);
      var rest := Filter(xs[1..], p);
      assert NoDup(xs[1..]);
      FilterOrder(xs[1..], p);
      forall x | x in xs[1..] ensures IndexOf(xs, x) == 1 + IndexOf(xs[1..], x) && x != xs[0] {
        var k := IndexOf(xs[1..], x);
        assert xs[k + 1] == x;
      }
      forall i, j | 0 <= i < j < |r| ensures IndexOf(xs, r[i]) < IndexOf(xs, r[j]) {
        if p(xs[0]) {
          assert r[j] == rest[j - 1] && r[j] in xs[1..];
          if i > 0 { assert r[i] == rest[i - 1]; }
        } else {
          assert r[i] == rest[i] && r[j] == rest[j];
        }
      }
    }
  }

  /** `[f(x) for x in xs if f(x) is not None]`. */
  function FilterMap<A, B>(f: A -> Option<B>, xs: seq<A>): (r: seq<B>)
    ensures |r| <= |xs|
  {
    if xs == [] then []
    else
      var rest := FilterMap(f, xs[1..]);
      match f(xs[0])
      case Some(y) => [y] + rest
      case None => rest
  }

  lemma {:induction false} FilterMapAppend<A, B>(f: A -> Option<B>, a: seq<A>, b: seq<A>)
    ensures FilterMap(f, a + b) == FilterMap(f, a) + FilterMap(f, b)
  {
    if a == [] {
      assert a + b == b;
    } else {
      assert (a + b)[0] == a[0] && (a + b)[1..] == a[1..] + b;
      FilterMapAppend(f, a[1..], b);
    }
  }

  lemma FilterMapSnoc<A, B>(f: A -> Option<B>, xs: seq<A>, x: A)
    ensures FilterMap(f, xs + [x]) == if f(x).Some? then FilterMap(f, xs) + [f(x).value] else FilterMap(f, xs)
  {
    FilterMapAppend(f, xs, [x]);
    assert [x][1..] == [];
  }

  /** The results are exactly the images of the inputs that have one. */
  lemma {:induction false} FilterMapExactly<A, B(!new)>(f: A -> Option<B>, xs: seq<A>, y: B)
    ensures y in FilterMap(f, xs) <==> exists i :: 0 <= i < |xs| && f(xs[i]) == Some(y)
  {
    if xs != [] {
      FilterMapExactly(f, xs[1..], y);
      if exists i :: 0 <= i < |xs| && f(xs[i]) == Some(y) {
        var i :| 0 <= i < |xs| && f(xs[i]) == Some(y);
        if i > 0 { assert xs[1..][i - 1] == xs[i]; }
      }
      if exists i :: 0 <= i < |xs[1..]| && f(xs[1..][i]) == Some(y) {
        var i :| 0 <= i < |xs[1..]| && f(xs[1..][i]) == Some(y);
        assert xs[i + 1] == xs[1..][i];
      }
    }
  }

  /** `order` lists the elements of `s`, each once: one iteration order of a Python set. */
  ghost predicate Enumerates<T(!new)>(order: seq<T>, s: set<T>) {
    NoDup(order) && forall x :: x in order <==> x in s
  }

  /** The first occurrence of every element, in order (what a loop with a `seen` set keeps). */
  function Dedup<T(==)>(xs: seq<T>): (r: seq<T>)
    ensures |r| <= |xs|
    decreases |xs|
  {
    if xs == [] then []
    else
      var init := xs[..|xs| - 1];
      var x := xs[|xs| - 1];
      if x in init then Dedup(init) else Dedup(init) + [x]
  }

  /** One more element at the end is kept exactly when it is new. */
  lemma DedupSnoc<T>(xs: seq<T>, x: T)
    ensures Dedup(xs + [x]) == if x in xs then Dedup(xs) else Dedup(xs) + [x]
  {
    assert (xs + [x])[..|xs|] == xs;
  }

  /** `Dedup` keeps each element once and loses none. */
  lemma {:induction false} DedupSpec<T>(xs: seq<T>)
    ensures NoDup(Dedup(xs))
    ensures forall x :: x in Dedup(xs) <==> x in xs
    decreases |xs|
  {
    if xs != [] {
      var init := xs[..|xs| - 1];
      var x := xs[|xs| - 1];
      DedupSpec(init);
      assert xs == init + [x];
    }
  }

  /** Appending leaves the first position of an element already present unchanged. */
  lemma {:induction false} IndexOfAppend<T>(a: seq<T>, b: seq<T>, y: T)
    requires y in a
    ensures IndexOf(a + b, y) == IndexOf(a, y)
    decreases |a|
  {
    if a[0] != y {
      assert (a + b)[1..] == a[1..] + b;
      IndexOfAppend(a[1..], b, y);
    }
  }

  /** Every element `Dedup` keeps comes from the input. */
  lemma DedupMember<T>(xs: seq<T>, y: T)
    requires y in Dedup(xs)
    ensures y in xs
  {
    DedupSpec(xs);
  }

  /** `Dedup` keeps elements in the order of their first occurrences. */
  lemma {:induction false} DedupFirstOrder<T>(xs: seq<T>)
    ensures forall k :: 0 <= k < |Dedup(xs)| ==> Dedup(xs)[k] in xs
    ensures forall i, j :: 0 <= i < j < |Dedup(xs)| ==>
              IndexOf(xs, Dedup(xs)[i]) < IndexOf(xs, Dedup(xs)[j])
    decreases |xs|, 1
  {
    if xs != [] {
      var init := xs[..|xs| - 1];
      var x := xs[|xs| - 1];
      assert xs == init + [x];
      forall k | 0 <= k < |Dedup(xs)|
        ensures Dedup(xs)[k] in xs
      {
        DedupMember(xs, Dedup(xs)[k]);
      }
      forall i, j | 0 <= i < j < |Dedup(xs)|
        ensures IndexOf(xs, Dedup(xs)[i]) < IndexOf(xs, Dedup(xs)[j])
      {
        DedupOrderStep(init, x, i, j);
      }
    } else {
      assert Dedup(xs) == [];
    }
  }

  /** The inductive step of `DedupFirstOrder`: one element appended at the end. */
  lemma {:induction false} DedupOrderStep<T>(init: seq<T>, x: T, i: nat, j: nat)
    requires i < j < |Dedup(init + [x])|
    ensures Dedup(init + [x])[i] in init + [x] && Dedup(init + [x])[j] in init + [x]
    ensures IndexOf(init + [x], Dedup(init + [x])[i]) < IndexOf(init + [x], Dedup(init + [x])[j])
    decreases |init| + 1, 0
  {
    var xs := init + [x];
    var d := Dedup(xs);
    var di := Dedup(init);
    DedupSnoc(init, x);
    assert d[i] == di[i];
    DedupMember(init, di[i]);
    IndexOfAppend(init, [x], d[i]);
    if j < |di| {
      assert d[j] == di[j];
      DedupMember(init, di[j]);
      IndexOfAppend(init, [x], d[j]);
      DedupFirstOrder(init);
    } else {
      assert x !in init && d[j] == x;
      assert IndexOf(xs, x) == |init|;
    }
  }

  // ---------------------------------------------------------------------------
  // sorting strings

  /** Strictly increasing under Python's string order. */
  predicate SortedStrict(xs: seq<string>) {
    forall i, j :: 0 <= i < j < |xs| ==> LexLess(xs[i], xs[j])
  }

  /** A strictly increasing sequence repeats nothing. */
  lemma SortedNoDup(xs: seq<string>)
    requires SortedStrict(xs)
    ensures NoDup(xs)
  {
    forall i, j | 0 <= i < j < |xs| ensures xs[i] != xs[j] {
      LexLessIrreflexive(xs[i]);
    }
  }

  /** Insertion of `x` before the first element it precedes. */
  function Insert(x: string, xs: seq<string>): (r: seq<string>)
    ensures |r| == |xs| + 1
    ensures forall y :: y in r <==> y == x || y in xs
  {
    if xs == [] then [x]
    else if LexLess(x, xs[0]) then [x] + xs
    else
      var rest := Insert(x, xs[1..]);
      assert forall y :: y in xs <==> y == xs[0] || y in xs[1..];
      [xs[0]] + rest
  }

  lemma {:induction false} InsertSorted(x: string, xs: seq<string>)
    requires SortedStrict(xs) && x !in xs
    ensures SortedStrict(Insert(x, xs))
  {
    if xs != [] {
      var r := Insert(x, xs);
      if LexLess(x, xs[0]) {
        forall i, j | 0 <= i < j < |r| ensures LexLess(r[i], r[j]) {
          if i == 0 && j > 1 {
            LexLessTrans(x, xs[0], xs[j - 1]);
          }
        }
      } else {
        LexLessTotal(x, xs[0]);
        InsertSorted(x, xs[1..]);
        var rest := Insert(x, xs[1..]);
        forall i, j | 0 <= i < j < |r| ensures LexLess(r[i], r[j]) {
          if i == 0 {
            assert r[j] == rest[j - 1];
            assert r[j] in xs[1..] || r[j] == x;
          } else {
            assert r[i] == rest[i - 1] && r[j] == rest[j - 1];
          }
        }
      }
    }
  }

  /** Python's `sorted`, for elements compared by `LexLess`. */
  function Sort(xs: seq<string>): (r: seq<string>)
    ensures |r| == |xs|
    ensures forall y :: y in r <==> y in xs
  {
    if xs == [] then [] else Insert(xs[0], Sort(xs[1..]))
  }

  lemma {:induction false} SortSorted(xs: seq<string>)
    requires NoDup(xs)
    ensures SortedStrict(Sort(xs))
  {
    if xs != [] {
      SortSorted(xs[1..]);
      InsertSorted(xs[0], Sort(xs[1..]));
    }
  }

  /** A strictly sorted sequence is determined by its elements. */
  lemma {:induction false} SortedUnique(a: seq<string>, b: seq<string>)
    requires SortedStrict(a) && SortedStrict(b)
    requires forall x :: x in a <==> x in b
    ensures a == b
  {
    assert a != [] ==> a[0] in a;
    assert b != [] ==> b[0] in b;
    if a != [] && b != [] {
      if a[0] != b[0] {
        assert a[0] in b && b[0] in a;
        var i :| 0 <= i < |b| && b[i] == a[0];
        var j :| 0 <= j < |a| && a[j] == b[0];
        assert i > 0 && j > 0;
        LexLessAsym(b[0], a[0]);
      }
      LexLessIrreflexive(a[0]);
      forall x ensures x in a[1..] <==> x in b[1..] {
        if x in a[1..] {
          var i :| 0 <= i < |a[1..]| && a[1..][i] == x;
          assert LexLess(a[0], a[i + 1]) && x in a;
          var k :| 0 <= k < |b| && b[k] == x;
          assert k != 0 && b[1..][k - 1] == x;
        }
        if x in b[1..] {
          var i :| 0 <= i < |b[1..]| && b[1..][i] == x;
          assert LexLess(b[0], b[i + 1]) && x in b;
          var k :| 0 <= k < |a| && a[k] == x;
          assert k != 0 && a[1..][k - 1] == x;
        }
      }
      SortedUnique(a[1..], b[1..]);
      assert a == [a[0]] + a[1..] && b == [b[0]] + b[1..];
    }
  }
}

=== FILE: prospectus.dfy ===
/** The prospectus downloader's own logic: the file-name cleaner, the set of files already
    fetched, the scan of Russian issuers' OGRN links and the acceptance of a bond card as a
    foreign issuer's bond. The browser, the HTTP client and the file system are outside the
    model; what they report arrives as arguments. */
module ProspectusParser {
  import opened Text
  import opened Lists
  import opened Scan
  import Utils
  import ReferenceData

  // ---------------------------------------------------------------------------
  // _sanitize_filename

  const Underscores: set<char> := {'_'}

  /** Forbidden characters become `_`, whitespace runs become one space with the ends
      trimmed, and runs of `_` collapse to one with none left at either end. */
  function SanitizeName(name: string): (r: string)
    ensures NoneIn(r, Utils.Forbidden)
    ensures r == [] || (r[0] != '_' && r[|r| - 1] != '_')
    ensures forall i :: 0 <= i < |r| - 1 ==> !(r[i] == '_' && r[i + 1] == '_')
  {
    var spaced := Utils.NormalizeText(Utils.ReplaceForbidden(name));
    SpacedNoneIn(name);
    UnderscoreJoin(spaced);
    Join("_", Fields(spaced, Underscores))
  }

  /** Normalising the spaces of a name whose forbidden characters are replaced brings none
      back. */
  lemma SpacedNoneIn(name: string)
    ensures NoneIn(Utils.NormalizeText(Utils.ReplaceForbidden(name)), Utils.Forbidden)
  {
    var replaced := Utils.ReplaceForbidden(name);
    Utils.NormalizeIsJoin(replaced);
    JoinFieldsNoneIn(replaced, ' ', Whitespace, Utils.Forbidden);
  }

  /** Joining the `_`-separated words of a string with single `_`s keeps out the forbidden
      characters and leaves no `_` doubled or at an end. */
  lemma UnderscoreJoin(spaced: string)
    requires NoneIn(spaced, Utils.Forbidden)
    ensures var r := Join("_", Fields(spaced, Underscores));
      && NoneIn(r, Utils.Forbidden)
      && (r == [] || (r[0] != '_' && r[|r| - 1] != '_'))
      && (forall i :: 0 <= i < |r| - 1 ==> !(r[i] == '_' && r[i + 1] == '_'))
  {
    var parts := Fields(spaced, Underscores);
    FieldsPieces(spaced, Underscores);
    JoinSeparated('_', parts, Underscores);
    JoinFieldsNoneIn(spaced, '_', Underscores, Utils.Forbidden);
  }

  /** The `_`-separated words of the cleaned name are those of the space-normalised name. */
  lemma SanitizeNameWords(name: string)
    ensures Fields(SanitizeName(name), Underscores) ==
            Fields(Utils.NormalizeText(Utils.ReplaceForbidden(name)), Underscores)
  {
    var spaced := Utils.NormalizeText(Utils.ReplaceForbidden(name));
    FieldsPieces(spaced, Underscores);
    FieldsJoin('_', Fields(spaced, Underscores), Underscores);
  }

  // ---------------------------------------------------------------------------
  // download_file

  /** The outcome of one `download_file` call: its return value, the set of saved paths
      afterwards, and whether the HTTP client was asked for the file. */
  datatype Download = Download(ok: bool, downloaded: set<string>, fetched: bool)

  /** `onDisk` is what `os.path.exists` reports for the path, `fetchOk` whether the
      request and the write would succeed. */
  function DownloadFile(downloaded: set<string>, path: string, onDisk: bool, fetchOk: bool): (r: Download)
    ensures path in downloaded ==> r.ok && r.downloaded == downloaded && !r.fetched
    ensures path !in downloaded ==> (r.fetched <==> !onDisk)
    ensures r.ok <==> path in downloaded || onDisk || fetchOk
    ensures r.downloaded == if r.ok then downloaded + {path} else downloaded
    ensures r.ok <==> path in r.downloaded
  {
    if path in downloaded then Download(true, downloaded, false)
    else if onDisk then Download(true, downloaded + {path}, false)
    else if fetchOk then Download(true, downloaded + {path}, true)
    else Download(false, downloaded, true)
  }

  /** One call of `download_file` with what the file system and the network report. */
  datatype Call = Call(path: string, onDisk: bool, fetchOk: bool)

  /** A request sent to the HTTP client and whether it succeeded. */
  datatype Attempt = Attempt(path: string, ok: bool)

  /** A sequence of calls sharing one parser object: the final set and the requests made. */
  function Downloads(downloaded: set<string>, calls: seq<Call>): (r: (set<string>, seq<Attempt>))
    ensures downloaded <= r.0
    ensures |r.1| <= |calls|
    decreases |calls|
  {
    if calls == [] then (downloaded, [])
    else
      var c := calls[0];
      var d := DownloadFile(downloaded, c.path, c.onDisk, c.fetchOk);
      var rest := Downloads(d.downloaded, calls[1..]);
      (rest.0, (if d.fetched then [Attempt(c.path, d.ok)] else []) + rest.1)
  }

  /** A path ends up in the set exactly when it was there already or some call for it
      found it on disk or fetched it. */
  lemma {:induction false} DownloadsFinal(downloaded: set<string>, calls: seq<Call>, x: string)
    ensures x in Downloads(downloaded, calls).0 <==>
            x in downloaded ||
            exists i :: 0 <= i < |calls| && calls[i].path == x && (calls[i].onDisk || calls[i].fetchOk)
    decreases |calls|
  {
    if calls != [] {
      var c := calls[0];
      var d := DownloadFile(downloaded, c.path, c.onDisk, c.fetchOk);
      DownloadsFinal(d.downloaded, calls[1..], x);
      if exists i :: 0 <= i < |calls| && calls[i].path == x && (calls[i].onDisk || calls[i].fetchOk) {
        var i :| 0 <= i < |calls| && calls[i].path == x && (calls[i].onDisk || calls[i].fetchOk);
        if i > 0 { assert calls[1..][i - 1] == calls[i]; }
      }
      if exists i :: 0 <= i < |calls[1..]| && calls[1..][i].path == x && (calls[1..][i].onDisk || calls[1..][i].fetchOk) {
        var i :| 0 <= i < |calls[1..]| && calls[1..][i].path == x && (calls[1..][i].onDisk || calls[1..][i].fetchOk);
        assert calls[i + 1] == calls[1..][i];
      }
    }
  }

  /** The set saves requests: a path already saved is never requested, and a path is
      requested again only after every earlier request for it failed. */
  lemma {:induction false} DownloadsNoRefetch(downloaded: set<string>, calls: seq<Call>)
    ensures forall k :: 0 <= k < |Downloads(downloaded, calls).1| ==>
              Downloads(downloaded, calls).1[k].path !in downloaded
    ensures forall i, j :: 0 <= i < j < |Downloads(downloaded, calls).1| ==>
              (Downloads(downloaded, calls).1[i].path == Downloads(downloaded, calls).1[j].path ==>
               !Downloads(downloaded, calls).1[i].ok)
    decreases |calls|
  {
    if calls != [] {
      var c := calls[0];
      var d := DownloadFile(downloaded, c.path, c.onDisk, c.fetchOk);
      DownloadsNoRefetch(d.downloaded, calls[1..]);
      var rest := Downloads(d.downloaded, calls[1..]).1;
      var log := Downloads(downloaded, calls).1;
      assert forall k :: 0 <= k < |rest| ==> rest[k].path !in d.downloaded;
      if d.fetched {
        assert log == [Attempt(c.path, d.ok)] + rest;
        forall i, j | 0 <= i < j < |log| && log[i].path == log[j].path ensures !log[i].ok {
          assert log[j] == rest[j - 1] && rest[j - 1].path !in d.downloaded;
          if i > 0 { assert log[i] == rest[i - 1]; }
        }
      } else {
        assert log == rest;
      }
    }
  }

  // ---------------------------------------------------------------------------
  // get_rf_issuers

  const IssuersBaseUrl: string := "https://issuers.spbexchange.ru"

  const IssuersMarker: string := "/issuers/"

  const Slash: set<char> := {'/'}

  /** The text after the last `/issuers/` boundary of the left-to-right split, with `/` stripped from both ends,
      kept when it is a non-empty string of digits. */
  function Ogrn(href: string): (r: Option<string>)
    ensures r.Some? ==> r.value != [] && AllDigits(r.value)
  {
    var segment := StripChars(LastPiece(href, IssuersMarker), Slash);
    if segment != [] && AllDigits(segment) then Some(segment) else None
  }

  /** The OGRN is read from the segment that directly follows an occurrence of the marker
      and holds no further marker. */
  lemma OgrnSegment(href: string) returns (i: nat)
    requires Contains(href, IssuersMarker)
    ensures OccursAt(href, IssuersMarker, i)
    ensures !Contains(href[i + |IssuersMarker|..], IssuersMarker)
    ensures var segment := StripChars(href[i + |IssuersMarker|..], Slash);
      Ogrn(href) == if segment != [] && AllDigits(segment) then Some(segment) else None
  {
    i := LastPieceSplit(href, IssuersMarker);
  }

  /** `/issuers/` can overlap itself, and then the split's boundary is not the last
      occurrence: in `x/issuers/issuers/123` the marker also occurs right before `123`, yet the
      left-to-right split consumes the first occurrence and leaves `issuers/123`, so no OGRN is
      read. */
  lemma OgrnOverlappingMarker()
    ensures OccursAt("x/issuers/issuers/123", IssuersMarker, 9)
    ensures LastPiece("x/issuers/issuers/123", IssuersMarker) == "issuers/123"
    ensures Ogrn("x/issuers/issuers/123") == None
  {
    var M := IssuersMarker;
    var s := "x/issuers/issuers/123";
    assert s[9..18] == M;
    assert s[0..9] != M by { assert s[0] != M[0]; }
    assert s[1..10] == M;
    assert Find(s, M, 0) == Some(1);
    LastPieceUnfold(s, M);
    var rest := s[10..];
    assert rest == "issuers/123";
    assert rest[0..9] != M by { assert rest[0] != M[0]; }
    assert rest[1..10] != M by { assert rest[1] != M[0]; }
    assert rest[2..11] != M by { assert rest[2] != M[0]; }
    assert Find(rest, M, 3).None?;
    assert Find(rest, M, 2).None?;
    assert Find(rest, M, 1).None?;
    assert Find(rest, M, 0).None?;
    LastPieceUnfold(rest, M);
    StripLeftIdle(rest, Slash);
    StripRightIdle(rest, Slash);
    assert !IsDigit(rest[0]);
  }

  /** An issuer page address built from an OGRN, with or without a closing `/`, yields that
      OGRN back, unless the text before the marker itself ends in `/issuers` (the split's
      left-to-right scan would then consume a marker overlapping the real one). */
  lemma OgrnOfIssuerUrl(prefix: string, ogrn: string, closing: string)
    requires ogrn != [] && AllDigits(ogrn) && (closing == "" || closing == "/")
    requires !IsSuffix("/issuers", prefix)
    ensures Ogrn(prefix + IssuersMarker + ogrn + closing) == Some(ogrn)
  {
    var rest := ogrn + closing;
    assert forall k :: 0 <= k < |rest| - 1 ==> rest[k] != '/' by {
      forall k | 0 <= k < |rest| - 1 ensures rest[k] != '/' {
        assert rest[k] == ogrn[k] && IsDigit(ogrn[k]);
      }
    }
    LastPieceOfIssuerUrl(prefix, rest);
    assert prefix + IssuersMarker + ogrn + closing == prefix + IssuersMarker + rest;
    StripLeftIdle(rest, Slash);
    if closing == "/" {
      StripRightSnoc(ogrn, '/', Slash);
    }
    StripRightIdle(ogrn, Slash);
  }

  /** The piece after the split's last `/issuers/` boundary of such an address is what follows the marker. */
  lemma LastPieceOfIssuerUrl(prefix: string, rest: string)
    requires rest != [] && IsDigit(rest[0])
    requires forall k :: 0 <= k < |rest| - 1 ==> rest[k] != '/'
    requires !IsSuffix("/issuers", prefix)
    ensures LastPiece(prefix + IssuersMarker + rest, IssuersMarker) == rest
  {
    var M := IssuersMarker;
    var s := prefix + M + rest;
    var n := |prefix|;
    assert s[n..n + 9] == M;
    assert OccursAt(s, M, n);
    var q := LastPieceSplit(s, M);
    LastMarkerAt(prefix, rest, q);
    assert s[n + 9..] == rest;
  }

  /** In `prefix + "/issuers/" + rest`, where `rest` starts with a digit and holds `/` at most
      as its last character, the only marker with no marker after it is the visible one. */
  lemma LastMarkerAt(prefix: string, rest: string, q: int)
    requires rest != [] && IsDigit(rest[0])
    requires forall k :: 0 <= k < |rest| - 1 ==> rest[k] != '/'
    requires !IsSuffix("/issuers", prefix)
    requires OccursAt(prefix + IssuersMarker + rest, IssuersMarker, q)
    requires !Contains((prefix + IssuersMarker + rest)[q + 9..], IssuersMarker)
    ensures q == |prefix|
  {
    var s := prefix + IssuersMarker + rest;
    var n := |prefix|;
    MarkerNotLater(prefix, rest, q);
    if q + 9 <= n {
      MarkerInside(s, n, q);
    } else if q < n {
      MarkerStraddles(prefix, rest, q);
    }
  }

  lemma MarkerInside(s: string, n: int, q: int)
    requires 0 <= q && q + 9 <= n && n + 9 <= |s| && s[n..n + 9] == IssuersMarker
    ensures Contains(s[q + 9..], IssuersMarker)
  {
    var r := s[q + 9..];
    assert r[n - q - 9..n - q] == s[n..n + 9];
    assert OccursAt(r, IssuersMarker, n - q - 9);
  }

  lemma MarkerStraddles(prefix: string, rest: string, q: int)
    requires q < |prefix| < q + 9
    requires OccursAt(prefix + IssuersMarker + rest, IssuersMarker, q)
    ensures IsSuffix("/issuers", prefix)
  {
    var s := prefix + IssuersMarker + rest;
    var n := |prefix|;
    assert s[q + 8] == '/';
    assert s[q + 8] == IssuersMarker[q + 8 - n];
    assert q + 8 == n;
    assert prefix[q..] == s[q..q + 8] == IssuersMarker[..8];
  }

  /** No marker starts after the visible one: `rest` opens with a digit, not with `issuers/`. */
  lemma MarkerNotLater(prefix: string, rest: string, q: int)
    requires rest != [] && IsDigit(rest[0])
    requires forall k :: 0 <= k < |rest| - 1 ==> rest[k] != '/'
    requires OccursAt(prefix + IssuersMarker + rest, IssuersMarker, q)
    ensures q <= |prefix|
  {
    var s := prefix + IssuersMarker + rest;
    var n := |prefix|;
    assert s[q] == '/' && s[q + 1] == 'i';
    NoSlashIAfter(prefix, rest, q);
  }

  /** After the visible marker's first character, `/` is never followed by `i`. */
  lemma NoSlashIAfter(prefix: string, rest: string, q: int)
    requires rest != [] && IsDigit(rest[0])
    requires forall k :: 0 <= k < |rest| - 1 ==> rest[k] != '/'
    requires 0 <= q && q + 1 < |prefix| + 9 + |rest|
    ensures var s := prefix + IssuersMarker + rest; |prefix| < q ==> s[q] != '/' || s[q + 1] != 'i'
  {
    var s := prefix + IssuersMarker + rest;
    var n := |prefix|;
    if q <= n {
    } else if q <= n + 8 {
      assert s[q] == IssuersMarker[q - n];
      if q == n + 8 { assert s[q + 1] == rest[0]; }
    } else {
      assert s[q] == rest[q - n - 9];
    }
  }

  /** An issuer found on the issuers' index page. */
  datatype Issuer = Issuer(url: string, ogrn: string)

  /** The hrefs the loop looks at: present, non-empty and containing the marker. */
  predicate IssuerHref(href: string) { href != [] && Contains(href, IssuersMarker) }

  /** The issuer record of an href, with `join` standing for `urllib.parse.urljoin`. */
  function IssuerOf(join: (string, string) -> string, href: string): (r: Option<Issuer>)
    ensures r.Some? ==> r.value.url == join(IssuersBaseUrl, href) && Ogrn(href) == Some(r.value.ogrn)
  {
    match Ogrn(href)
    case None => None
    case Some(ogrn) => Some(Issuer(join(IssuersBaseUrl, href), ogrn))
  }

  /** The scan of the issuers' index page: each marked href once, in page order, kept when it
      carries an OGRN; the address is the href resolved against the issuers' site. */
  method RfIssuers(join: (string, string) -> string, hrefs: seq<string>) returns (issuers: seq<Issuer>)
    ensures issuers == Scanned(hrefs, IssuerHref, h => IssuerOf(join, h))
    ensures forall k :: 0 <= k < |issuers| ==> issuers[k].ogrn != [] && AllDigits(issuers[k].ogrn)
    ensures forall x :: x in issuers <==>
              exists i :: 0 <= i < |hrefs| && IssuerHref(hrefs[i]) && IssuerOf(join, hrefs[i]) == Some(x)
    ensures (forall a, b :: join(IssuersBaseUrl, a) == join(IssuersBaseUrl, b) ==> a == b) ==>
              forall i, j :: 0 <= i < j < |issuers| ==> issuers[i].url != issuers[j].url
  {
    var f := h => IssuerOf(join, h);
    issuers := ScanLinks(hrefs, IssuerHref, f);
    var src := ScannedSources(hrefs, IssuerHref, f);
    forall x ensures x in issuers <==>
        exists i :: 0 <= i < |hrefs| && IssuerHref(hrefs[i]) && IssuerOf(join, hrefs[i]) == Some(x) {
      ScannedExactly(hrefs, IssuerHref, f, x);
    }
  }

  // ---------------------------------------------------------------------------
  // get_foreign_bonds

  const IssuerLabel: string := "Полное наименование эмитента"

  const IsinLabel: string := "ISIN код"

  const ForeignMarker: string := "иностранного эмитента"

  /** One field of a bond card: the texts of its title and description elements, `None`
      when the element is missing (the lookup raises and the field is skipped). */
  datatype CardField = CardField(title: Option<string>, desc: Option<string>)

  /** What the loop over the fields has gathered: `is_foreign`, `issuer_name`, `isin`. */
  datatype Card = Card(foreign: bool, issuer: Option<string>, isin: Option<string>)

  /** A field whose title, stripped, contains `heading` and whose description can be read. */
  predicate Labelled(f: CardField, heading: string) {
    f.title.Some? && f.desc.Some? && Contains(Strip(f.title.value), heading)
  }

  /** The stripped description text of a field (empty when it cannot be read). */
  function ValueOf(f: CardField): string {
    if f.desc.Some? then Strip(f.desc.value) else ""
  }

  /** One pass of the loop body. A field whose title is missing raises before anything is
      set; a field whose description is missing raises at the first heading that matches,
      before that heading's assignment, and it is read for every heading once it is there. */
  function ReadField(c: Card, f: CardField): (r: Card)
    ensures f.title.None? || f.desc.None? ==> r == c
  {
    if f.title.None? || f.desc.None? then c
    else
      Card(c.foreign || NamesForeign(f),
           if Labelled(f, IssuerLabel) then Some(ValueOf(f)) else c.issuer,
           if Labelled(f, IsinLabel) then Some(ValueOf(f)) else c.isin)
  }

  /** The loop over the fields of a card, from the initial `False, None, None`. */
  function ReadCard(fields: seq<CardField>): (c: Card)
    decreases |fields|
  {
    if fields == [] then Card(false, None, None)
    else ReadField(ReadCard(fields[..|fields| - 1]), fields[|fields| - 1])
  }

  /** A readable category field whose description names a foreign issuer. */
  predicate NamesForeign(f: CardField) {
    Labelled(f, ReferenceData.CategoryLabel) && Contains(ValueOf(f), ForeignMarker)
  }

  /** The card names a foreign issuer exactly when some readable category field says so. */
  lemma {:induction false} CardForeign(fields: seq<CardField>)
    ensures ReadCard(fields).foreign <==> exists i :: 0 <= i < |fields| && NamesForeign(fields[i])
    decreases |fields|
  {
    if fields != [] {
      var init := fields[..|fields| - 1];
      var f := fields[|fields| - 1];
      CardForeign(init);
      AnyStep(init, f, NamesForeign);
      assert init + [f] == fields;
    }
  }

  /** Some field of `fields + [f]` is selected iff one of `fields` is or `f` is. */
  lemma AnyStep(fields: seq<CardField>, f: CardField, marked: CardField -> bool)
    ensures (exists i :: 0 <= i < |fields + [f]| && marked((fields + [f])[i])) <==>
            (exists i :: 0 <= i < |fields| && marked(fields[i])) || marked(f)
  {
    var all := fields + [f];
    assert all[|fields|] == f;
    assert forall i :: 0 <= i < |fields| ==> all[i] == fields[i];
  }

  /** Field `i` is the last field that `marked` selects. */
  predicate IsLast(fields: seq<CardField>, i: int, marked: CardField -> bool) {
    0 <= i < |fields| && marked(fields[i]) && forall j :: i < j < |fields| ==> !marked(fields[j])
  }

  /** `v` is the value of the last field `marked` selects, `None` when it selects none. */
  ghost predicate LatestValue(fields: seq<CardField>, marked: CardField -> bool, v: Option<string>) {
    && (v.None? <==> forall i :: 0 <= i < |fields| ==> !marked(fields[i]))
    && (v.Some? ==> exists i :: IsLast(fields, i, marked) && v.value == ValueOf(fields[i]))
  }

  lemma LatestValueStep(fields: seq<CardField>, f: CardField, marked: CardField -> bool, v: Option<string>)
    requires LatestValue(fields, marked, v)
    ensures LatestValue(fields + [f], marked, if marked(f) then Some(ValueOf(f)) else v)
  {
    var all := fields + [f];
    assert all[|fields|] == f;
    if marked(f) {
      assert IsLast(all, |fields|, marked);
    } else {
      assert forall i :: 0 <= i < |fields| ==> all[i] == fields[i];
      if v.Some? {
        var i :| IsLast(fields, i, marked) && v.value == ValueOf(fields[i]);
        assert IsLast(all, i, marked);
      }
    }
  }

  /** The issuer name and the ISIN come from the last readable field with that heading. */
  lemma CardLatest(fields: seq<CardField>)
    ensures LatestValue(fields, f => Labelled(f, IssuerLabel), ReadCard(fields).issuer)
    ensures LatestValue(fields, f => Labelled(f, IsinLabel), ReadCard(fields).isin)
  {
    CardIssuerLatest(fields);
    CardIsinLatest(fields);
  }

  lemma {:induction false} CardIssuerLatest(fields: seq<CardField>)
    ensures LatestValue(fields, f => Labelled(f, IssuerLabel), ReadCard(fields).issuer)
    decreases |fields|
  {
    if fields != [] {
      var init := fields[..|fields| - 1];
      var f := fields[|fields| - 1];
      assert init + [f] == fields;
      CardIssuerLatest(init);
      ReadFieldHeadings(ReadCard(init), f);
      LatestValueStep(init, f, f => Labelled(f, IssuerLabel), ReadCard(init).issuer);
    }
  }

  lemma {:induction false} CardIsinLatest(fields: seq<CardField>)
    ensures LatestValue(fields, f => Labelled(f, IsinLabel), ReadCard(fields).isin)
    decreases |fields|
  {
    if fields != [] {
      var init := fields[..|fields| - 1];
      var f := fields[|fields| - 1];
      assert init + [f] == fields;
      CardIsinLatest(init);
      ReadFieldHeadings(ReadCard(init), f);
      LatestValueStep(init, f, f => Labelled(f, IsinLabel), ReadCard(init).isin);
    }
  }

  /** A field sets the issuer name or the ISIN exactly when it carries that heading. */
  lemma ReadFieldHeadings(c: Card, f: CardField)
    ensures ReadField(c, f).issuer == if Labelled(f, IssuerLabel) then Some(ValueOf(f)) else c.issuer
    ensures ReadField(c, f).isin == if Labelled(f, IsinLabel) then Some(ValueOf(f)) else c.isin
  {
  }

  /** A foreign issuer's bond: the card link with the issuer name and ISIN read from it. */
  datatype ForeignBond = ForeignBond(url: string, issueId: string, issuer: string, isin: string)

  /** The acceptance test after the field loop: `is_foreign and issuer_name and isin`. */
  function CheckBond(link: IssueLink, fields: seq<CardField>): (r: Option<ForeignBond>)
    ensures r.Some? ==> r.value.url == link.url && r.value.issueId == link.issueId
    ensures r.Some? ==> r.value.issuer != [] && r.value.isin != []
    ensures r.Some? ==> ReadCard(fields).foreign
  {
    var c := ReadCard(fields);
    if c.foreign && c.issuer.Some? && c.issuer.value != [] && c.isin.Some? && c.isin.value != []
    then Some(ForeignBond(link.url, link.issueId, c.issuer.value, c.isin.value))
    else None
  }

  /** A bond is accepted exactly when a category field names a foreign issuer and the last
      issuer-name and ISIN fields are present and non-empty. */
  lemma CheckBondAccepts(link: IssueLink, fields: seq<CardField>)
    ensures CheckBond(link, fields).Some? <==>
            && (exists i :: 0 <= i < |fields| && NamesForeign(fields[i]))
            && (exists i :: IsLast(fields, i, f => Labelled(f, IssuerLabel)) && ValueOf(fields[i]) != [])
            && (exists i :: IsLast(fields, i, f => Labelled(f, IsinLabel)) && ValueOf(fields[i]) != [])
  {
    CardForeign(fields);
    CardLatest(fields);
    LastUnique(fields, f => Labelled(f, IssuerLabel));
    LastUnique(fields, f => Labelled(f, IsinLabel));
  }

  /** Only one field is the last with a given heading. */
  lemma LastUnique(fields: seq<CardField>, marked: CardField -> bool)
    ensures forall i, k :: IsLast(fields, i, marked) && IsLast(fields, k, marked) ==> i == k
  {
  }

  /** What opening a bond card gives. `driver.get` on the card raising sits outside the
      per-card `try`, so the page loop's handler ends the whole crawl (`OpenFails`); the
      field search raising is caught per card and the bond is skipped (`ReadFails`);
      otherwise the card's fields. */
  datatype CardLoad = OpenFails | ReadFails | Loaded(fields: seq<CardField>)

  /** The bond a card link yields, when its card loads and passes the acceptance test. */
  function CardBond(cards: string -> CardLoad, link: IssueLink): (r: Option<ForeignBond>)
    ensures r.Some? ==> cards(link.url).Loaded? && r == CheckBond(link, cards(link.url).fields)
    ensures cards(link.url).Loaded? ==> r == CheckBond(link, cards(link.url).fields)
  {
    match cards(link.url)
    case Loaded(fields) => CheckBond(link, fields)
    case _ => None
  }

  /** The card links of a listing page: each non-empty href once, kept when it carries an
      issue number. */
  function CardLinks(hrefs: seq<string>): seq<IssueLink> {
    Scanned(hrefs, NonBlank, LinkOf)
  }

  /** How many links are checked before a card fails to open: all of them when none does. */
  function OpenedCount(cards: string -> CardLoad, links: seq<IssueLink>): (n: nat)
    ensures n <= |links|
    ensures forall i :: 0 <= i < n ==> !cards(links[i].url).OpenFails?
    ensures n < |links| ==> cards(links[n].url).OpenFails?
  {
    if links == [] then 0
    else if cards(links[0].url).OpenFails? then 0
    else 1 + OpenedCount(cards, links[1..])
  }

  /** No card of the page fails to open, so the crawl goes on to the next page. */
  predicate PageCompletes(cards: string -> CardLoad, hrefs: seq<string>) {
    OpenedCount(cards, CardLinks(hrefs)) == |CardLinks(hrefs)|
  }

  /** The accepted bonds of one listing page, in link order, up to the first card that
      fails to open. */
  function PageBonds(cards: string -> CardLoad, hrefs: seq<string>): seq<ForeignBond> {
    var links := CardLinks(hrefs);
    FilterMap(l => CardBond(cards, l), links[..OpenedCount(cards, links)])
  }

  /** A page loop over listing pages `page`, `page + 1`, … for at most `fuel` pages:
      `pages` gives a page's links, `None` when loading or searching it raises. A failed
      or empty page ends the loop; otherwise the page contributes `found(hrefs)`, and the
      loop goes on only when `goesOn(hrefs)`. */
  function Crawl<T>(pages: nat -> Option<seq<string>>, found: seq<string> -> seq<T>,
                    goesOn: seq<string> -> bool, page: nat, fuel: nat): seq<T>
    decreases fuel
  {
    if fuel == 0 then []
    else match pages(page)
      case None => []
      case Some(hrefs) =>
        if hrefs == [] then []
        else found(hrefs) + (if goesOn(hrefs) then Crawl(pages, found, goesOn, page + 1, fuel - 1) else [])
  }

  /** The loop gets to page `p`: the first page loads with links, and either it is `p` or
      it lets the loop go on and the rest of the loop gets to `p`. */
  ghost predicate Reaches(pages: nat -> Option<seq<string>>, goesOn: seq<string> -> bool,
                          page: nat, fuel: nat, p: nat)
    decreases fuel
  {
    && fuel > 0 && pages(page).Some? && pages(page).value != []
    && (p == page || (goesOn(pages(page).value) && Reaches(pages, goesOn, page + 1, fuel - 1, p)))
  }

  /** Getting to page `p` means every page from `page` to `p` loads with links and every
      page before `p` lets the loop go on, within `fuel` pages. */
  lemma {:induction false} ReachesExactly(pages: nat -> Option<seq<string>>, goesOn: seq<string> -> bool,
                                          page: nat, fuel: nat, p: nat)
    ensures Reaches(pages, goesOn, page, fuel, p) <==>
            && page <= p < page + fuel
            && (forall q: nat :: page <= q <= p ==> pages(q).Some? && pages(q).value != [])
            && (forall q: nat :: page <= q < p ==> pages(q).Some? && goesOn(pages(q).value))
    decreases fuel
  {
    if fuel > 0 && pages(page).Some? && pages(page).value != [] && p != page {
      ReachesExactly(pages, goesOn, page + 1, fuel - 1, p);
    }
  }

  /** Page `p` loads and contributes `b`. */
  predicate FromPage<T(==)>(pages: nat -> Option<seq<string>>, found: seq<string> -> seq<T>, p: nat, b: T) {
    pages(p).Some? && b in found(pages(p).value)
  }

  /** An item is in the loop's result exactly when a page the loop gets to contributes it. */
  lemma CrawlExactly<T>(pages: nat -> Option<seq<string>>, found: seq<string> -> seq<T>,
                        goesOn: seq<string> -> bool, page: nat, fuel: nat, b: T)
    ensures b in Crawl(pages, found, goesOn, page, fuel) <==>
            exists p: nat :: Reaches(pages, goesOn, page, fuel, p) && FromPage(pages, found, p, b)
  {
    if b in Crawl(pages, found, goesOn, page, fuel) {
      var p := CrawlFound(pages, found, goesOn, page, fuel, b);
    }
    if exists p: nat :: Reaches(pages, goesOn, page, fuel, p) && FromPage(pages, found, p, b) {
      var p: nat :| Reaches(pages, goesOn, page, fuel, p) && FromPage(pages, found, p, b);
      FoundInCrawl(pages, found, goesOn, page, fuel, p, b);
    }
  }

  /** One step of the loop: a page that loads with links contributes its items, then the
      rest of the loop runs if the page lets it go on. */
  lemma CrawlStep<T>(pages: nat -> Option<seq<string>>, found: seq<string> -> seq<T>,
                     goesOn: seq<string> -> bool, page: nat, fuel: nat)
    returns (hrefs: seq<string>)
    requires Crawl(pages, found, goesOn, page, fuel) != []
    ensures fuel > 0 && pages(page) == Some(hrefs) && hrefs != []
    ensures Crawl(pages, found, goesOn, page, fuel)
            == found(hrefs) + (if goesOn(hrefs) then Crawl(pages, found, goesOn, page + 1, fuel - 1) else [])
  {
    hrefs := pages(page).value;
  }

  /** Every item of the loop's result comes from a page `p` the loop gets to. */
  lemma {:induction false} CrawlFound<T>(pages: nat -> Option<seq<string>>, found: seq<string> -> seq<T>,
                                         goesOn: seq<string> -> bool, page: nat, fuel: nat, b: T)
    returns (p: nat)
    requires b in Crawl(pages, found, goesOn, page, fuel)
    ensures Reaches(pages, goesOn, page, fuel, p) && FromPage(pages, found, p, b)
    decreases fuel, 1
  {
    var hrefs := CrawlStep(pages, found, goesOn, page, fuel);
    if b in found(hrefs) {
      p := page;
    } else {
      p := CrawlFoundLater(pages, found, goesOn, page, fuel, b);
    }
  }

  /** An item the rest of the loop finds, after a page that lets it go on, comes from a
      page the whole loop gets to. */
  lemma {:induction false} CrawlFoundLater<T>(pages: nat -> Option<seq<string>>, found: seq<string> -> seq<T>,
                                              goesOn: seq<string> -> bool, page: nat, fuel: nat, b: T)
    returns (p: nat)
    requires fuel > 0 && pages(page).Some? && pages(page).value != [] && goesOn(pages(page).value)
    requires b in Crawl(pages, found, goesOn, page + 1, fuel - 1)
    ensures Reaches(pages, goesOn, page, fuel, p) && FromPage(pages, found, p, b)
    decreases fuel, 0
  {
    p := CrawlFound(pages, found, goesOn, page + 1, fuel - 1, b);
    ReachesBack(pages, goesOn, page, fuel, p);
  }

  /** A page that loads with links and lets the loop go on passes on every page the rest
      of the loop gets to. */
  lemma ReachesBack(pages: nat -> Option<seq<string>>, goesOn: seq<string> -> bool,
                    page: nat, fuel: nat, p: nat)
    requires fuel > 0 && pages(page).Some? && pages(page).value != [] && goesOn(pages(page).value)
    requires Reaches(pages, goesOn, page + 1, fuel - 1, p)
    ensures Reaches(pages, goesOn, page, fuel, p)
  {
  }

  /** An item a reached page contributes is in the loop's result. */
  lemma {:induction false} FoundInCrawl<T>(pages: nat -> Option<seq<string>>, found: seq<string> -> seq<T>,
                                           goesOn: seq<string> -> bool, page: nat, fuel: nat, p: nat, b: T)
    requires Reaches(pages, goesOn, page, fuel, p) && FromPage(pages, found, p, b)
    ensures b in Crawl(pages, found, goesOn, page, fuel)
    decreases fuel
  {
    if p != page {
      FoundInCrawl(pages, found, goesOn, page + 1, fuel - 1, p, b);
    }
  }

  /** The bonds of one listing page, as a function of its hrefs. */
  function BondsOfPage(cards: string -> CardLoad): seq<string> -> seq<ForeignBond> {
    hrefs => PageBonds(cards, hrefs)
  }

  /** Whether the crawl goes on past a listing page. */
  function GoesOn(cards: string -> CardLoad): seq<string> -> bool {
    hrefs => PageCompletes(cards, hrefs)
  }

  /** The listing crawl: page `page` and those after it, for at most `fuel` pages. A failed
      page, an empty one, or a card that fails to open ends the crawl, keeping the bonds
      found so far. */
  function ForeignBonds(pages: nat -> Option<seq<string>>, cards: string -> CardLoad,
                        page: nat, fuel: nat): seq<ForeignBond>
  {
    Crawl(pages, BondsOfPage(cards), GoesOn(cards), page, fuel)
  }

  /** A bond passed the acceptance test on its own card, and its issue number is the one
      its link carries. */
  ghost predicate AcceptedOn(cards: string -> CardLoad, b: ForeignBond) {
    && IssueId(b.url) == Some(b.issueId)
    && cards(b.url).Loaded?
    && CheckBond(IssueLink(b.url, b.issueId), cards(b.url).fields) == Some(b)
  }

  /** Every bond of `bs` passed the acceptance test on its own card, so it has a non-empty
      issuer name and ISIN. */
  ghost predicate AllAccepted(cards: string -> CardLoad, bs: seq<ForeignBond>) {
    forall b :: b in bs ==> AcceptedOn(cards, b) && b.issuer != [] && b.isin != []
  }

  /** Every bond the crawl returns passed the acceptance test, so it has a non-empty issuer
      name and ISIN and its card names a foreign issuer. */
  lemma ForeignBondsAccepted(pages: nat -> Option<seq<string>>, cards: string -> CardLoad,
                             page: nat, fuel: nat)
    ensures AllAccepted(cards, ForeignBonds(pages, cards, page, fuel))
  {
    forall b | b in ForeignBonds(pages, cards, page, fuel)
      ensures AcceptedOn(cards, b) && b.issuer != [] && b.isin != []
    {
      CrawlExactly(pages, BondsOfPage(cards), GoesOn(cards), page, fuel, b);
      var p: nat :| Reaches(pages, GoesOn(cards), page, fuel, p) && FromPage(pages, BondsOfPage(cards), p, b);
      var hrefs := pages(p).value;
      assert b in PageBonds(cards, hrefs);
      PageBondsAccepted(cards, hrefs);
    }
  }

  /** A bond is in the crawl's result exactly when a listing page the crawl gets to yields
      it: every page up to that one loads with card links, and every card on the pages
      before it opens. */
  lemma ForeignBondsExactly(pages: nat -> Option<seq<string>>, cards: string -> CardLoad,
                            page: nat, fuel: nat, b: ForeignBond)
    ensures b in ForeignBonds(pages, cards, page, fuel) <==>
            exists p: nat :: Reaches(pages, GoesOn(cards), page, fuel, p) && FromPage(pages, BondsOfPage(cards), p, b)
  {
    CrawlExactly(pages, BondsOfPage(cards), GoesOn(cards), page, fuel, b);
  }

  /** A non-empty listing page contributes its bonds ahead of the later pages', whose bonds
      come only when every card of the page opened. */
  lemma ForeignBondsStep(pages: nat -> Option<seq<string>>, cards: string -> CardLoad,
                         page: nat, fuel: nat)
    requires fuel > 0 && pages(page).Some? && pages(page).value != []
    ensures ForeignBonds(pages, cards, page, fuel) ==
              PageBonds(cards, pages(page).value) +
              (if PageCompletes(cards, pages(page).value)
               then ForeignBonds(pages, cards, page + 1, fuel - 1) else [])
  {
  }

  /** The bonds of one listing page passed the acceptance test on their own cards. */
  lemma PageBondsAccepted(cards: string -> CardLoad, hrefs: seq<string>)
    ensures AllAccepted(cards, PageBonds(cards, hrefs))
  {
    var links := CardLinks(hrefs);
    var checked := links[..OpenedCount(cards, links)];
    var f := l => CardBond(cards, l);
    forall b | b in FilterMap(f, checked) ensures AcceptedOn(cards, b) {
      FilterMapExactly(f, checked, b);
      var i :| 0 <= i < |checked| && f(checked[i]) == Some(b);
      assert checked[i] == links[i];
      ScannedExactly(hrefs, NonBlank, LinkOf, links[i]);
      var k :| 0 <= k < |hrefs| && NonBlank(hrefs[k]) && LinkOf(hrefs[k]) == Some(links[i]);
      assert links[i] == IssueLink(b.url, b.issueId);
    }
  }

  /** A listing page yields a bond exactly when one of its card links, checked before any
      card of the page fails to open, passes the acceptance test on its card. */
  lemma PageBondsExactly(cards: string -> CardLoad, hrefs: seq<string>, b: ForeignBond)
    ensures b in PageBonds(cards, hrefs) <==>
            exists i :: && 0 <= i < OpenedCount(cards, CardLinks(hrefs))
                        && CardBond(cards, CardLinks(hrefs)[i]) == Some(b)
  {
    var links := CardLinks(hrefs);
    var checked := links[..OpenedCount(cards, links)];
    var f := l => CardBond(cards, l);
    FilterMapExactly(f, checked, b);
    if b in FilterMap(f, checked) {
      var i :| 0 <= i < |checked| && f(checked[i]) == Some(b);
      assert checked[i] == links[i];
    }
    if exists i :: 0 <= i < OpenedCount(cards, links) && CardBond(cards, links[i]) == Some(b) {
      var i :| 0 <= i < OpenedCount(cards, links) && CardBond(cards, links[i]) == Some(b);
      assert checked[i] == links[i];
      assert f(checked[i]) == Some(b);
    }
  }
}

=== FILE: reference.dfy ===
/** The reference-data pipeline: crawling the paginated securities list, turning one bond's
    detail page into a record with English column names, collecting the records, and
    choosing the CSV header. Fetching a page is a parameter (an oracle); so is the lookup of
    a labelled field on a detail page. */
module ReferenceData {
  import opened Text
  import opened Dicts
  import opened Lists
  import opened Config
  import opened Utils
  import opened PaymentDates

  /* ---------------------------------------------------------------- crawl */

  /** Safety limit on the number of list pages requested. */
  const MaxPages: nat := 200

  /** A decoded list page: its `content` items and its `totalPages` (0 when absent). */
  datatype PageData = PageData(content: seq<Dict>, totalPages: int)

  /** The basic information kept about a listed bond. */
  datatype BondRef = BondRef(code: string, isin: string, issuerName: string, url: string)

  /** The URL of a security's detail page. */
  function BondUrl(code: string): string {
    BaseUrl + "/listing/securities/" + code + "/"
  }

  /** A listed bond: a non-empty security code and the detail URL built from it. */
  predicate WellFormed(b: BondRef) {
    b.code != [] && b.url == BondUrl(b.code)
  }

  /** An item of a list page is kept when its kind names a bond and its code, once
      stripped, is not empty. */
  predicate IsBondItem(item: Dict) {
    Contains(GetOr(item, "securityKind", ""), "Облигац") && Strip(GetOr(item, "srtsCode", "")) != []
  }

  function AcceptItem(item: Dict): (r: Option<BondRef>)
    ensures r.Some? <==> IsBondItem(item)
    ensures r.Some? ==> WellFormed(r.value)
    ensures r.Some? ==> (r.value.code == Strip(GetOr(item, "srtsCode", "")) &&
                         r.value.isin == Strip(GetOr(item, "sisinCode", "")) &&
                         r.value.issuerName == Strip(GetOr(item, "fullName", "")))
  {
    if !Contains(GetOr(item, "securityKind", ""), "Облигац") then None
    else
      var code := Strip(GetOr(item, "srtsCode", ""));
      if code == [] then None
      else Some(BondRef(code, Strip(GetOr(item, "sisinCode", "")), Strip(GetOr(item, "fullName", "")),
                        BondUrl(code)))
  }

  /** The bonds a page contributes, in page order. */
  function Accepted(items: seq<Dict>): (r: seq<BondRef>)
    ensures |r| <= |items|
  {
    FilterMap(AcceptItem, items)
  }

  /** Pages contribute independently: there is no de-duplication across items or pages. */
  lemma AcceptedAppend(a: seq<Dict>, b: seq<Dict>)
    ensures Accepted(a + b) == Accepted(a) + Accepted(b)
  {
    FilterMapAppend(AcceptItem, a, b);
  }

  /** Exactly the bond items of a page turn into bonds, and all of them are well formed. */
  lemma AcceptedExactly(items: seq<Dict>, b: BondRef)
    ensures b in Accepted(items) <==> exists i :: 0 <= i < |items| && AcceptItem(items[i]) == Some(b)
    ensures b in Accepted(items) ==> WellFormed(b)
  {
    FilterMapExactly(AcceptItem, items, b);
  }

  /** The crawl goes on past `page` only when the page was read, had content, and the
      reported page count says more pages follow. */
  predicate Continues(fetch: nat -> Option<PageData>, page: nat) {
    fetch(page).Some? && fetch(page).value.content != [] && page < fetch(page).value.totalPages - 1
  }

  /** What the crawl collects from `page` on, `extract` giving what one page contributes:
      reading stops at a failed page, an empty page, the last reported page, or the safety
      limit. */
  function CrawlFrom<B>(fetch: nat -> Option<PageData>, extract: seq<Dict> -> seq<B>, page: nat): (r: seq<B>)
    requires page <= MaxPages
    requires extract([]) == []
    decreases MaxPages - page
  {
    if page == MaxPages then []
    else match fetch(page)
      case None => []
      case Some(data) =>
        if !Continues(fetch, page) then extract(data.content)
        else extract(data.content) + CrawlFrom(fetch, extract, page + 1)
  }

  /** How many pages the crawl requests from `page` on. */
  function PagesRead(fetch: nat -> Option<PageData>, page: nat): (r: nat)
    requires page <= MaxPages
    ensures page + r <= MaxPages
    ensures page < MaxPages ==> r >= 1
    decreases MaxPages - page
  {
    if page == MaxPages then 0
    else if Continues(fetch, page) then 1 + PagesRead(fetch, page + 1)
    else 1
  }

  /** One step of the crawl at a page below the limit. */
  lemma CrawlStep<B>(fetch: nat -> Option<PageData>, extract: seq<Dict> -> seq<B>, page: nat)
    requires extract([]) == [] && page < MaxPages
    ensures !Continues(fetch, page) ==> PagesRead(fetch, page) == 1
    ensures !Continues(fetch, page) ==>
              CrawlFrom(fetch, extract, page) == if fetch(page).None? then [] else extract(fetch(page).value.content)
    ensures Continues(fetch, page) ==>
              CrawlFrom(fetch, extract, page) == extract(fetch(page).value.content) + CrawlFrom(fetch, extract, page + 1) &&
              PagesRead(fetch, page) == 1 + PagesRead(fetch, page + 1)
  {
  }

  /** The pagination loop of `get_bonds_list`: requests pages 0, 1, 2, ... until one of
      the stop conditions holds, collecting what every page read contributes. */
  method CrawlPages<B>(fetch: nat -> Option<PageData>, extract: seq<Dict> -> seq<B>)
    returns (found: seq<B>, requested: seq<nat>)
    requires extract([]) == []
    ensures found == CrawlFrom(fetch, extract, 0)
    ensures |requested| == PagesRead(fetch, 0)
    ensures 1 <= |requested| <= MaxPages
    ensures forall k :: 0 <= k < |requested| ==> requested[k] == k
    ensures forall k :: 0 <= k < |requested| - 1 ==> Continues(fetch, k)
    ensures |requested| < MaxPages ==> !Continues(fetch, |requested| - 1)
  {
    found := [];
    requested := [];
    var page: nat := 0;
    while page < MaxPages
      invariant page <= MaxPages
      invariant found + CrawlFrom(fetch, extract, page) == CrawlFrom(fetch, extract, 0)
      invariant page + PagesRead(fetch, page) == PagesRead(fetch, 0)
      invariant |requested| == page
      invariant forall k :: 0 <= k < page ==> requested[k] == k && Continues(fetch, k)
      decreases MaxPages - page
    {
      requested := requested + [page];
      CrawlStep(fetch, extract, page);
      var items, more := ReadPage(fetch, extract, page);
      found := found + items;
      if !more {
        break;
      }
      page := page + 1;
    }
  }

  /** One pass of the pagination loop: what page `page` contributes, and whether the loop
      goes on to the next page. A failed page and an empty page stop the loop before their
      items are taken; the last reported page stops it after. */
  method ReadPage<B>(fetch: nat -> Option<PageData>, extract: seq<Dict> -> seq<B>, page: nat)
    returns (items: seq<B>, more: bool)
    requires extract([]) == []
    ensures items == if fetch(page).None? then [] else extract(fetch(page).value.content)
    ensures more <==> Continues(fetch, page)
  {
    var data := fetch(page);
    if data.None? {
      return [], false;
    }
    var content := data.value.content;
    if content == [] {
      return [], false;
    }
    items := extract(content);
    more := page < data.value.totalPages - 1;
  }

  /** `get_bonds_list`: the bond items of every page read, in order. */
  method GetBondsList(fetch: nat -> Option<PageData>) returns (bonds: seq<BondRef>, requested: seq<nat>)
    ensures bonds == CrawlFrom(fetch, Accepted, 0)
    ensures |requested| == PagesRead(fetch, 0)
    ensures 1 <= |requested| <= MaxPages
    ensures forall k :: 0 <= k < |requested| ==> requested[k] == k
    ensures forall k :: 0 <= k < |requested| - 1 ==> Continues(fetch, k)
    ensures |requested| < MaxPages ==> !Continues(fetch, |requested| - 1)
  {
    assert Accepted([]) == [];
    bonds, requested := CrawlPages(fetch, Accepted);
  }

  /** With no page count, or a count of one, only the first page is read. */
  lemma SinglePage<B>(fetch: nat -> Option<PageData>, extract: seq<Dict> -> seq<B>)
    requires extract([]) == []
    requires fetch(0).Some? && fetch(0).value.totalPages <= 1
    ensures PagesRead(fetch, 0) == 1
    ensures CrawlFrom(fetch, extract, 0) == extract(fetch(0).value.content)
  {
  }

  /** A failed first request yields nothing. */
  lemma FirstPageFails<B>(fetch: nat -> Option<PageData>, extract: seq<Dict> -> seq<B>)
    requires extract([]) == []
    requires fetch(0).None?
    ensures CrawlFrom(fetch, extract, 0) == [] && PagesRead(fetch, 0) == 1
  {
  }

  /** Everything found comes from one of the pages read. */
  lemma {:induction false} CrawlSource<B>(fetch: nat -> Option<PageData>, extract: seq<Dict> -> seq<B>,
                                          page: nat, b: B)
    requires extract([]) == [] && page <= MaxPages
    requires b in CrawlFrom(fetch, extract, page)
    ensures exists p :: page <= p < page + PagesRead(fetch, page) && fetch(p).Some? &&
                        b in extract(fetch(p).value.content)
    decreases MaxPages - page
  {
    if Continues(fetch, page) && b !in extract(fetch(page).value.content) {
      CrawlSource(fetch, extract, page + 1, b);
    }
  }

  /** Everything on every page read is found. */
  lemma {:induction false} CrawlComplete<B>(fetch: nat -> Option<PageData>, extract: seq<Dict> -> seq<B>,
                                            page: nat, p: nat, b: B)
    requires extract([]) == [] && page <= MaxPages && page <= p < page + PagesRead(fetch, page)
    requires fetch(p).Some? && b in extract(fetch(p).value.content)
    ensures b in CrawlFrom(fetch, extract, page)
    decreases p - page
  {
    if p > page {
      CrawlComplete(fetch, extract, page + 1, p, b);
    }
  }

  /** The bonds found are exactly the bond items of the pages read, each carrying a code
      and the detail URL built from it. */
  lemma CrawlBonds(fetch: nat -> Option<PageData>, b: BondRef)
    ensures b in CrawlFrom(fetch, Accepted, 0) <==>
              exists p, i :: 0 <= p < PagesRead(fetch, 0) && fetch(p).Some? &&
                             0 <= i < |fetch(p).value.content| && AcceptItem(fetch(p).value.content[i]) == Some(b)
    ensures b in CrawlFrom(fetch, Accepted, 0) ==> WellFormed(b)
  {
    assert Accepted([]) == [];
    if b in CrawlFrom(fetch, Accepted, 0) {
      CrawlSource(fetch, Accepted, 0, b);
      var p :| 0 <= p < PagesRead(fetch, 0) && fetch(p).Some? && b in Accepted(fetch(p).value.content);
      AcceptedExactly(fetch(p).value.content, b);
    }
    if exists p, i :: 0 <= p < PagesRead(fetch, 0) && fetch(p).Some? &&
                      0 <= i < |fetch(p).value.content| && AcceptItem(fetch(p).value.content[i]) == Some(b) {
      var p, i :| 0 <= p < PagesRead(fetch, 0) && fetch(p).Some? &&
                  0 <= i < |fetch(p).value.content| && AcceptItem(fetch(p).value.content[i]) == Some(b);
      AcceptedExactly(fetch(p).value.content, b);
      CrawlComplete(fetch, Accepted, 0, p, b);
    }
  }

  /* ------------------------------------------------------- detail pages */

  /** A bond's detail page: the value printed next to each field label ("" when the label
      is absent) and the page's whole text. */
  datatype DetailPage = DetailPage(field: string -> string, text: string)

  const CategoryLabel: string := "Вид, категория (тип) ценной бумаги"
  const CouponColumn: string := "Coupon Frequency"
  const DatesColumn: string := "Interest Payment Dates"
  const BooleanColumns: seq<string> :=
    ["Early Redemption Option", "Trading Restrictions (incl. qualified investors)",
     "Included in the exchange index universe"]

  /** Lower-cased text mentions a bond, in Russian or in English. */
  predicate MentionsBond(s: string) {
    Contains(Lower(s), "облигац") || Contains(Lower(s), "bond")
  }

  /** A page is parsed when its category, if given, names a bond and its text mentions one. */
  predicate IsBondPage(pg: DetailPage) {
    (pg.field(CategoryLabel) == [] || MentionsBond(pg.field(CategoryLabel))) && MentionsBond(pg.text)
  }

  /** The value stored for a column other than the payment dates. */
  function ProcessValue(column: string, raw: string): string {
    if column == CouponColumn then ParseCouponFrequency(raw)
    else if column in BooleanColumns then ParseBoolean(raw)
    else raw
  }

  /** How the field loop turns raw field text into values: `value(column, raw)` for an
      ordinary column, `dates(raw)` = (date list, first date) for the payment dates. */
  datatype Processing = Processing(value: (string, string) -> string, dates: string -> (string, string))

  /** The processing `parse_bond_details` applies. */
  const Standard: Processing := Processing(ProcessValue, ParseInterestPaymentDates)

  /** One step of the field loop. */
  function AddField(d: Dict, field: string -> string, f: (string, string), proc: Processing): Dict {
    var raw := field(f.0);
    if f.1 == DatesColumn then
      var parsed := proc.dates(raw);
      Put(Put(d, f.1, parsed.0), FirstPaymentDate, parsed.1)
    else Put(d, f.1, proc.value(f.1, raw))
  }

  /** The field loop over a label -> column table, in table order. */
  function Assemble(field: string -> string, fields: Dict, proc: Processing): (r: Dict)
    ensures fields != [] ==> r != []
    decreases |fields|
  {
    if fields == [] then []
    else AddField(Assemble(field, fields[..|fields| - 1], proc), field, fields[|fields| - 1], proc)
  }

  /** The columns a table produces: its own, with the first-payment column right after the
      payment-dates column. */
  function ColumnsOf(fields: Dict): (r: seq<string>)
    ensures |r| >= |fields|
    decreases |fields|
  {
    if fields == [] then []
    else
      var en := fields[|fields| - 1].1;
      ColumnsOf(fields[..|fields| - 1]) + [en] + (if en == DatesColumn then [FirstPaymentDate] else [])
  }

  /** Distinct columns, none of them the first-payment column. */
  predicate DistinctColumns(fields: Dict) {
    (forall i, j :: 0 <= i < j < |fields| ==> fields[i].1 != fields[j].1) &&
    (forall i :: 0 <= i < |fields| ==> fields[i].1 != FirstPaymentDate)
  }

  /** A table names a column. */
  predicate HasColumn(fields: Dict, x: string) {
    exists i :: 0 <= i < |fields| && fields[i].1 == x
  }

  lemma HasColumnInit(fields: Dict, x: string)
    requires fields != []
    ensures HasColumn(fields, x) <==> HasColumn(fields[..|fields| - 1], x) || fields[|fields| - 1].1 == x
  {
    var init := fields[..|fields| - 1];
    if HasColumn(fields, x) && fields[|fields| - 1].1 != x {
      var i :| 0 <= i < |fields| && fields[i].1 == x;
      assert init[i].1 == x;
    }
    if HasColumn(init, x) {
      var i :| 0 <= i < |init| && init[i].1 == x;
      assert fields[i].1 == x;
    }
  }

  /** The columns produced are the table's, plus the first-payment column when the table
      has the payment-dates column. */
  lemma {:induction false} ColumnsOfMembers(fields: Dict, x: string)
    ensures x in ColumnsOf(fields) <==>
              HasColumn(fields, x) || (x == FirstPaymentDate && HasColumn(fields, DatesColumn))
    decreases |fields|
  {
    if fields != [] {
      var init := fields[..|fields| - 1];
      ColumnsOfMembers(init, x);
      HasColumnInit(fields, x);
      HasColumnInit(fields, DatesColumn);
    }
  }

  lemma DistinctColumnsInit(fields: Dict)
    requires DistinctColumns(fields) && fields != []
    ensures DistinctColumns(fields[..|fields| - 1])
    ensures !HasColumn(fields[..|fields| - 1], fields[|fields| - 1].1)
  {
  }

  /** The field loop records each column once, in the order of `ColumnsOf`. */
  lemma {:induction false} AssembleKeys(field: string -> string, fields: Dict, proc: Processing)
    requires DistinctColumns(fields)
    ensures Keys(Assemble(field, fields, proc)) == ColumnsOf(fields)
    decreases |fields|
  {
    if fields != [] {
      var n := |fields| - 1;
      var init := fields[..n];
      var f := fields[n];
      DistinctColumnsInit(fields);
      AssembleKeys(field, init, proc);
      var d := Assemble(field, init, proc);
      ColumnsOfMembers(init, f.1);
      var raw := field(f.0);
      if f.1 == DatesColumn {
        var parsed := proc.dates(raw);
        PutKeys(d, f.1, parsed.0);
        PutKeys(Put(d, f.1, parsed.0), FirstPaymentDate, parsed.1);
        ColumnsOfMembers(init, FirstPaymentDate);
        assert FirstPaymentDate !in Keys(d) + [f.1];
      } else {
        PutKeys(d, f.1, proc.value(f.1, raw));
      }
    }
  }

  /** One step of the field loop records the field's column (and, for the payment-dates
      column, the first-payment column) and leaves every other key alone. */
  lemma AddFieldGet(d: Dict, field: string -> string, f: (string, string), proc: Processing, key: string)
    requires f.1 != FirstPaymentDate
    ensures Get(AddField(d, field, f, proc), key) ==
              if key == f.1 then
                Some(if f.1 == DatesColumn then proc.dates(field(f.0)).0 else proc.value(f.1, field(f.0)))
              else if key == FirstPaymentDate && f.1 == DatesColumn then Some(proc.dates(field(f.0)).1)
              else Get(d, key)
  {
    var raw := field(f.0);
    if f.1 == DatesColumn {
      var parsed := proc.dates(raw);
      PutGet(Put(d, f.1, parsed.0), FirstPaymentDate, parsed.1, key);
      PutGet(d, f.1, parsed.0, key);
    } else {
      PutGet(d, f.1, proc.value(f.1, raw), key);
    }
  }

  /** The value recorded for a column is its processed field; for the payment-dates column
      it is the date list. */
  lemma {:induction false} AssembleGet(field: string -> string, fields: Dict, proc: Processing, i: nat)
    requires DistinctColumns(fields) && i < |fields|
    ensures Get(Assemble(field, fields, proc), fields[i].1) ==
              Some(if fields[i].1 == DatesColumn then proc.dates(field(fields[i].0)).0
                   else proc.value(fields[i].1, field(fields[i].0)))
    decreases |fields|
  {
    var n := |fields| - 1;
    var init := fields[..n];
    DistinctColumnsInit(fields);
    assert fields[n].1 != FirstPaymentDate && fields[i].1 != FirstPaymentDate;
    if i < n {
      AssembleGet(field, init, proc, i);
      assert init[i] == fields[i] && fields[i].1 != fields[n].1;
    }
    AddFieldGet(Assemble(field, init, proc), field, fields[n], proc, fields[i].1);
  }

  /** The first-payment column holds the first date read from the payment-dates field. */
  lemma {:induction false} AssembleFirstDate(field: string -> string, fields: Dict, proc: Processing, i: nat)
    requires DistinctColumns(fields) && i < |fields| && fields[i].1 == DatesColumn
    ensures Get(Assemble(field, fields, proc), FirstPaymentDate) == Some(proc.dates(field(fields[i].0)).1)
    decreases |fields|
  {
    var n := |fields| - 1;
    var init := fields[..n];
    DistinctColumnsInit(fields);
    if i < n {
      AssembleFirstDate(field, init, proc, i);
      assert init[i] == fields[i];
    }
    AddFieldGet(Assemble(field, init, proc), field, fields[n], proc, FirstPaymentDate);
  }

  lemma FieldMappingDistinct()
    ensures DistinctColumns(FieldMapping)
  {
    FieldNamesDistinct();
    FirstPaymentDateNotMapped();
  }

  /** `parse_bond_details`: an empty record for a page that failed to load or is not a
      bond's; otherwise one entry per mapped column plus the first payment date. */
  function ParseBondDetails(page: Option<DetailPage>): (r: Dict)
    ensures r == [] <==> page.None? || !IsBondPage(page.value)
  {
    if page.None? || !IsBondPage(page.value) then []
    else Assemble(page.value.field, FieldMapping, Standard)
  }

  /** The record of a bond page has one key per mapped column, in table order, with the
      first payment date right after the payment dates. */
  lemma DetailKeys(page: DetailPage)
    requires IsBondPage(page)
    ensures Keys(ParseBondDetails(Some(page))) == ColumnsOf(FieldMapping)
  {
    FieldMappingDistinct();
    AssembleKeys(page.field, FieldMapping, Standard);
  }

  /** The record of a bond page holds, under each mapped column, the processed value of
      the field with that column's label. */
  lemma DetailValue(page: DetailPage, i: nat)
    requires IsBondPage(page) && i < |FieldMapping| && FieldMapping[i].1 != DatesColumn
    ensures Get(ParseBondDetails(Some(page)), FieldMapping[i].1) ==
              Some(ProcessValue(FieldMapping[i].1, page.field(FieldMapping[i].0)))
  {
    FieldMappingDistinct();
    AssembleGet(page.field, FieldMapping, Standard, i);
  }

  /** The label of the payment-dates field. */
  const DatesLabel: string := "Даты выплаты процентов"

  lemma DatesEntry()
    ensures FieldMapping[14] == (DatesLabel, DatesColumn)
  {
  }

  /** The payment-dates field fills both date columns. */
  lemma DetailDates(page: DetailPage)
    requires IsBondPage(page)
    ensures Get(ParseBondDetails(Some(page)), DatesColumn) == Some(ParseInterestPaymentDates(page.field(DatesLabel)).0)
    ensures Get(ParseBondDetails(Some(page)), FirstPaymentDate) == Some(ParseInterestPaymentDates(page.field(DatesLabel)).1)
  {
    BondRecord(page);
    FieldMappingDistinct();
    DatesEntry();
    AssembleDates(page.field, FieldMapping, 14);
  }

  /** The record of a bond page is the field loop over the whole table. */
  lemma BondRecord(page: DetailPage)
    requires IsBondPage(page)
    ensures ParseBondDetails(Some(page)) == Assemble(page.field, FieldMapping, Standard)
  {
  }

  /** A table whose field `i` is the payment-dates field fills both date columns from it. */
  lemma AssembleDates(field: string -> string, fields: Dict, i: nat)
    requires DistinctColumns(fields) && i < |fields| && fields[i] == (DatesLabel, DatesColumn)
    ensures Get(Assemble(field, fields, Standard), DatesColumn) == Some(ParseInterestPaymentDates(field(DatesLabel)).0)
    ensures Get(Assemble(field, fields, Standard), FirstPaymentDate) == Some(ParseInterestPaymentDates(field(DatesLabel)).1)
  {
    AssembleGet(field, fields, Standard, i);
    AssembleFirstDate(field, fields, Standard, i);
  }

  lemma DatesColumnMapped()
    ensures HasColumn(FieldMapping, DatesColumn)
  {
    assert FieldMapping[14].1 == DatesColumn;
  }

  lemma SymbolNotMapped()
    ensures !HasColumn(FieldMapping, SymbolColumn)
  {
    UnmappedColumn(SymbolColumn);
  }

  /** The keys of a non-empty record: every mapped column and the first payment date. */
  lemma DetailColumns(page: DetailPage, x: string)
    requires IsBondPage(page)
    ensures x in Keys(ParseBondDetails(Some(page))) <==> x == FirstPaymentDate || HasColumn(FieldMapping, x)
  {
    DetailKeys(page);
    DatesColumnMapped();
    ColumnsOfMembers(FieldMapping, x);
  }

  /* ------------------------------------------------------- all bonds */

  const SymbolColumn: string := "Security Symbol"

  /** `parse_all_bonds`, given `details(url)` = the record `parse_bond_details` returns for
      a URL: the non-empty records, each tagged with its bond's code, in list order. */
  function ParseAllBonds(bonds: seq<BondRef>, details: string -> Dict): (r: seq<Dict>)
    ensures |r| <= |bonds|
    ensures forall k :: 0 <= k < |r| ==> Get(r[k], SymbolColumn).Some?
  {
    if bonds == [] then []
    else
      var d := details(bonds[0].url);
      var rest := ParseAllBonds(bonds[1..], details);
      if d == [] then rest else [Put(d, SymbolColumn, bonds[0].code)] + rest
  }

  /** Bonds are processed independently of one another. */
  lemma {:induction false} ParseAllBondsAppend(a: seq<BondRef>, b: seq<BondRef>, details: string -> Dict)
    ensures ParseAllBonds(a + b, details) == ParseAllBonds(a, details) + ParseAllBonds(b, details)
  {
    if a == [] {
      assert a + b == b;
    } else {
      assert (a + b)[0] == a[0] && (a + b)[1..] == a[1..] + b;
      ParseAllBondsAppend(a[1..], b, details);
    }
  }

  /** `rec` is the record of bond `k`: its details are non-empty, and `rec` is them with
      the bond's code under "Security Symbol". */
  predicate TaggedRecord(bonds: seq<BondRef>, details: string -> Dict, k: int, rec: Dict) {
    0 <= k < |bonds| && details(bonds[k].url) != [] &&
    rec == Put(details(bonds[k].url), SymbolColumn, bonds[k].code)
  }

  /** A record is kept exactly when a bond's details are non-empty; it carries the bond's
      code. */
  lemma {:induction false} ParseAllBondsExactly(bonds: seq<BondRef>, details: string -> Dict, rec: Dict)
    ensures rec in ParseAllBonds(bonds, details) <==> exists k :: TaggedRecord(bonds, details, k, rec)
  {
    if bonds != [] {
      ParseAllBondsExactly(bonds[1..], details, rec);
      TaggedShift(bonds, details, rec);
    }
  }

  /** A record comes from some bond of a list exactly when it comes from the first one or
      from some bond of the rest. */
  lemma TaggedShift(bonds: seq<BondRef>, details: string -> Dict, rec: Dict)
    requires bonds != []
    ensures (exists k :: TaggedRecord(bonds, details, k, rec)) <==>
              TaggedRecord(bonds, details, 0, rec) || exists k :: TaggedRecord(bonds[1..], details, k, rec)
  {
    var tail := bonds[1..];
    if exists k :: TaggedRecord(bonds, details, k, rec) {
      var k :| TaggedRecord(bonds, details, k, rec);
      if k > 0 {
        assert tail[k - 1] == bonds[k];
        assert TaggedRecord(tail, details, k - 1, rec);
      }
    }
    if exists k :: TaggedRecord(tail, details, k, rec) {
      var k :| TaggedRecord(tail, details, k, rec);
      assert bonds[k + 1] == tail[k];
      assert TaggedRecord(bonds, details, k + 1, rec);
    }
  }

  /** A tagged record of a bond page: the mapped columns, the first payment date and the
      symbol, in that order, with the symbol holding the bond's code. */
  lemma RecordColumns(page: DetailPage, code: string)
    requires IsBondPage(page)
    ensures Keys(Put(ParseBondDetails(Some(page)), SymbolColumn, code)) == ColumnsOf(FieldMapping) + [SymbolColumn]
    ensures Get(Put(ParseBondDetails(Some(page)), SymbolColumn, code), SymbolColumn) == Some(code)
  {
    DetailKeys(page);
    ColumnsOfMembers(FieldMapping, SymbolColumn);
    SymbolNotMapped();
    PutKeys(ParseBondDetails(Some(page)), SymbolColumn, code);
  }

  /* ------------------------------------------------------- CSV header */

  /** Columns that lead the header. */
  const LeadColumns: seq<string> := [SymbolColumn, "ISIN", "Full Name Issuer"]

  /** The preferred header order: the lead columns, the other mapped columns in table
      order, then the additional columns. */
  function OrderedColumns(): seq<string> {
    LeadColumns + Filter(Values(FieldMapping), f => f !in LeadColumns) + AdditionalFields
  }

  /** The preferred columns that occur, then the remaining ones in `setOrder`. */
  function Header(all: set<string>, ordered: seq<string>, setOrder: seq<string>): seq<string> {
    var first := Filter(ordered, f => f in all);
    first + Filter(setOrder, f => f !in first)
  }

  /** The header names every field exactly once; the preferred ones come first, in
      preferred order. */
  lemma HeaderSpec(all: set<string>, ordered: seq<string>, setOrder: seq<string>)
    requires NoDup(ordered) && Enumerates(setOrder, all)
    ensures var h := Header(all, ordered, setOrder);
            NoDup(h) &&
            (forall x :: x in h <==> x in all) &&
            (forall i, j :: 0 <= i < j < |h| && h[j] in ordered ==>
               h[i] in ordered && IndexOf(ordered, h[i]) < IndexOf(ordered, h[j]))
  {
    var first := Filter(ordered, f => f in all);
    var rest := Filter(setOrder, f => f !in first);
    var h := first + rest;
    FilterNoDup(ordered, f => f in all);
    FilterNoDup(setOrder, f => f !in first);
    FilterOrder(ordered, f => f in all);
    forall i, j | 0 <= i < j < |h| ensures h[i] != h[j] {
      if i < |first| && j >= |first| {
        assert h[j] == rest[j - |first|] && h[j] !in first;
      } else if i >= |first| {
        assert h[i] == rest[i - |first|] && h[j] == rest[j - |first|];
      }
    }
  }

  /** The header of `save_to_csv`: none when there are no records (nothing is written). */
  function CsvColumns(records: seq<Dict>, setOrder: seq<string>): (r: Option<seq<string>>)
    requires Enumerates(setOrder, AllFields(records))
    ensures r.None? <==> records == []
  {
    if records == [] then None else Some(Header(AllFields(records), OrderedColumns(), setOrder))
  }

  lemma OrderedColumnsNoDup()
    ensures NoDup(OrderedColumns())
  {
    var mapped := Filter(Values(FieldMapping), f => f !in LeadColumns);
    FieldNamesDistinct();
    FirstPaymentDateNotMapped();
    SymbolNotMapped();
    assert NoDup(Values(FieldMapping));
    FilterNoDup(Values(FieldMapping), f => f !in LeadColumns);
    assert FirstPaymentDate !in Values(FieldMapping);
    var o := OrderedColumns();
    assert o == LeadColumns + mapped + [FirstPaymentDate];
    forall i, j | 0 <= i < j < |o| ensures o[i] != o[j] {
      if i < 3 && 3 <= j < 3 + |mapped| {
        assert o[j] in mapped;
      }
      if 3 <= i < 3 + |mapped| && j == 3 + |mapped| {
        assert o[i] == mapped[i - 3];
      }
      if 3 <= i < j < 3 + |mapped| {
        assert o[i] == mapped[i - 3] && o[j] == mapped[j - 3];
      }
    }
  }

  /** The CSV header names every field of every record exactly once, with the preferred
      columns first and in preferred order. */
  lemma CsvColumnsSpec(records: seq<Dict>, setOrder: seq<string>)
    requires records != [] && Enumerates(setOrder, AllFields(records))
    ensures var h := CsvColumns(records, setOrder).value;
            NoDup(h) &&
            (forall x :: x in h <==> exists k :: 0 <= k < |records| && x in Keys(records[k])) &&
            (forall i, j :: 0 <= i < j < |h| && h[j] in OrderedColumns() ==>
               h[i] in OrderedColumns() && IndexOf(OrderedColumns(), h[i]) < IndexOf(OrderedColumns(), h[j]))
  {
    OrderedColumnsNoDup();
    HeaderSpec(AllFields(records), OrderedColumns(), setOrder);
    forall x ensures x in AllFields(records) <==> exists k :: 0 <= k < |records| && x in Keys(records[k]) {
      AllFieldsMembers(records, x);
    }
  }
}

=== FILE: russian.dfy ===
/** The Russian issuers' prospectus parser: finding a bond's ISIN on its page, collecting
    its document links without repeating a URL, fixing up file extensions, counting the
    files a download saves, and the ISIN fallback for bonds that have none. The parsed page
    arrives as a value; `urljoin` and the download itself are parameters. */
module RussianProspectus {
  import opened Text
  import opened Lists
  import opened Documents
  import Utils

  // ---------------------------------------------------------------------------
  // the ISIN shape

  /** `[A-Z0-9]`. */
  predicate IsIsinChar(c: char) { IsUpperLatin(c) || IsDigit(c) }

  /** `^[A-Z]{2}[A-Z0-9]{10}$`: the shape of an ISO 6166 code; the check digit is not
      verified. */
  predicate IsIsin(s: string) {
    |s| == 12 && IsUpperLatin(s[0]) && IsUpperLatin(s[1]) &&
    forall k :: 2 <= k < 12 ==> IsIsinChar(s[k])
  }

  /** `[:\s]`, the separator class between a label and its code. */
  predicate IsinSep(c: char) { c == ':' || c in Whitespace }

  /** A code never contains a separator; in particular it has no space. */
  lemma IsinNoSep(s: string)
    requires IsIsin(s)
    ensures forall k :: 0 <= k < |s| ==> !IsinSep(s[k])
    ensures ' ' !in s
  {
  }

  // ---------------------------------------------------------------------------
  // the three page-text patterns

  /** `ISIN[:\s]+(code)` and `ISIN код[:\s]+(code)` are `After` their label; the generic
      `(code)` is `Bare`. */
  datatype IsinPattern = After(heading: string) | Bare

  const IsinPatterns: seq<IsinPattern> := [After("ISIN"), After("ISIN код"), Bare]

  /** The twelve characters at `j`, when they have the ISIN shape. */
  function ShapeAt(text: string, j: nat): (r: Option<string>)
    ensures r.Some? ==> IsIsin(r.value) && OccursAt(text, r.value, j)
    ensures r.None? ==> j + 12 > |text| || !IsIsin(text[j..j + 12])
  {
    if j + 12 <= |text| && IsIsin(text[j..j + 12]) then Some(text[j..j + 12]) else None
  }

  /** A code-shaped window of twelve characters starts at `i`. */
  predicate WindowIsIsin(text: string, i: nat) {
    i + 12 <= |text| && IsIsin(text[i..i + 12])
  }

  /** The length of the run of separators starting at `j`. */
  function SepRun(text: string, j: nat): (n: nat)
    requires j <= |text|
    ensures j + n <= |text|
    ensures forall k :: j <= k < j + n ==> IsinSep(text[k])
    ensures j + n == |text| || !IsinSep(text[j + n])
    decreases |text| - j
  {
    if j < |text| && IsinSep(text[j]) then 1 + SepRun(text, j + 1) else 0
  }

  /** The capture of a match of `pattern` starting at `i`, if one starts there. After the
      label the separator run is taken whole: the code behind it starts with a capital
      letter, which no separator is, so no shorter run can succeed. */
  function MatchAt(text: string, pattern: IsinPattern, i: nat): (r: Option<string>)
    ensures r.Some? ==> IsIsin(r.value)
  {
    match pattern
    case Bare => ShapeAt(text, i)
    case After(heading) =>
      if OccursAt(text, heading, i) then
        var j := i + |heading|;
        var n := SepRun(text, j);
        if n == 0 then None else ShapeAt(text, j + n)
      else None
  }

  /** A match of `heading[:\s]+(code)` at `i` in the regex's own terms: the label, a run of
      `n` separators for some `n >= 1`, and the code right behind it. */
  predicate RegexMatch(text: string, heading: string, i: nat, n: nat, code: string) {
    && OccursAt(text, heading, i)
    && n >= 1
    && i + |heading| + n <= |text|
    && (forall k :: i + |heading| <= k < i + |heading| + n ==> IsinSep(text[k]))
    && OccursAt(text, code, i + |heading| + n)
    && IsIsin(code)
  }

  /** The scanner finds exactly the captures the backtracking regex can produce at `i`. */
  lemma MatchAtRegex(text: string, heading: string, i: nat, code: string)
    ensures MatchAt(text, After(heading), i) == Some(code) <==>
            exists n :: RegexMatch(text, heading, i, n, code)
  {
    if MatchAt(text, After(heading), i) == Some(code) {
      assert RegexMatch(text, heading, i, SepRun(text, i + |heading|), code);
    }
    if exists n :: RegexMatch(text, heading, i, n, code) {
      var n: nat :| RegexMatch(text, heading, i, n, code);
      RegexRunWhole(text, heading, i, n, code);
    }
  }

  /** A regex match can only use the whole separator run. */
  lemma RegexRunWhole(text: string, heading: string, i: nat, n: nat, code: string)
    requires RegexMatch(text, heading, i, n, code)
    ensures n == SepRun(text, i + |heading|)
    ensures MatchAt(text, After(heading), i) == Some(code)
  {
    var j := i + |heading|;
    var m := SepRun(text, j);
    assert text[j + n..j + n + 12] == code;
    assert text[j + n] == code[0];
    IsinNoSep(code);
    assert m <= n;
  }

  /** No match starts beyond the end of the text. */
  lemma MatchAtBeyond(text: string, pattern: IsinPattern, i: nat)
    requires i > |text|
    ensures MatchAt(text, pattern, i).None?
  {
  }

  /** `re.search(pattern, text)` from position `from`: the capture of the leftmost match. */
  function Search(text: string, pattern: IsinPattern, from: nat): (r: Option<string>)
    ensures r.Some? ==> IsIsin(r.value)
    decreases |text| + 1 - from
  {
    if from > |text| then None
    else match MatchAt(text, pattern, from)
      case Some(code) => Some(code)
      case None => Search(text, pattern, from + 1)
  }

  /** The search finds nothing exactly when no match starts anywhere, and otherwise the
      capture of the leftmost match. */
  lemma {:induction false} SearchLeftmost(text: string, pattern: IsinPattern, from: nat)
    ensures Search(text, pattern, from).None? <==>
            forall i :: from <= i ==> MatchAt(text, pattern, i).None?
    ensures Search(text, pattern, from).Some? ==>
            exists i :: from <= i <= |text| && MatchAt(text, pattern, i) == Search(text, pattern, from) &&
                        forall j :: from <= j < i ==> MatchAt(text, pattern, j).None?
    decreases |text| + 1 - from
  {
    if from > |text| {
      forall i | from <= i ensures MatchAt(text, pattern, i).None? {
        MatchAtBeyond(text, pattern, i);
      }
    } else if MatchAt(text, pattern, from).None? {
      SearchLeftmost(text, pattern, from + 1);
      if Search(text, pattern, from).Some? {
        var i :| from + 1 <= i <= |text| && MatchAt(text, pattern, i) == Search(text, pattern, from) &&
                 forall j :: from + 1 <= j < i ==> MatchAt(text, pattern, j).None?;
        assert forall j :: from <= j < i ==> MatchAt(text, pattern, j).None?;
      }
    }
  }

  /** The pattern loop: the first pattern that matches gives the code. The loop also
      re-checks the capture against the ISIN shape before accepting it; every capture has
      that shape (see `Search`), so the check always passes and is not repeated here. */
  function FirstFound(text: string, patterns: seq<IsinPattern>): (r: Option<string>)
    ensures r.Some? ==> IsIsin(r.value)
  {
    if patterns == [] then None
    else match Search(text, patterns[0], 0)
      case Some(code) => Some(code)
      case None => FirstFound(text, patterns[1..])
  }

  /** Patterns are tried in order: the result comes from the first pattern that matches
      at all, and there is none only when no pattern matches. */
  lemma {:induction false} FirstFoundOrder(text: string, patterns: seq<IsinPattern>)
    ensures FirstFound(text, patterns).None? <==>
            forall k :: 0 <= k < |patterns| ==> Search(text, patterns[k], 0).None?
    ensures FirstFound(text, patterns).Some? ==>
            exists k :: 0 <= k < |patterns| && Search(text, patterns[k], 0) == FirstFound(text, patterns) &&
                        forall j :: 0 <= j < k ==> Search(text, patterns[j], 0).None?
  {
    if patterns != [] {
      FirstFoundOrder(text, patterns[1..]);
      var rest := patterns[1..];
      if Search(text, patterns[0], 0).None? {
        assert forall k :: 1 <= k < |patterns| ==> patterns[k] == rest[k - 1];
        if FirstFound(text, patterns).Some? {
          var k :| 0 <= k < |rest| && Search(text, rest[k], 0) == FirstFound(text, patterns) &&
                   forall j :: 0 <= j < k ==> Search(text, rest[j], 0).None?;
          assert Search(text, patterns[k + 1], 0) == FirstFound(text, patterns);
        }
      }
    }
  }

  /** The ISIN found in the page text, or `""`. */
  function FindIsin(text: string): (r: string)
    ensures r == [] || IsIsin(r)
  {
    match FirstFound(text, IsinPatterns)
    case Some(code) => code
    case None => []
  }

  /** The labelled patterns win over the generic one, whatever their positions: the code
      found is the leftmost capture of the first pattern that matches anywhere. */
  lemma FindIsinSpec(text: string)
    ensures FindIsin(text) != [] ==>
      exists k :: 0 <= k < |IsinPatterns| && Search(text, IsinPatterns[k], 0) == Some(FindIsin(text)) &&
                  forall j :: 0 <= j < k ==> Search(text, IsinPatterns[j], 0).None?
    ensures FindIsin(text) == [] ==>
      forall k :: 0 <= k < |IsinPatterns| ==> Search(text, IsinPatterns[k], 0).None?
  {
    FirstFoundOrder(text, IsinPatterns);
  }

  /** Every capture is a window of the text, so without code-shaped windows nothing
      matches. */
  lemma NoWindowNoMatch(text: string, pattern: IsinPattern, i: nat)
    requires forall j: nat :: !WindowIsIsin(text, j)
    ensures MatchAt(text, pattern, i).None?
  {
    if pattern.After? && OccursAt(text, pattern.heading, i) {
      var j := i + |pattern.heading|;
      assert !WindowIsIsin(text, j + SepRun(text, j));
    } else {
      assert !WindowIsIsin(text, i);
    }
  }

  /** Since the generic pattern matches any code-shaped window, the page text yields no
      ISIN exactly when none of its twelve-character windows has the shape. */
  lemma FindIsinEmpty(text: string)
    ensures FindIsin(text) == [] <==> forall i: nat :: !WindowIsIsin(text, i)
  {
    FirstFoundOrder(text, IsinPatterns);
    SearchLeftmost(text, Bare, 0);
    if forall i: nat :: !WindowIsIsin(text, i) {
      forall k | 0 <= k < |IsinPatterns| ensures Search(text, IsinPatterns[k], 0).None? {
        SearchLeftmost(text, IsinPatterns[k], 0);
        forall i: nat ensures MatchAt(text, IsinPatterns[k], i).None? {
          NoWindowNoMatch(text, IsinPatterns[k], i);
        }
      }
    } else {
      var i: nat :| WindowIsIsin(text, i);
      assert MatchAt(text, Bare, i).Some?;
      assert Search(text, IsinPatterns[2], 0).Some?;
    }
  }

  // ---------------------------------------------------------------------------
  // the table fallback

  /** The texts of a table row's `td`/`th` cells. */
  type Row = seq<string>

  type Table = seq<Row>

  /** Cell `i` mentions `isin` in any case and the next cell, normalised, has the shape. */
  predicate LabelsIsin(cells: Row, i: nat) {
    i + 1 < |cells| && Contains(Lower(cells[i]), "isin") && IsIsin(Utils.NormalizeText(cells[i + 1]))
  }

  /** The first cell at or after `from` that `marked` picks. */
  function FirstMarked(cells: Row, from: nat, marked: (Row, nat) -> bool): (r: Option<nat>)
    ensures r.Some? ==> from <= r.value < |cells| && marked(cells, r.value)
    decreases |cells| - from
  {
    if from >= |cells| then None
    else if marked(cells, from) then Some(from)
    else FirstMarked(cells, from + 1, marked)
  }

  /** Nothing is picked exactly when no cell is marked, and no marked cell comes before
      the one picked. */
  lemma {:induction false} FirstMarkedSpec(cells: Row, from: nat, marked: (Row, nat) -> bool)
    ensures FirstMarked(cells, from, marked).None? <==> forall i :: from <= i < |cells| ==> !marked(cells, i)
    ensures FirstMarked(cells, from, marked).Some? ==>
              forall j :: from <= j < FirstMarked(cells, from, marked).value ==> !marked(cells, j)
    decreases |cells| - from
  {
    if from < |cells| && !marked(cells, from) {
      FirstMarkedSpec(cells, from + 1, marked);
    }
  }

  /** The cell loop of one row from cell `from`, which its `break` ends at the first
      labelled code. */
  function RowIsin(cells: Row, from: nat): (r: Option<string>)
    ensures r.Some? ==> IsIsin(r.value)
  {
    var m := FirstMarked(cells, from, LabelsIsin);
    if m.None? then None else Some(CodeAfter(cells, m.value))
  }

  /** The normalised cell after a label cell. */
  function CodeAfter(cells: Row, i: nat): (r: string)
    requires LabelsIsin(cells, i)
    ensures IsIsin(r)
  {
    Utils.NormalizeText(cells[i + 1])
  }

  /** A row yields nothing exactly when no cell labels a code. */
  lemma RowIsinNone(cells: Row, from: nat)
    ensures RowIsin(cells, from).None? <==> forall i :: from <= i < |cells| ==> !LabelsIsin(cells, i)
  {
    FirstMarkedSpec(cells, from, LabelsIsin);
  }

  /** A row yields the code behind its first labelling cell. */
  lemma RowIsinFound(cells: Row, from: nat) returns (i: nat)
    requires RowIsin(cells, from).Some?
    ensures from <= i && LabelsIsin(cells, i)
    ensures RowIsin(cells, from).value == Utils.NormalizeText(cells[i + 1])
    ensures forall j :: from <= j < i ==> !LabelsIsin(cells, j)
  {
    FirstMarkedSpec(cells, from, LabelsIsin);
    i := FirstMarked(cells, from, LabelsIsin).value;
  }

  /** `tables[-3:]`. */
  function LastTables(tables: seq<Table>): (r: seq<Table>)
    ensures |r| == if |tables| < 3 then |tables| else 3
    ensures r == tables[|tables| - |r|..]
  {
    if |tables| <= 3 then tables else tables[|tables| - 3..]
  }

  /** Tables before the last three are never looked at. */
  lemma LastTablesOnly(earlier: seq<Table>, tables: seq<Table>)
    requires |tables| >= 3
    ensures LastTables(earlier + tables) == LastTables(tables)
  {
    assert (earlier + tables)[|earlier + tables| - 3..] == tables[|tables| - 3..];
  }

  /** The rows of the tables, table after table. */
  function Rows(tables: seq<Table>): seq<Row> {
    if tables == [] then [] else Rows(tables[..|tables| - 1]) + tables[|tables| - 1]
  }

  /** Every row comes from one of the tables. */
  lemma {:induction false} RowsFrom(tables: seq<Table>, row: Row)
    requires row in Rows(tables)
    ensures exists t :: 0 <= t < |tables| && row in tables[t]
  {
    var init := tables[..|tables| - 1];
    if row !in tables[|tables| - 1] {
      RowsFrom(init, row);
      var t :| 0 <= t < |init| && row in init[t];
      assert init[t] == tables[t];
    }
  }

  /** What a loop that lets every find overwrite the previous one ends with: the value
      `f` gives for the last element that has one, or `start`. */
  function Overwrite<T>(start: string, xs: seq<T>, f: T -> Option<string>): string {
    if xs == [] then start
    else match f(xs[|xs| - 1])
      case Some(v) => v
      case None => Overwrite(start, xs[..|xs| - 1], f)
  }

  /** The result comes from the last element that yields a value, and is `start` when no
      element yields one. */
  lemma {:induction false} OverwriteSpec<T>(start: string, xs: seq<T>, f: T -> Option<string>)
    ensures (forall k :: 0 <= k < |xs| ==> f(xs[k]).None?) ==> Overwrite(start, xs, f) == start
    ensures (exists k :: 0 <= k < |xs| && f(xs[k]).Some?) ==>
              exists k :: 0 <= k < |xs| && f(xs[k]) == Some(Overwrite(start, xs, f)) &&
                          forall j :: k < j < |xs| ==> f(xs[j]).None?
  {
    if xs != [] {
      var init := xs[..|xs| - 1];
      OverwriteSpec(start, init, f);
      assert forall k :: 0 <= k < |init| ==> init[k] == xs[k];
      if f(xs[|xs| - 1]).None? && exists k :: 0 <= k < |xs| && f(xs[k]).Some? {
        var k0 :| 0 <= k0 < |xs| && f(xs[k0]).Some?;
        assert f(init[k0]).Some?;
        var k :| 0 <= k < |init| && f(init[k]) == Some(Overwrite(start, init, f)) &&
                 forall j :: k < j < |init| ==> f(init[j]).None?;
        assert forall j :: k < j < |xs| ==> f(xs[j]).None?;
      }
    }
  }

  /** One more element: a value it yields replaces the one held so far. */
  lemma OverwriteStep<T>(start: string, xs: seq<T>, x: T, f: T -> Option<string>)
    ensures Overwrite(start, xs + [x], f) == match f(x) case Some(v) => v case None => Overwrite(start, xs, f)
  {
    assert (xs + [x])[..|xs|] == xs;
  }

  /** One more turn of an overwriting loop. */
  lemma OverwriteNext<T>(start: string, xs: seq<T>, k: nat, f: T -> Option<string>, before: string, after: string)
    requires k < |xs| && before == Overwrite(start, xs[..k], f)
    requires after == match f(xs[k]) case Some(v) => v case None => before
    ensures after == Overwrite(start, xs[..k + 1], f)
  {
    OverwriteStep(start, xs[..k], xs[k], f);
    assert xs[..k + 1] == xs[..k] + [xs[k]];
  }

  /** The code a whole row yields. */
  function RowCode(cells: Row): Option<string> {
    RowIsin(cells, 0)
  }

  /** The code of the last row that yields one, or `""`. */
  function LatestCode(rows: seq<Row>): string {
    Overwrite([], rows, RowCode)
  }

  /** The latest code is `""` or has the ISIN shape; it is `""` exactly when no row yields
      a code, and otherwise the code of the last row that yields one. */
  lemma LatestCodeSpec(rows: seq<Row>)
    ensures LatestCode(rows) == [] || IsIsin(LatestCode(rows))
    ensures LatestCode(rows) == [] <==> forall k :: 0 <= k < |rows| ==> RowCode(rows[k]).None?
    ensures LatestCode(rows) != [] ==>
              exists k :: 0 <= k < |rows| && RowCode(rows[k]) == Some(LatestCode(rows)) &&
                          forall j :: k < j < |rows| ==> RowCode(rows[j]).None?
  {
    OverwriteSpec([], rows, RowCode);
    if LatestCode(rows) != [] {
      var k :| 0 <= k < |rows| && RowCode(rows[k]) == Some(LatestCode(rows));
      assert RowIsin(rows[k], 0).Some?;
    }
  }

  /** The cell loop of one row: the first labelled code replaces `isin`, and the `break`
      ends the loop there. */
  method ScanRow(cells: Row, isin: string) returns (r: string)
    ensures r == match RowCode(cells) case Some(code) => code case None => isin
  {
    r := isin;
    var i := 0;
    while i < |cells|
      invariant 0 <= i <= |cells|
      invariant r == isin
      invariant FirstMarked(cells, 0, LabelsIsin) == FirstMarked(cells, i, LabelsIsin)
    {
      if Contains(Lower(cells[i]), "isin") && i + 1 < |cells| {
        var value := Utils.NormalizeText(cells[i + 1]);
        if IsIsin(value) {
          r := value;
          break;
        }
      }
      i := i + 1;
    }
  }

  /** The row loop of one table, each row's code overwriting what came before. */
  method ScanRows(rows: seq<Row>, isin: string) returns (r: string)
    ensures r == Overwrite(isin, rows, RowCode)
  {
    r := isin;
    var k := 0;
    while k < |rows|
      invariant 0 <= k <= |rows|
      invariant r == Overwrite(isin, rows[..k], RowCode)
    {
      var before := r;
      r := ScanRow(rows[k], r);
      OverwriteNext(isin, rows, k, RowCode, before, r);
      k := k + 1;
    }
    assert rows[..k] == rows;
  }

  /** Overwriting through two sequences in turn is overwriting through both. */
  lemma {:induction false} OverwriteAppend<T>(start: string, xs: seq<T>, ys: seq<T>, f: T -> Option<string>)
    ensures Overwrite(start, xs + ys, f) == Overwrite(Overwrite(start, xs, f), ys, f)
  {
    if ys == [] {
      assert xs + ys == xs;
    } else {
      var init := ys[..|ys| - 1];
      OverwriteAppend(start, xs, init, f);
      assert (xs + ys)[..|xs + ys| - 1] == xs + init;
    }
  }

  /** One more table of an overwriting loop over rows. */
  lemma OverwriteTable(tables: seq<Table>, t: nat, f: Row -> Option<string>, before: string, after: string)
    requires t < |tables| && before == Overwrite([], Rows(tables[..t]), f)
    requires after == Overwrite(before, tables[t], f)
    ensures after == Overwrite([], Rows(tables[..t + 1]), f)
  {
    OverwriteAppend([], Rows(tables[..t]), tables[t], f);
    assert tables[..t + 1][..t] == tables[..t];
  }

  /** The fallback loop over the rows of the last three tables. A code found in a row ends
      that row's cell loop only, so a later row with a code overwrites it. */
  method TableIsin(tables: seq<Table>) returns (isin: string)
    ensures isin == LatestCode(Rows(LastTables(tables)))
  {
    isin := [];
    var last := LastTables(tables);
    var t := 0;
    while t < |last|
      invariant 0 <= t <= |last|
      invariant isin == Overwrite([], Rows(last[..t]), RowCode)
    {
      var before := isin;
      isin := ScanRows(last[t], isin);
      OverwriteTable(last, t, RowCode, before, isin);
      t := t + 1;
    }
    assert last[..t] == last;
  }

  /** Whether the page text names a code decides the ISIN; the tables count only when it
      does not. */
  function PageIsin(text: string, tables: seq<Table>): (r: string)
    ensures r == [] || IsIsin(r)
    ensures FindIsin(text) != [] ==> r == FindIsin(text)
  {
    var found := FindIsin(text);
    if found != [] then found
    else
      LatestCodeSpec(Rows(LastTables(tables)));
      LatestCode(Rows(LastTables(tables)))
  }

  /** A cell whose normalised text is a code puts that code into any text containing the
      cell. */
  lemma CellCodeInText(text: string, cell: string)
    requires Contains(text, cell) && IsIsin(Utils.NormalizeText(cell))
    ensures exists i: nat :: WindowIsIsin(text, i)
  {
    var code := Utils.NormalizeText(cell);
    IsinNoSep(code);
    Utils.NormalizedWordOccurs(cell);
    ContainsTrans(text, cell, code);
    var i :| 0 <= i <= |text| - |code| && OccursAt(text, code, i);
    assert text[i..i + 12] == code;
    assert WindowIsIsin(text, i);
  }

  /** A row of the last three tables is a row of the tables. */
  lemma RowOfTables(tables: seq<Table>, k: nat) returns (t: nat, r: nat)
    requires k < |Rows(LastTables(tables))|
    ensures t < |tables| && r < |tables[t]| && tables[t][r] == Rows(LastTables(tables))[k]
  {
    var last := LastTables(tables);
    var row := Rows(last)[k];
    RowsFrom(last, row);
    var t' :| 0 <= t' < |last| && row in last[t'];
    r :| 0 <= r < |last[t']| && last[t'][r] == row;
    t := |tables| - |last| + t';
    assert last[t'] == tables[t];
  }

  /** When every cell's text is part of the page text (as `get_text` makes it), the table
      fallback can never supply a code the patterns missed: the generic pattern would have
      found that code in the page text first. */
  lemma TableFallbackUnreachable(text: string, tables: seq<Table>)
    requires forall t, r, c :: 0 <= t < |tables| && 0 <= r < |tables[t]| && 0 <= c < |tables[t][r]| ==>
               Contains(text, tables[t][r][c])
    ensures PageIsin(text, tables) == FindIsin(text)
  {
    var rows := Rows(LastTables(tables));
    FindIsinEmpty(text);
    LatestCodeSpec(rows);
    if LatestCode(rows) != [] {
      var k :| 0 <= k < |rows| && RowCode(rows[k]) == Some(LatestCode(rows)) &&
               forall j :: k < j < |rows| ==> RowCode(rows[j]).None?;
      var i := RowIsinFound(rows[k], 0);
      var t, r := RowOfTables(tables, k);
      CellCodeInText(text, tables[t][r][i + 1]);
    }
  }

  // ---------------------------------------------------------------------------
  // document links

  const DocExtensions: seq<string> := [".pdf", ".doc", ".docx", ".xls", ".xlsx"]

  /** The name ends, in any case, in one of the document extensions. */
  predicate HasDocExtension(name: string) {
    exists k :: 0 <= k < |DocExtensions| && IsSuffix(DocExtensions[k], Lower(name))
  }

  /** The link filter of both passes: the `href` ends in a document extension. */
  predicate DocHref(a: Anchor) { HasDocExtension(a.href) }

  /** The normalised link text, or the `href`'s base name when that text is empty. */
  function DocName(a: Anchor): (r: string)
  {
    var text := Utils.NormalizeText(a.text);
    if text == [] then Basename(a.href) else text
  }

  /** The characters of a path under an extension it ends with, in any case, are no
      `/`: an extension holds none. */
  lemma NoSlashUnderExtension(path: string, ext: string, p: int)
    requires '/' !in ext && IsSuffix(ext, Lower(path))
    requires |path| - |ext| <= p < |path|
    ensures path[p] != '/'
  {
    assert Lower(path)[p] == ext[p - (|path| - |ext|)];
  }

  /** An extension that is a suffix of a path, in any case, is a suffix of its base name. */
  lemma BasenameKeepsExtension(path: string, ext: string)
    requires '/' !in ext && IsSuffix(ext, Lower(path))
    ensures IsSuffix(ext, Lower(Basename(path)))
  {
    var d := |path| - |ext|;
    match FindLast(path, '/')
    case None =>
    case Some(i) =>
      if i >= d {
        NoSlashUnderExtension(path, ext, i);
      }
      var b := path[i + 1..];
      assert Lower(b) == Lower(path)[i + 1..];
      assert Lower(b)[|b| - |ext|..] == Lower(path)[d..];
  }

  /** A document link always gets a non-empty name, and a name taken from its `href` keeps
      the document extension. */
  lemma DocNameOfLink(a: Anchor)
    requires DocHref(a)
    ensures DocName(a) != []
    ensures Utils.NormalizeText(a.text) == [] ==> HasDocExtension(DocName(a))
  {
    var k :| 0 <= k < |DocExtensions| && IsSuffix(DocExtensions[k], Lower(a.href));
    ExtensionShape(k);
    DocNameKeeps(a, DocExtensions[k]);
  }

  /** Every document extension is a non-empty string without `/`. */
  lemma ExtensionShape(k: int)
    requires 0 <= k < |DocExtensions|
    ensures DocExtensions[k] != [] && '/' !in DocExtensions[k]
  {
  }

  /** The name a link gets is never empty when its `href` ends in a non-empty extension,
      and a name taken from the `href` keeps that extension. */
  lemma DocNameKeeps(a: Anchor, ext: string)
    requires ext != [] && '/' !in ext && IsSuffix(ext, Lower(a.href))
    ensures DocName(a) != []
    ensures Utils.NormalizeText(a.text) == [] ==> IsSuffix(ext, Lower(DocName(a)))
  {
    BasenameKeepsExtension(a.href, ext);
  }

  /** The document a link yields, if its `href` has a document extension; the URL is
      resolved against the bond page with `join`, standing for `urllib.parse.urljoin`. */
  function LinkDoc(join: (string, string) -> string, bondUrl: string, a: Anchor): (r: Option<Doc>)
    ensures r.Some? <==> DocHref(a)
    ensures r.Some? ==> r.value == Doc(join(bondUrl, a.href), DocName(a))
  {
    if DocHref(a) then Some(Doc(join(bondUrl, a.href), DocName(a))) else None
  }

  /** The documents the section pass would add for its links, in order. */
  function SectionDocs(join: (string, string) -> string, bondUrl: string, links: seq<Anchor>): (r: seq<Doc>)
    ensures |r| == |links|
    ensures forall k :: 0 <= k < |links| ==> r[k] == Doc(join(bondUrl, links[k].href), DocName(links[k]))
  {
    seq(|links|, k requires 0 <= k < |links| => Doc(join(bondUrl, links[k].href), DocName(links[k])))
  }

  /** A parsed bond page: its whole text, its links in document order, the links of each
      section whose class names documents or files, and its tables. */
  datatype DocPage = DocPage(text: string, links: seq<Anchor>, sections: seq<seq<Anchor>>, tables: seq<Table>)

  /** Both passes over the page's links. */
  function BondDocuments(join: (string, string) -> string, bondUrl: string, page: DocPage): (r: seq<Doc>)
    ensures |r| <= |page.links| + |SectionLinks(page.sections, DocHref)|
  {
    var first := FilterMap(a => LinkDoc(join, bondUrl, a), page.links);
    AddNew(first, SectionDocs(join, bondUrl, SectionLinks(page.sections, DocHref)))
  }

  /** The first pass collects every document link, in order and with repeats, and the
      section pass keeps them in front. */
  lemma BondDocumentsFirst(join: (string, string) -> string, bondUrl: string, page: DocPage, d: Doc)
    ensures var first := FilterMap(a => LinkDoc(join, bondUrl, a), page.links);
      && BondDocuments(join, bondUrl, page)[..|first|] == first
      && (d in first <==> exists i :: 0 <= i < |page.links| && DocHref(page.links[i]) &&
                                      d == Doc(join(bondUrl, page.links[i].href), DocName(page.links[i])))
  {
    var f := a => LinkDoc(join, bondUrl, a);
    FilterMapExactly(f, page.links, d);
    AddNewSpec(FilterMap(f, page.links), SectionDocs(join, bondUrl, SectionLinks(page.sections, DocHref)));
  }

  /** The section pass adds only documents of the sections' document links whose URLs were
      not collected before, never one twice, and every such link ends up with its URL
      collected. */
  lemma BondDocumentsSections(join: (string, string) -> string, bondUrl: string, page: DocPage)
    ensures var first := FilterMap(a => LinkDoc(join, bondUrl, a), page.links);
      var r := BondDocuments(join, bondUrl, page);
      && (forall k :: |first| <= k < |r| ==>
            r[k] in SectionDocs(join, bondUrl, SectionLinks(page.sections, DocHref)) && r[k].url !in Urls(first))
      && (forall i, j :: |first| <= i < j < |r| ==> r[i].url != r[j].url)
      && (forall a :: a in SectionLinks(page.sections, DocHref) ==> join(bondUrl, a.href) in Urls(r))
  {
    var first := FilterMap(a => LinkDoc(join, bondUrl, a), page.links);
    var links := SectionLinks(page.sections, DocHref);
    var candidates := SectionDocs(join, bondUrl, links);
    var r := AddNew(first, candidates);
    AddNewSpec(first, candidates);
    forall a | a in links ensures join(bondUrl, a.href) in Urls(r) {
      var k :| 0 <= k < |links| && links[k] == a;
      assert candidates[k] in candidates;
    }
  }

  /** Every collected document has a non-empty name. */
  lemma BondDocumentsNamed(join: (string, string) -> string, bondUrl: string, page: DocPage)
    ensures forall d :: d in BondDocuments(join, bondUrl, page) ==> d.filename != []
  {
    var f := a => LinkDoc(join, bondUrl, a);
    var first := FilterMap(f, page.links);
    var links := SectionLinks(page.sections, DocHref);
    var candidates := SectionDocs(join, bondUrl, links);
    forall d | d in AddNew(first, candidates) ensures d.filename != [] {
      AddNewWithin(first, candidates, d);
      if d in first {
        FilterMapExactly(f, page.links, d);
        var i :| 0 <= i < |page.links| && f(page.links[i]) == Some(d);
        DocNameOfLink(page.links[i]);
      } else {
        var m :| 0 <= m < |candidates| && candidates[m] == d;
        assert links[m] in links;
        DocNameOfLink(links[m]);
      }
    }
  }

  /** `get_bond_documents`: the documents and the ISIN of a bond page that `get_soup`
      could load (`None` when it could not). */
  method GetBondDocuments(join: (string, string) -> string, bondUrl: string, page: Option<DocPage>)
    returns (docs: seq<Doc>, isin: string)
    ensures page.None? ==> docs == [] && isin == []
    ensures page.Some? ==> docs == BondDocuments(join, bondUrl, page.value)
    ensures page.Some? ==> isin == PageIsin(page.value.text, page.value.tables)
    ensures isin == [] || IsIsin(isin)
  {
    if page.None? {
      return [], [];
    }
    docs := BondDocuments(join, bondUrl, page.value);
    isin := FindIsin(page.value.text);
    if isin == [] {
      isin := TableIsin(page.value.tables);
    }
  }

  // ---------------------------------------------------------------------------
  // download_bond_documents

  /** A name without a document extension gets the URL's `splitext` extension appended
      (which may be empty, or not a document extension at all). */
  function FixExtension(filename: string, url: string): (r: string)
    ensures IsPrefix(filename, r)
    ensures r == filename || r == filename + SplitExt(url).1
    ensures HasDocExtension(filename) ==> r == filename
  {
    if HasDocExtension(filename) then filename else filename + SplitExt(url).1
  }

  /** A document extension at the end survives anything put in front. */
  lemma DocExtensionAppend(front: string, name: string)
    requires HasDocExtension(name)
    ensures HasDocExtension(front + name)
  {
    var k :| 0 <= k < |DocExtensions| && IsSuffix(DocExtensions[k], Lower(name));
    LowerAppend(front, name);
    var l := Lower(front + name);
    assert l[|l| - |DocExtensions[k]|..] == Lower(name)[|name| - |DocExtensions[k]|..];
  }

  /** After the fix-up a name has a document extension whenever it had one or the URL
      supplies one; a name without one is extended by exactly the URL's extension. */
  lemma FixExtensionSpec(filename: string, url: string)
    ensures HasDocExtension(filename) || HasDocExtension(SplitExt(url).1) ==>
            HasDocExtension(FixExtension(filename, url))
    ensures !HasDocExtension(filename) ==> FixExtension(filename, url) == filename + SplitExt(url).1
  {
    if !HasDocExtension(filename) && HasDocExtension(SplitExt(url).1) {
      DocExtensionAppend(filename, SplitExt(url).1);
    }
  }

  /** The documents with their names fixed up, in order. */
  function FixedDocs(docs: seq<Doc>): (r: seq<Doc>)
    ensures |r| == |docs|
    ensures forall k :: 0 <= k < |docs| ==>
              r[k] == Doc(docs[k].url, FixExtension(docs[k].filename, docs[k].url))
  {
    seq(|docs|, k requires 0 <= k < |docs| => Doc(docs[k].url, FixExtension(docs[k].filename, docs[k].url)))
  }

  /** Saves a bond's documents, names fixed up, under the issuer/ISIN directory below
      `base` and counts the saves that succeed; nothing is saved without documents or
      without an ISIN. `disk` is what is on disk before, `after` after. */
  method DownloadBondDocuments(base: string, issuerName: string, isin: string, docs: seq<Doc>,
                               disk: set<string>, fetch: nat -> Fetch)
    returns (count: nat, saved: seq<string>, after: set<string>)
    ensures docs == [] || isin == [] ==> count == 0 && saved == [] && after == disk
    ensures count == |saved| <= |docs|
    ensures docs != [] && isin != [] ==>
              var dir := DirectoryFor(issuerName, isin, base);
              var fixed := FixedDocs(docs);
              && |fixed| == |docs|
              && (forall i :: 0 <= i < |docs| ==>
                    Paths(dir, fixed)[i] == PathJoin(dir, FixExtension(docs[i].filename, docs[i].url)))
              && saved == Run(Paths(dir, fixed), disk, fetch, |docs|).0
              && after == Run(Paths(dir, fixed), disk, fetch, |docs|).1
              && (forall p :: p in saved <==> SavedBefore(Paths(dir, fixed), disk, fetch, |docs|, p))
              && (forall p :: p in after <==> p in disk || LeftBefore(Paths(dir, fixed), fetch, |docs|, p))
  {
    if docs == [] || isin == [] {
      return 0, [], disk;
    }
    var dir := DirectoryFor(issuerName, isin, base);
    var fixed := FixedDocs(docs);
    count, saved, after := SaveAll(dir, fixed, disk, fetch);
  }

  // ---------------------------------------------------------------------------
  // parse_issuer

  /** A bond without an ISIN is filed under the first 20 characters of its name. */
  function FallbackIsin(isin: string, bondName: string): (r: string)
    ensures isin != [] ==> r == isin
    ensures isin == [] ==> IsPrefix(r, bondName) && |r| == if |bondName| < 20 then |bondName| else 20
  {
    if isin == [] then Take(bondName, 20) else isin
  }

  /** The fallback leaves the ISIN empty, and so the bond's documents unsaved, only for a
      bond that has neither an ISIN nor a name. */
  lemma FallbackIsinEmpty(isin: string, bondName: string)
    ensures FallbackIsin(isin, bondName) == [] <==> isin == [] && bondName == []
  {
  }
}

=== FILE: scan.dfy ===
/** The de-duplicating link scans shared by the parsers: walk the hrefs of a page in
    order, skip those a filter rejects and those already seen, and turn each remaining
    href into a result when it yields one. */
module Scan {
  import opened Text
  import opened Lists

  /** The reference result of a scan: the first occurrence of every accepted href, mapped
      and kept when the mapping yields something. */
  function Scanned<A>(hrefs: seq<string>, keep: string -> bool, f: string -> Option<A>): seq<A> {
    FilterMap(f, Dedup(Filter(hrefs, keep)))
  }

  /** The `seen` set after a prefix of the hrefs. */
  function Seen(prefix: seq<string>, keep: string -> bool): (r: set<string>)
    ensures forall h :: h in r <==> h in prefix && keep(h)
  {
    set h | h in prefix && keep(h)
  }

  /** The loop with its `seen` set. */
  method ScanLinks<A>(hrefs: seq<string>, keep: string -> bool, f: string -> Option<A>)
    returns (results: seq<A>)
    ensures results == Scanned(hrefs, keep, f)
  {
    var seen: set<string> := {};
    results := [];
    var i := 0;
    while i < |hrefs|
      invariant 0 <= i <= |hrefs|
      invariant seen == Seen(hrefs[..i], keep)
      invariant results == Scanned(hrefs[..i], keep, f)
    {
      var href := hrefs[i];
      ScanStep(hrefs[..i], href, keep, f);
      if keep(href) && href !in seen {
        seen := seen + {href};
        var y := f(href);
        if y.Some? {
          results := results + [y.value];
        }
      }
      assert hrefs[..i + 1] == hrefs[..i] + [href];
      i := i + 1;
    }
    assert hrefs[..i] == hrefs;
  }

  /** One more href joins `seen` when accepted, and extends the result by its image when
      it is accepted, new and has one. */
  lemma ScanStep<A>(prefix: seq<string>, href: string, keep: string -> bool, f: string -> Option<A>)
    ensures Seen(prefix + [href], keep) == if keep(href) then Seen(prefix, keep) + {href} else Seen(prefix, keep)
    ensures Scanned(prefix + [href], keep, f) ==
              if keep(href) && href !in Seen(prefix, keep) && f(href).Some?
              then Scanned(prefix, keep, f) + [f(href).value]
              else Scanned(prefix, keep, f)
  {
    ScannedStep(prefix, href, keep, f);
  }

  lemma ScannedStep<A>(prefix: seq<string>, href: string, keep: string -> bool, f: string -> Option<A>)
    ensures Scanned(prefix + [href], keep, f) ==
              if keep(href) && href !in Filter(prefix, keep) && f(href).Some?
              then Scanned(prefix, keep, f) + [f(href).value]
              else Scanned(prefix, keep, f)
  {
    var ys := Filter(prefix, keep);
    FilterSnoc(prefix, href, keep);
    if keep(href) {
      assert Filter(prefix + [href], keep) == ys + [href];
      DedupSnoc(ys, href);
      if href !in ys {
        FilterMapSnoc(f, Dedup(ys), href);
      }
    }
  }

  /** The results are exactly the images of the accepted hrefs. */
  lemma ScannedExactly<A(!new)>(hrefs: seq<string>, keep: string -> bool, f: string -> Option<A>, y: A)
    ensures y in Scanned(hrefs, keep, f) <==> exists i :: 0 <= i < |hrefs| && keep(hrefs[i]) && f(hrefs[i]) == Some(y)
  {
    var kept := Dedup(Filter(hrefs, keep));
    DedupSpec(Filter(hrefs, keep));
    FilterMapExactly(f, kept, y);
    if exists i :: 0 <= i < |hrefs| && keep(hrefs[i]) && f(hrefs[i]) == Some(y) {
      var i :| 0 <= i < |hrefs| && keep(hrefs[i]) && f(hrefs[i]) == Some(y);
      assert hrefs[i] in kept;
      var k :| 0 <= k < |kept| && kept[k] == hrefs[i];
    }
    if y in Scanned(hrefs, keep, f) {
      var k :| 0 <= k < |kept| && f(kept[k]) == Some(y);
      assert kept[k] in hrefs;
      var i :| 0 <= i < |hrefs| && hrefs[i] == kept[k];
    }
  }

  /** The results come, in order, from distinct accepted hrefs of the page. */
  lemma ScannedSources<A>(hrefs: seq<string>, keep: string -> bool, f: string -> Option<A>)
    returns (src: seq<string>)
    ensures |src| == |Scanned(hrefs, keep, f)| && NoDup(src)
    ensures forall k :: 0 <= k < |src| ==>
              src[k] in hrefs && keep(src[k]) && f(src[k]) == Some(Scanned(hrefs, keep, f)[k])
  {
    var kept := Dedup(Filter(hrefs, keep));
    DedupSpec(Filter(hrefs, keep));
    src := MappedSources(f, kept);
  }

  lemma {:induction false} MappedSources<A>(f: string -> Option<A>, xs: seq<string>)
    returns (src: seq<string>)
    requires NoDup(xs)
    ensures |src| == |FilterMap(f, xs)| && NoDup(src)
    ensures forall k :: 0 <= k < |src| ==> src[k] in xs && f(src[k]) == Some(FilterMap(f, xs)[k])
  {
    if xs == [] {
      src := [];
    } else {
      assert NoDup(xs[1..]);
      var rest := MappedSources(f, xs[1..]);
      match f(xs[0])
      case None =>
        src := rest;
      case Some(y) =>
        src := [xs[0]] + rest;
        assert xs[0] !in xs[1..];
        forall i, j | 0 <= i < j < |src| ensures src[i] != src[j] {
          assert src[j] == rest[j - 1];
          if i > 0 { assert src[i] == rest[i - 1]; }
        }
    }
  }

  /** When every result names the href it came from, no two results name the same href. */
  lemma ScannedDistinct<A>(hrefs: seq<string>, keep: string -> bool, f: string -> Option<A>, key: A -> string)
    requires forall h :: f(h).Some? ==> key(f(h).value) == h
    ensures forall i, j :: 0 <= i < j < |Scanned(hrefs, keep, f)| ==>
              key(Scanned(hrefs, keep, f)[i]) != key(Scanned(hrefs, keep, f)[j])
  {
    var src := ScannedSources(hrefs, keep, f);
  }

  // ---------------------------------------------------------------------------
  // bond links of a listing page

  const IssueMarker: string := "issue="

  /** A bond card link and the issue number taken from it. */
  datatype IssueLink = IssueLink(url: string, issueId: string)

  /** The text after the last `issue=` of the link, when there is one and it is not empty. */
  function IssueId(href: string): (r: Option<string>)
    ensures r.Some? ==> r.value != [] && IsSuffix(r.value, href) && !Contains(r.value, IssueMarker)
    ensures r.Some? ==> (|r.value| + |IssueMarker| <= |href| &&
                         OccursAt(href, IssueMarker, |href| - |r.value| - |IssueMarker|))
    ensures r.None? ==> !Contains(href, IssueMarker) || IsSuffix(IssueMarker, href)
  {
    if Contains(href, IssueMarker) then
      var id := LastPiece(href, IssueMarker);
      LastPieceSuffix(href, IssueMarker);
      LastPieceNoSep(href, IssueMarker);
      LastPieceAfter(href, IssueMarker);
      if id == [] then None else Some(id)
    else None
  }

  /** `issue=` cannot overlap itself. */
  lemma IssueMarkerUnbordered()
    ensures Unbordered(IssueMarker)
  {
    forall d | 0 < d < |IssueMarker| ensures IssueMarker[d..] != IssueMarker[..|IssueMarker| - d] {
      assert IssueMarker[d..][0] != IssueMarker[..|IssueMarker| - d][0];
    }
  }

  /** The issue id is the text after the LAST `issue=` of the link; the link yields none
      when that occurrence ends it. */
  lemma IssueIdAfterLast(href: string) returns (q: nat)
    requires Contains(href, IssueMarker)
    ensures OccursAt(href, IssueMarker, q)
    ensures forall j :: OccursAt(href, IssueMarker, j) ==> j <= q
    ensures IssueId(href) == if q + |IssueMarker| == |href| then None else Some(href[q + |IssueMarker|..])
  {
    IssueMarkerUnbordered();
    q := LastPieceAtLast(href, IssueMarker);
  }

  function LinkOf(href: string): (r: Option<IssueLink>)
    ensures r.Some? ==> r.value.url == href
  {
    match IssueId(href)
    case None => None
    case Some(id) => Some(IssueLink(href, id))
  }

  predicate NonBlank(href: string) { href != [] }

  /** The scan of a listing page's bond links: each non-empty href once, in page order,
      kept when it carries an issue number. */
  method PageLinks(hrefs: seq<string>) returns (links: seq<IssueLink>)
    ensures links == Scanned(hrefs, NonBlank, LinkOf)
    ensures forall i, j :: 0 <= i < j < |links| ==> links[i].url != links[j].url
    ensures forall l :: l in links <==> l.url in hrefs && IssueId(l.url) == Some(l.issueId)
  {
    links := ScanLinks(hrefs, NonBlank, LinkOf);
    ScannedDistinct(hrefs, NonBlank, LinkOf, (l: IssueLink) => l.url);
    forall l ensures l in links <==> l.url in hrefs && IssueId(l.url) == Some(l.issueId) {
      ScannedExactly(hrefs, NonBlank, LinkOf, l);
    }
  }
}

=== FILE: text.dfy ===
/** The small part of the Python string and path runtime that the parsers lean on:
    character classes, `lower`, `strip`, `split`, `join`, slicing, `os.path.basename`,
    `os.path.splitext` and `os.path.join`, each with the semantics Python gives it. */
module Text {

  datatype Option<T> = None | Some(value: T)

  /** The characters accepted by Python's `str.isspace` and by the regex class `\s`. */
  const Whitespace: set<char> := {
    '\t', '\n', '\U{0B}', '\U{0C}', '\r', '\U{1C}', '\U{1D}', '\U{1E}', '\U{1F}', ' ',
    '\U{85}', '\U{A0}', '\U{1680}', '\U{2000}', '\U{2001}', '\U{2002}', '\U{2003}',
    '\U{2004}', '\U{2005}', '\U{2006}', '\U{2007}', '\U{2008}', '\U{2009}', '\U{200A}',
    '\U{2028}', '\U{2029}', '\U{202F}', '\U{205F}', '\U{3000}'
  }

  predicate IsSpace(c: char) { c in Whitespace }

  /** `\d` and `str.isdigit`, restricted to the ASCII digits. */
  predicate IsDigit(c: char) { '0' <= c <= '9' }

  predicate IsUpperLatin(c: char) { 'A' <= c <= 'Z' }

  /** `\w`: letters, digits and the underscore (Latin and Cyrillic letters only). */
  predicate IsWordChar(c: char) {
    || 'a' <= c <= 'z' || 'A' <= c <= 'Z' || IsDigit(c) || c == '_'
    || '\U{0400}' <= c <= '\U{0481}' || '\U{048A}' <= c <= '\U{04FF}'
  }

  predicate AllDigits(s: string) { forall i :: 0 <= i < |s| ==> IsDigit(s[i]) }

  predicate NoneIn(s: string, cs: set<char>) { forall i :: 0 <= i < |s| ==> s[i] !in cs }

  /** `str.lower` on one character, for the Latin and basic Cyrillic capitals. */
  function LowerChar(c: char): (r: char)
    ensures 'A' <= c <= 'Z' ==> r as int == c as int + 32
    ensures !('A' <= c <= 'Z') && !('\U{0400}' <= c <= '\U{042F}') ==> r == c
  {
    if 'A' <= c <= 'Z' then (c as int + 32) as char
    else if '\U{0410}' <= c <= '\U{042F}' then (c as int + 32) as char
    else if '\U{0400}' <= c <= '\U{040F}' then (c as int + 80) as char
    else c
  }

  function Lower(s: string): (r: string)
    ensures |r| == |s|
    ensures forall i :: 0 <= i < |s| ==> r[i] == LowerChar(s[i])
  {
    seq(|s|, i requires 0 <= i < |s| => LowerChar(s[i]))
  }

  lemma LowerAppend(a: string, b: string)
    ensures Lower(a + b) == Lower(a) + Lower(b)
  {
  }

  /** A string none of whose characters `str.lower` changes. */
  predicate IsLowered(s: string) { forall i :: 0 <= i < |s| ==> LowerChar(s[i]) == s[i] }

  lemma LowerOfLowered(s: string)
    requires IsLowered(s)
    ensures Lower(s) == s
  {
  }

  predicate IsPrefix(p: string, s: string) { |p| <= |s| && s[..|p|] == p }

  predicate IsSuffix(p: string, s: string) { |p| <= |s| && s[|s| - |p|..] == p }

  predicate OccursAt(s: string, p: string, i: int) {
    0 <= i && i + |p| <= |s| && s[i..i + |p|] == p
  }

  /** Python's `p in s` for strings. */
  predicate Contains(s: string, p: string) {
    exists i | 0 <= i <= |s| - |p| :: OccursAt(s, p, i)
  }

  lemma ContainsAt(s: string, p: string, i: int)
    requires OccursAt(s, p, i)
    ensures Contains(s, p)
  {
  }

  /** Containment is transitive: a substring of a substring is a substring. */
  lemma ContainsTrans(s: string, t: string, u: string)
    requires Contains(s, t) && Contains(t, u)
    ensures Contains(s, u)
  {
    var i :| 0 <= i <= |s| - |t| && OccursAt(s, t, i);
    var j :| 0 <= j <= |t| - |u| && OccursAt(t, u, j);
    assert s[i..i + |t|] == t && t[j..j + |u|] == u;
    forall k | 0 <= k < |u| ensures s[i + j + k] == u[k] {
      assert u[k] == t[j + k] == s[i..i + |t|][j + k];
    }
    assert s[i + j..i + j + |u|] == u;
    assert OccursAt(s, u, i + j);
  }

  /** Leftmost occurrence of `p` in `s` (Python's `str.find`). */
  function Find(s: string, p: string, from: nat): (r: Option<nat>)
    requires from <= |s|
    ensures r.Some? ==> from <= r.value <= |s| - |p|
    decreases |s| - from
  {
    if from + |p| > |s| then None
    else if s[from..from + |p|] == p then Some(from)
    else if from == |s| then None
    else Find(s, p, from + 1)
  }

  /** What is found is an occurrence; when nothing is found, nothing occurs at or after
      `from`. */
  lemma {:induction false} FindSpec(s: string, p: string, from: nat)
    requires from <= |s|
    ensures Find(s, p, from).Some? ==> OccursAt(s, p, Find(s, p, from).value)
    ensures Find(s, p, from).None? ==> forall j :: from <= j ==> !OccursAt(s, p, j)
    decreases |s| - from
  {
    if from + |p| <= |s| && s[from..from + |p|] != p && from < |s| {
      FindSpec(s, p, from + 1);
    }
  }

  /** What is found is an occurrence. */
  lemma FindOccurs(s: string, p: string, from: nat)
    requires from <= |s|
    ensures Find(s, p, from).Some? ==> OccursAt(s, p, Find(s, p, from).value)
  {
    FindSpec(s, p, from);
  }

  /** The occurrence found is the first at or after `from`. */
  lemma {:induction false} FindFirst(s: string, p: string, from: nat)
    requires from <= |s|
    ensures Find(s, p, from).Some? ==> forall j :: from <= j < Find(s, p, from).value ==> !OccursAt(s, p, j)
    decreases |s| - from
  {
    if from + |p| <= |s| && s[from..from + |p|] != p && from < |s| {
      FindFirst(s, p, from + 1);
    }
  }

  /** The last position holding `c`, if any (Python's `str.rfind` on one character). */
  function FindLast(s: string, c: char): (r: Option<nat>)
    ensures r.Some? ==> r.value < |s| && s[r.value] == c
    ensures r.Some? ==> forall j :: r.value < j < |s| ==> s[j] != c
    ensures r.None? ==> forall j :: 0 <= j < |s| ==> s[j] != c
  {
    if |s| == 0 then None
    else if s[|s| - 1] == c then Some(|s| - 1)
    else FindLast(s[..|s| - 1], c)
  }

  /** Python's `s[:k]` for any integer `k`. */
  function Take(s: string, k: int): (r: string)
    ensures IsPrefix(r, s)
    ensures 0 <= k <= |s| ==> |r| == k
    ensures k >= |s| ==> r == s
  {
    if k >= |s| then s
    else if k >= 0 then s[..k]
    else if |s| + k >= 0 then s[..|s| + k]
    else []
  }

  // ---------------------------------------------------------------------------
  // strip

  function StripLeft(s: string, cs: set<char>): (r: string)
    ensures IsSuffix(r, s)
    ensures r == [] || r[0] !in cs
    ensures forall i :: 0 <= i < |s| - |r| ==> s[i] in cs
  {
    if |s| == 0 || s[0] !in cs then s else StripLeft(s[1..], cs)
  }

  function StripRight(s: string, cs: set<char>): (r: string)
    ensures IsPrefix(r, s)
    ensures r == [] || r[|r| - 1] !in cs
    ensures forall i :: |r| <= i < |s| ==> s[i] in cs
  {
    if |s| == 0 || s[|s| - 1] !in cs then s else StripRight(s[..|s| - 1], cs)
  }

  /** Python's `s.strip(chars)`. */
  function StripChars(s: string, cs: set<char>): string {
    StripRight(StripLeft(s, cs), cs)
  }

  /** Python's `s.strip()`. */
  function Strip(s: string): string {
    StripChars(s, Whitespace)
  }

  /** Stripping leaves a string that is a contiguous piece of the input and neither starts
      nor ends with a stripped character. */
  lemma StripCharsShape(s: string, cs: set<char>)
    ensures var r := StripChars(s, cs);
      && (r == [] || (r[0] !in cs && r[|r| - 1] !in cs))
      && exists i :: OccursAt(s, r, i)
  {
    var l := StripLeft(s, cs);
    var r := StripRight(l, cs);
    var i := |s| - |l|;
    assert s[i..i + |r|] == l[..|r|];
    assert OccursAt(s, r, i);
  }

  lemma StripLeftIdle(s: string, cs: set<char>)
    requires s == [] || s[0] !in cs
    ensures StripLeft(s, cs) == s
  {
  }

  lemma StripRightIdle(s: string, cs: set<char>)
    requires s == [] || s[|s| - 1] !in cs
    ensures StripRight(s, cs) == s
  {
  }

  /** Right-stripping stops inside the second half when that half starts with a kept char. */
  lemma {:induction false} StripRightAppend(a: string, b: string, cs: set<char>)
    requires b != [] && b[0] !in cs
    ensures StripRight(a + b, cs) == a + StripRight(b, cs)
    decreases |b|
  {
    if b[|b| - 1] in cs && |b| > 1 {
      assert (a + b)[..|a + b| - 1] == a + b[..|b| - 1];
      StripRightAppend(a, b[..|b| - 1], cs);
    }
  }

  /** Stripping keeps only characters of its input. */
  lemma StripWithin(s: string)
    ensures forall c :: c in Strip(s) ==> c in s
  {
    var l := StripLeft(s, Whitespace);
    assert forall c :: c in l ==> c in s by { assert s[|s| - |l|..] == l; }
    assert forall c :: c in Strip(s) ==> c in l by { assert l[..|Strip(s)|] == Strip(s); }
  }

  /** A stripped string has no whitespace at either end. */
  lemma StripEdges(s: string)
    ensures Strip(s) == [] || (Strip(s)[0] !in Whitespace && Strip(s)[|Strip(s)| - 1] !in Whitespace)
  {
    var l := StripLeft(s, Whitespace);
    assert Strip(s) == [] || Strip(s)[0] == l[0];
  }

  /** Stripping a string that has no whitespace at either end changes nothing. */
  lemma StripIdle(s: string)
    requires s == [] || (s[0] !in Whitespace && s[|s| - 1] !in Whitespace)
    ensures Strip(s) == s
  {
    StripLeftIdle(s, Whitespace);
    StripRightIdle(s, Whitespace);
  }

  // ---------------------------------------------------------------------------
  // split and join

  /** Python's `s.split(c)` generalised to a set of one-character separators: the pieces
      between consecutive separators, empty pieces included. */
  function SplitOn(s: string, seps: set<char>): (r: seq<string>)
    ensures |r| >= 1
  {
    if |s| == 0 then [[]]
    else
      var rest := SplitOn(s[1..], seps);
      if s[0] in seps then [[]] + rest
      else [[s[0]] + rest[0]] + rest[1..]
  }

  /** `filter(None, parts)`: the non-empty pieces, in order. */
  function NonEmpty(parts: seq<string>): (r: seq<string>)
    ensures forall i :: 0 <= i < |r| ==> r[i] != []
    ensures forall i :: 0 <= i < |r| ==> r[i] in parts
    ensures |r| <= |parts|
  {
    if |parts| == 0 then []
    else if parts[0] == [] then NonEmpty(parts[1..])
    else [parts[0]] + NonEmpty(parts[1..])
  }

  /** The maximal runs of characters outside `seps`; with `seps == Whitespace` this is
      Python's argument-less `s.split()`. */
  function Fields(s: string, seps: set<char>): seq<string> {
    NonEmpty(SplitOn(s, seps))
  }

  /** Python's `sep.join(parts)`. */
  function Join(sep: string, parts: seq<string>): string {
    if |parts| == 0 then []
    else if |parts| == 1 then parts[0]
    else parts[0] + sep + Join(sep, parts[1..])
  }

  /** Every piece of a split is separator-free, and its characters come from the input. */
  lemma {:induction false} SplitOnPieces(s: string, seps: set<char>)
    ensures forall k :: 0 <= k < |SplitOn(s, seps)| ==> NoneIn(SplitOn(s, seps)[k], seps)
    ensures forall k, j :: 0 <= k < |SplitOn(s, seps)| && 0 <= j < |SplitOn(s, seps)[k]| ==>
              SplitOn(s, seps)[k][j] in s
  {
    if |s| > 0 {
      SplitOnPieces(s[1..], seps);
      var rest := SplitOn(s[1..], seps);
      if s[0] !in seps {
        var r := SplitOn(s, seps);
        assert r[0] == [s[0]] + rest[0];
        forall k, j | 0 <= k < |r| && 0 <= j < |r[k]| ensures r[k][j] in s {
          if k == 0 {
            if j > 0 { assert r[k][j] == rest[0][j - 1]; assert rest[0][j - 1] in s[1..]; }
          } else {
            assert r[k] == rest[k];
            assert rest[k][j] in s[1..];
          }
        }
      }
    }
  }

  /** The first piece of a split starts the string, and every piece is a substring of it. */
  lemma {:induction false} SplitOnOccurs(s: string, seps: set<char>)
    ensures IsPrefix(SplitOn(s, seps)[0], s)
    ensures forall k :: 0 <= k < |SplitOn(s, seps)| ==> Contains(s, SplitOn(s, seps)[k])
  {
    if |s| > 0 {
      SplitOnOccurs(s[1..], seps);
      var rest := SplitOn(s[1..], seps);
      var r := SplitOn(s, seps);
      assert OccursAt(s, s[1..], 1);
      forall k | 0 <= k < |rest| ensures Contains(s, rest[k]) {
        ContainsTrans(s, s[1..], rest[k]);
      }
      if s[0] in seps {
        assert OccursAt(s, r[0], 0);
        forall k | 1 <= k < |r| ensures Contains(s, r[k]) {
          assert r[k] == rest[k - 1];
        }
      } else {
        assert r[0] == [s[0]] + rest[0];
        assert r[0] == s[..|r[0]|];
        assert OccursAt(s, r[0], 0);
        forall k | 1 <= k < |r| ensures Contains(s, r[k]) {
          assert r[k] == rest[k];
        }
      }
    } else {
      assert OccursAt(s, SplitOn(s, seps)[0], 0);
    }
  }

  /** The fields of a string are non-empty, separator-free and made of its characters. */
  lemma FieldsPieces(s: string, seps: set<char>)
    ensures forall k :: 0 <= k < |Fields(s, seps)| ==>
              Fields(s, seps)[k] != [] && NoneIn(Fields(s, seps)[k], seps)
    ensures forall k, j :: 0 <= k < |Fields(s, seps)| && 0 <= j < |Fields(s, seps)[k]| ==>
              Fields(s, seps)[k][j] in s
  {
    SplitOnPieces(s, seps);
    var parts := SplitOn(s, seps);
    var f := Fields(s, seps);
    forall k | 0 <= k < |f| ensures NoneIn(f[k], seps) && forall j :: 0 <= j < |f[k]| ==> f[k][j] in s {
      assert f[k] in parts;
      var m :| 0 <= m < |parts| && parts[m] == f[k];
    }
  }

  /** Every character of a join comes from a part or from the separator. */
  lemma {:induction false} JoinChars(sep: string, parts: seq<string>, c: char)
    requires c in Join(sep, parts)
    ensures c in sep || exists k, j :: 0 <= k < |parts| && 0 <= j < |parts[k]| && parts[k][j] == c
  {
    if |parts| == 1 {
      var j :| 0 <= j < |parts[0]| && parts[0][j] == c;
    } else if |parts| > 1 {
      var tail := Join(sep, parts[1..]);
      assert Join(sep, parts) == parts[0] + sep + tail;
      if c in parts[0] {
        var j :| 0 <= j < |parts[0]| && parts[0][j] == c;
      } else if c !in sep {
        assert c in tail;
        JoinChars(sep, parts[1..], c);
        var k, j :| 0 <= k < |parts[1..]| && 0 <= j < |parts[1..][k]| && parts[1..][k][j] == c;
        assert parts[k + 1][j] == c;
      }
    }
  }

  /** Re-joining the fields of a string adds no character other than the separator. */
  lemma JoinFieldsNoneIn(s: string, sep: char, seps: set<char>, cs: set<char>)
    requires NoneIn(s, cs) && sep !in cs
    ensures NoneIn(Join([sep], Fields(s, seps)), cs)
  {
    var parts := Fields(s, seps);
    var r := Join([sep], parts);
    FieldsPieces(s, seps);
    forall i | 0 <= i < |r| ensures r[i] !in cs {
      JoinChars([sep], parts, r[i]);
    }
  }

  /** Joining non-empty separator-free words with a one-character separator never puts
      two separators side by side, nor one at either end. */
  lemma {:induction false} JoinSeparated(sep: char, parts: seq<string>, seps: set<char>)
    requires sep in seps
    requires forall k :: 0 <= k < |parts| ==> parts[k] != [] && NoneIn(parts[k], seps)
    ensures var r := Join([sep], parts);
      && (r == [] || (r[0] !in seps && r[|r| - 1] !in seps))
      && (forall i :: 0 <= i < |r| - 1 ==> !(r[i] in seps && r[i + 1] in seps))
      && (forall i :: 0 <= i < |r| && r[i] in seps ==> r[i] == sep)
      && (parts == [] <==> r == [])
  {
    if |parts| > 1 {
      var tail := Join([sep], parts[1..]);
      JoinSeparated(sep, parts[1..], seps);
      var r := Join([sep], parts);
      var w := parts[0];
      assert r == w + [sep] + tail;
      forall i | 0 <= i < |r| - 1 ensures !(r[i] in seps && r[i + 1] in seps) {
        if i < |w| - 1 {
          assert r[i + 1] == w[i + 1];
        } else if i == |w| - 1 {
          assert r[i] == w[i];
        } else if i == |w| {
          assert r[i + 1] == tail[0];
        } else {
          assert r[i] == tail[i - |w| - 1] && r[i + 1] == tail[i - |w|];
        }
      }
      forall i | 0 <= i < |r| && r[i] in seps ensures r[i] == sep {
        if i > |w| { assert r[i] == tail[i - |w| - 1]; }
      }
    }
  }

  /** Splitting a join of separator-free words recovers the words. */
  lemma {:induction false} SplitJoin(sep: char, parts: seq<string>, seps: set<char>)
    requires sep in seps
    requires |parts| >= 1
    requires forall k :: 0 <= k < |parts| ==> NoneIn(parts[k], seps)
    ensures SplitOn(Join([sep], parts), seps) == parts
  {
    if |parts| == 1 {
      SplitWord(parts[0], [], seps);
      assert parts[0] + [] == parts[0];
      assert Join([sep], parts) == parts[0] + [];
    } else {
      SplitJoin(sep, parts[1..], seps);
      var tail := Join([sep], parts[1..]);
      assert SplitOn([sep] + tail, seps) == [[]] + parts[1..] by {
        assert ([sep] + tail)[1..] == tail;
      }
      SplitWord(parts[0], [sep] + tail, seps);
      assert parts[0] + [] == parts[0];
      assert [parts[0]] + parts[1..] == parts;
      assert Join([sep], parts) == parts[0] + ([sep] + tail);
    }
  }

  /** A separator-free word in front of a string extends that string's first piece. */
  lemma {:induction false} SplitWord(w: string, rest: string, seps: set<char>)
    requires NoneIn(w, seps)
    ensures SplitOn(w + rest, seps) ==
            [w + SplitOn(rest, seps)[0]] + SplitOn(rest, seps)[1..]
  {
    if |w| > 0 {
      SplitWord(w[1..], rest, seps);
      var s := w + rest;
      assert s[0] == w[0] && s[0] !in seps;
      assert s[1..] == w[1..] + rest;
      var tail := SplitOn(s[1..], seps);
      assert SplitOn(s, seps) == [[s[0]] + tail[0]] + tail[1..];
      assert [w[0]] + (w[1..] + SplitOn(rest, seps)[0]) == w + SplitOn(rest, seps)[0];
    } else {
      var r := SplitOn(rest, seps);
      assert w + rest == rest;
      assert w + r[0] == r[0];
      assert [r[0]] + r[1..] == r;
    }
  }

  lemma {:induction false} NonEmptyIdle(parts: seq<string>)
    requires forall k :: 0 <= k < |parts| ==> parts[k] != []
    ensures NonEmpty(parts) == parts
  {
    if |parts| > 0 {
      NonEmptyIdle(parts[1..]);
    }
  }

  /** Fields of a join of non-empty separator-free words are those words: the round trip
      behind `sep.join(s.split())` being a fixed point. */
  lemma FieldsJoin(sep: char, parts: seq<string>, seps: set<char>)
    requires sep in seps
    requires forall k :: 0 <= k < |parts| ==> parts[k] != [] && NoneIn(parts[k], seps)
    ensures Fields(Join([sep], parts), seps) == parts
  {
    if |parts| == 0 {
    } else {
      SplitJoin(sep, parts, seps);
      NonEmptyIdle(parts);
    }
  }

  /** `SplitOn` one character at a time: a separator opens an empty piece, any other
      character extends the first piece. */
  lemma SplitOnFirst(s: string, seps: set<char>)
    ensures SplitOn(s, seps)[0] == [] <==> (s == [] || s[0] in seps)
  {
  }

  /** `Fields` one character at a time. */
  lemma FieldsCons(c: char, s: string, seps: set<char>)
    ensures s != [] && s[0] !in seps ==> Fields(s, seps) != []
    ensures Fields([c] + s, seps) ==
      if c in seps then Fields(s, seps)
      else if s != [] && s[0] !in seps then [[c] + Fields(s, seps)[0]] + Fields(s, seps)[1..]
      else [[c]] + Fields(s, seps)
  {
    var p := SplitOn(s, seps);
    assert ([c] + s)[1..] == s;
    SplitOnFirst(s, seps);
    assert p == [p[0]] + p[1..];
    if c in seps {
      assert ([[]] + p)[1..] == p;
    } else {
      var q := [[c] + p[0]] + p[1..];
      assert q[1..] == p[1..];
      if p[0] == [] {
        assert [c] + p[0] == [c];
      }
    }
  }

  /** A string has no fields exactly when it is made of separators only. */
  lemma {:induction false} FieldsEmpty(s: string, seps: set<char>)
    ensures Fields(s, seps) == [] <==> forall i :: 0 <= i < |s| ==> s[i] in seps
  {
    if s != [] {
      FieldsEmpty(s[1..], seps);
      FieldsCons(s[0], s[1..], seps);
      assert [s[0]] + s[1..] == s;
      if s[0] in seps {
        forall i | 0 <= i < |s| && (forall j :: 0 <= j < |s[1..]| ==> s[1..][j] in seps)
          ensures s[i] in seps
        {
          if i > 0 { assert s[i] == s[1..][i - 1]; }
        }
      }
    }
  }

  /** Prepending a character to the first part prepends it to the join. */
  lemma JoinCons(sep: string, c: char, x: string, rest: seq<string>)
    ensures Join(sep, [[c] + x] + rest) == [c] + Join(sep, [x] + rest)
  {
    assert ([[c] + x] + rest)[1..] == rest;
    assert ([x] + rest)[1..] == rest;
  }

  /** Stripping ignores one more stripped character at either end. */
  lemma StripLeftCons(c: char, s: string, cs: set<char>)
    requires c in cs
    ensures StripLeft([c] + s, cs) == StripLeft(s, cs)
  {
    assert ([c] + s)[1..] == s;
  }

  lemma StripRightSnoc(s: string, c: char, cs: set<char>)
    requires c in cs
    ensures StripRight(s + [c], cs) == StripRight(s, cs)
  {
    assert (s + [c])[..|s|] == s;
  }

  /** The text after the last piece boundary of Python's `s.split(p)`: `s.split(p)[-1]`.
      The pieces are found left to right without overlap. */
  function LastPiece(s: string, p: string): (r: string)
    requires |p| > 0
    ensures |r| <= |s|
    decreases |s|
  {
    var f := Find(s, p, 0);
    if f.None? then s else LastPiece(s[f.value + |p|..], p)
  }

  /** An occurrence in a suffix is an occurrence in the whole string. */
  lemma OccursInSuffix(s: string, p: string, n: nat, j: int)
    requires n <= |s| && OccursAt(s[n..], p, j)
    ensures OccursAt(s, p, n + j)
  {
    assert s[n..][j..j + |p|] == s[n + j..n + j + |p|];
  }

  /** The last piece is a suffix of the string. */
  lemma {:induction false} LastPieceSuffix(s: string, p: string)
    requires |p| > 0
    ensures IsSuffix(LastPiece(s, p), s)
    decreases |s|
  {
    var f := Find(s, p, 0);
    if f.Some? {
      var k := f.value + |p|;
      var r := LastPiece(s[k..], p);
      assert LastPiece(s, p) == r;
      LastPieceSuffix(s[k..], p);
      SuffixOfDrop(s, k, r);
    } else {
      assert LastPiece(s, p) == s;
    }
  }

  /** A suffix of what is left after dropping a prefix is a suffix of the whole. */
  lemma SuffixOfDrop(s: string, k: nat, r: string)
    requires k <= |s| && IsSuffix(r, s[k..])
    ensures IsSuffix(r, s)
  {
    assert s[|s| - |r|..] == s[k..][|s| - k - |r|..];
  }

  /** The last piece holds no separator; without a separator it is the whole string. */
  lemma {:induction false} LastPieceNoSep(s: string, p: string)
    requires |p| > 0
    ensures !Contains(LastPiece(s, p), p)
    ensures !Contains(s, p) ==> LastPiece(s, p) == s
    decreases |s|
  {
    var f := Find(s, p, 0);
    FindSpec(s, p, 0);
    if f.Some? {
      var k := f.value + |p|;
      assert LastPiece(s, p) == LastPiece(s[k..], p);
      LastPieceNoSep(s[k..], p);
    } else {
      assert LastPiece(s, p) == s;
    }
  }

  /** One unfolding of `LastPiece`. */
  lemma LastPieceUnfold(s: string, p: string)
    requires |p| > 0
    ensures Find(s, p, 0).None? ==> LastPiece(s, p) == s
    ensures Find(s, p, 0).Some? ==> LastPiece(s, p) == LastPiece(s[Find(s, p, 0).value + |p|..], p)
  {
  }

  /** The last piece follows the occurrence at `q`, or is the whole string (`q == -1`)
      when the separator does not occur. */
  lemma {:induction false} LastPieceFrom(s: string, p: string) returns (q: int)
    requires |p| > 0
    ensures q == -1 ==> Find(s, p, 0).None? && LastPiece(s, p) == s
    ensures q != -1 ==> OccursAt(s, p, q) && LastPiece(s, p) == s[q + |p|..]
    decreases |s|
  {
    var f := Find(s, p, 0);
    FindOccurs(s, p, 0);
    LastPieceUnfold(s, p);
    if f.None? {
      q := -1;
    } else {
      var k := f.value + |p|;
      var q' := LastPieceFrom(s[k..], p);
      q := FromStep(s, p, f.value, q', LastPiece(s, p));
    }
  }

  /** The step of `LastPieceFrom`: an occurrence at `i`, followed by a piece `r` that
      follows an occurrence at `q'` of the rest (or is all of the rest). */
  lemma FromStep(s: string, p: string, i: nat, q': int, r: string) returns (q: nat)
    requires OccursAt(s, p, i)
    requires q' == -1 ==> r == s[i + |p|..]
    requires q' != -1 ==> OccursAt(s[i + |p|..], p, q') && r == s[i + |p|..][q' + |p|..]
    ensures OccursAt(s, p, q) && r == s[q + |p|..]
  {
    if q' == -1 {
      q := i;
    } else {
      q := i + |p| + q';
      OccursInSuffix(s, p, i + |p|, q');
      assert s[i + |p|..][q' + |p|..] == s[q + |p|..];
    }
  }

  /** When the separator occurs, the last piece directly follows an occurrence. */
  lemma LastPieceAfter(s: string, p: string)
    requires |p| > 0 && Contains(s, p)
    ensures |LastPiece(s, p)| + |p| <= |s|
    ensures OccursAt(s, p, |s| - |LastPiece(s, p)| - |p|)
  {
    var q := LastPieceFrom(s, p);
    assert q != -1 by {
      var k :| 0 <= k <= |s| - |p| && OccursAt(s, p, k);
      FindSpec(s, p, 0);
    }
  }

  /** When the separator occurs, the last piece is what follows some occurrence, and no
      occurrence lies inside it. */
  lemma LastPieceSplit(s: string, p: string) returns (q: nat)
    requires |p| > 0 && Contains(s, p)
    ensures OccursAt(s, p, q)
    ensures LastPiece(s, p) == s[q + |p|..]
    ensures !Contains(s[q + |p|..], p)
  {
    LastPieceSuffix(s, p);
    LastPieceNoSep(s, p);
    LastPieceAfter(s, p);
    var r := LastPiece(s, p);
    q := |s| - |r| - |p|;
    assert s[q + |p|..] == r;
  }

  /** No proper prefix of `p` is also a suffix of it, so two occurrences of `p` never overlap. */
  predicate Unbordered(p: string) {
    forall d :: 0 < d < |p| ==> p[d..] != p[..|p| - d]
  }

  /** For a separator that cannot overlap itself, the split's last boundary is the last
      occurrence of the separator. */
  lemma LastPieceAtLast(s: string, p: string) returns (q: nat)
    requires |p| > 0 && Contains(s, p) && Unbordered(p)
    ensures OccursAt(s, p, q) && LastPiece(s, p) == s[q + |p|..]
    ensures forall j :: OccursAt(s, p, j) ==> j <= q
  {
    q := LastPieceSplit(s, p);
    forall j | OccursAt(s, p, j) && j > q ensures false {
      NoOverlap(s, p, q, j);
      assert s[q + |p|..][j - q - |p|..j - q] == s[j..j + |p|];
      assert OccursAt(s[q + |p|..], p, j - q - |p|);
    }
  }

  /** Two occurrences of a separator that cannot overlap itself lie at least its length apart. */
  lemma NoOverlap(s: string, p: string, q: nat, j: nat)
    requires Unbordered(p) && OccursAt(s, p, q) && OccursAt(s, p, j) && q < j
    ensures q + |p| <= j
  {
    if j < q + |p| {
      OverlapBorder(s, p, q, j);
      assert false;
    }
  }

  /** Two overlapping occurrences of `p` make a proper prefix of `p` equal to a suffix. */
  lemma OverlapBorder(s: string, p: string, q: nat, j: nat)
    requires OccursAt(s, p, q) && OccursAt(s, p, j) && q < j < q + |p|
    ensures p[j - q..] == p[..|p| - (j - q)]
  {
    var d := j - q;
    assert p[d..] == s[j..q + |p|] by {
      assert s[q..q + |p|][d..] == s[j..q + |p|];
    }
    assert s[j..q + |p|] == p[..|p| - d] by {
      assert s[j..j + |p|][..|p| - d] == s[j..q + |p|];
    }
  }

  /** A join starts with its first part and ends with its last. */
  lemma {:induction false} JoinEnds(sep: string, parts: seq<string>)
    requires |parts| > 0
    ensures IsPrefix(parts[0], Join(sep, parts))
    ensures IsSuffix(parts[|parts| - 1], Join(sep, parts))
  {
    if |parts| > 1 {
      JoinEnds(sep, parts[1..]);
      var tail := Join(sep, parts[1..]);
      assert Join(sep, parts) == (parts[0] + sep) + tail;
    }
  }

  // ---------------------------------------------------------------------------
  // POSIX path names

  /** `os.path.basename`: the text after the last `/`. */
  function Basename(p: string): (r: string)
    ensures IsSuffix(r, p)
    ensures '/' !in r
    ensures |r| == |p| || p[|p| - |r| - 1] == '/'
  {
    match FindLast(p, '/')
    case None => p
    case Some(i) => p[i + 1..]
  }

  /** `os.path.splitext`: the extension is the text from the last `.` of the last path
      component, unless that component consists of dots up to there. */
  function SplitExt(p: string): (r: (string, string))
    ensures r.0 + r.1 == p
    ensures r.1 == [] || (r.1[0] == '.' && '/' !in r.1)
    ensures r.1 != [] ==> '.' !in r.1[1..]
  {
    var dot := FindLast(p, '.');
    var start := match FindLast(p, '/') case None => 0 case Some(j) => j + 1;
    if dot.Some? && dot.value >= start && exists k | start <= k < dot.value :: p[k] != '.' then
      assert p[..dot.value] + p[dot.value..] == p;
      (p[..dot.value], p[dot.value..])
    else (p, [])
  }

  /** The extension is empty exactly when every `.` of the last path component has only
      dots before it within that component (no dot at all, or a name like `..` or `.bashrc`). */
  lemma SplitExtEmpty(p: string)
    ensures var start := |p| - |Basename(p)|;
      SplitExt(p).1 == [] <==> forall i, k :: start <= k < i < |p| && p[i] == '.' ==> p[k] == '.'
  {
    var start := |p| - |Basename(p)|;
    var dot := FindLast(p, '.');
    assert start == match FindLast(p, '/') case None => 0 case Some(j) => j + 1;
    if SplitExt(p).1 == [] {
      forall i, k | start <= k < i < |p| && p[i] == '.' ensures p[k] == '.' {
        assert dot.Some? && dot.value >= i;
        assert !exists k' | start <= k' < dot.value :: p[k'] != '.';
      }
    }
  }

  /** `os.path.join(a, b)` for two components. */
  function PathJoin(a: string, b: string): (r: string)
    ensures IsSuffix(b, r)
  {
    if |b| > 0 && b[0] == '/' then b
    else if a == [] || a[|a| - 1] == '/' then a + b
    else a + "/" + b
  }

  // ---------------------------------------------------------------------------
  // ordering

  /** Python's `<` on strings: lexicographic by code point, a proper prefix first. */
  predicate LexLess(a: string, b: string) {
    if |a| == 0 then |b| > 0
    else if |b| == 0 then false
    else if a[0] != b[0] then a[0] < b[0]
    else LexLess(a[1..], b[1..])
  }

  lemma {:induction false} LexLessIrreflexive(a: string)
    ensures !LexLess(a, a)
  {
    if |a| > 0 { LexLessIrreflexive(a[1..]); }
  }

  lemma {:induction false} LexLessTrans(a: string, b: string, c: string)
    requires LexLess(a, b) && LexLess(b, c)
    ensures LexLess(a, c)
  {
    if |a| > 0 && |b| > 0 && |c| > 0 && a[0] == b[0] && b[0] == c[0] {
      LexLessTrans(a[1..], b[1..], c[1..]);
    }
  }

  lemma {:induction false} LexLessTotal(a: string, b: string)
    requires a != b
    ensures LexLess(a, b) || LexLess(b, a)
  {
    if |a| > 0 && |b| > 0 && a[0] == b[0] {
      assert a == [a[0]] + a[1..] && b == [b[0]] + b[1..];
      LexLessTotal(a[1..], b[1..]);
    }
  }

  lemma LexLessAsym(a: string, b: string)
    requires LexLess(a, b)
    ensures !LexLess(b, a)
  {
    if LexLess(b, a) {
      LexLessTrans(a, b, a);
      LexLessIrreflexive(a);
    }
  }
}

=== FILE: utils.dfy ===
/** The text helpers shared by the reference-data and prospectus parsers
    (`spbe_parser/utils.py`): whitespace normalisation, file-name sanitising and the
    first-match readers for coupon frequencies and yes/no answers. */
module Utils {
  import opened Text
  import opened Dicts
  import opened Config

  // ---------------------------------------------------------------------------
  // normalize_text

  /** `re.sub(r'[seps]+', ' ', s)`: a separator followed by a separator is dropped and the
      last one of every run becomes a single space. */
  function CollapseRuns(s: string, seps: set<char>): (r: string)
    ensures |r| <= |s|
    ensures forall i :: 0 <= i < |r| && r[i] in seps ==> r[i] == ' '
  {
    if s == [] then []
    else if s[0] in seps then
      if |s| > 1 && s[1] in seps then CollapseRuns(s[1..], seps)
      else [' '] + CollapseRuns(s[1..], seps)
    else [s[0]] + CollapseRuns(s[1..], seps)
  }

  /** `re.sub(r'\s+', ' ', s)`. */
  function CollapseSpace(s: string): (r: string)
    ensures forall i :: 0 <= i < |r| && IsSpace(r[i]) ==> r[i] == ' '
  {
    CollapseRuns(s, Whitespace)
  }

  /** `normalize_text`. */
  function NormalizeText(s: string): string {
    if s == [] then [] else Strip(CollapseSpace(s))
  }

  /** Normalising joins the words of the text with single spaces. */
  lemma NormalizeIsJoin(s: string)
    ensures NormalizeText(s) == Join([' '], Fields(s, Whitespace))
  {
    if s != [] {
      NormalizeIsJoinedWords(s, Whitespace);
    }
  }

  /** Collapsing a string leaves its words joined by single spaces, with one more space in
      front when it starts with a separator and one behind when it ends with a separator
      after a word. */
  lemma {:induction false} CollapseShape(s: string, seps: set<char>)
    ensures CollapseRuns(s, seps) ==
      (if s != [] && s[0] in seps then " " else "")
      + Join([' '], Fields(s, seps))
      + (if s != [] && s[|s| - 1] in seps && Fields(s, seps) != [] then " " else "")
  {
    if s != [] {
      var c, t := s[0], s[1..];
      assert s == [c] + t;
      CollapseShape(t, seps);
      FieldsCons(c, t, seps);
      var f := Fields(t, seps);
      var trail: string := if t != [] && t[|t| - 1] in seps && f != [] then " " else "";
      if t != [] {
        assert s[|s| - 1] == t[|t| - 1];
      }
      if c in seps {
        CollapseSkip(c, t, seps, Join([' '], f), trail);
      } else {
        var gap, endSep := t != [] && t[0] in seps, t != [] && t[|t| - 1] in seps;
        if t == [] || (gap && f == []) {
          FieldsEmpty(t, seps);
        }
        if gap && f == [] {
          assert t[|t| - 1] in seps;
        }
        CollapseKeep(c, t, seps);
        WordJoin(c, gap, endSep, f, Fields(s, seps), CollapseRuns(t, seps), trail);
      }
    }
  }

  /** A separator in front adds one space, unless a separator run already starts there. */
  lemma CollapseSkip(c: char, t: string, seps: set<char>, j: string, trail: string)
    requires c in seps
    requires CollapseRuns(t, seps) == (if t != [] && t[0] in seps then " " else "") + j + trail
    ensures CollapseRuns([c] + t, seps) == " " + j + trail
  {
    assert ([c] + t)[1..] == t;
    if !(t != [] && t[0] in seps) {
      assert CollapseRuns(t, seps) == j + trail;
    }
  }

  /** Any other character in front is kept. */
  lemma CollapseKeep(c: char, t: string, seps: set<char>)
    requires c !in seps
    ensures CollapseRuns([c] + t, seps) == [c] + CollapseRuns(t, seps)
  {
    assert ([c] + t)[1..] == t;
  }

  /** The joined words after a word character `c` put in front: `c` starts a word of its
      own after a gap, and joins the first word otherwise. `f` stands for the words
      behind `c`, `fs` for the words with `c`, `rt` for the collapsed rest. */
  lemma WordJoin(c: char, gap: bool, endSep: bool, f: seq<string>, fs: seq<string>, rt: string, trail: string)
    requires !gap && f != [] ==> fs == [[c] + f[0]] + f[1..]
    requires !gap && f == [] ==> fs == [[c]] && !endSep
    requires gap ==> fs == [[c]] + f
    requires gap && f == [] ==> endSep
    requires trail == if endSep && f != [] then " " else ""
    requires rt == (if gap then " " else "") + Join([' '], f) + trail
    ensures [c] + rt == Join([' '], fs) + (if endSep && fs != [] then " " else "")
  {
    if !gap && f != [] {
      JoinCons([' '], c, f[0], f[1..]);
      assert [f[0]] + f[1..] == f;
    } else if f == [] {
      assert Join([' '], [[c]]) == [c];
      assert [[c]] + f == [[c]];
    } else {
      JoinGap(c, f);
    }
  }

  /** A one-character word joined in front of other words. */
  lemma JoinGap(c: char, f: seq<string>)
    requires f != []
    ensures Join([' '], [[c]] + f) == [c] + " " + Join([' '], f)
  {
    assert ([[c]] + f)[1..] == f;
  }

  /** Stripping the collapsed string removes exactly the spaces `CollapseShape` adds. */
  lemma NormalizeIsJoinedWords(s: string, seps: set<char>)
    requires ' ' in seps
    ensures StripChars(CollapseRuns(s, seps), seps) == Join([' '], Fields(s, seps))
  {
    CollapseShape(s, seps);
    var f := Fields(s, seps);
    FieldsPieces(s, seps);
    JoinSeparated(' ', f, seps);
    StripPadded(if s != [] && s[0] in seps then " " else "", Join([' '], f),
                if s != [] && s[|s| - 1] in seps && f != [] then " " else "", seps);
  }

  /** Stripping removes at most one space of padding on either side of a string that
      neither starts nor ends with a stripped character. */
  lemma StripPadded(lead: string, j: string, trail: string, seps: set<char>)
    requires ' ' in seps && (lead == "" || lead == " ") && (trail == "" || trail == " ")
    requires j == [] ==> trail == ""
    requires j != [] ==> j[0] !in seps && j[|j| - 1] !in seps
    ensures StripChars(lead + j + trail, seps) == j
  {
    var x := j + trail;
    assert lead + j + trail == lead + x;
    assert StripLeft(lead + x, seps) == StripLeft(x, seps) by {
      if lead != "" { StripLeftCons(' ', x, seps); }
      else { assert lead + x == x; }
    }
    if j == [] {
      assert x == [];
    } else {
      StripLeftIdle(x, seps);
      if trail != "" { StripRightSnoc(j, ' ', seps); }
      else { assert x == j; }
      StripRightIdle(j, seps);
    }
  }

  /** Normalised text has no whitespace at either end, never two whitespace characters
      side by side, and only plain spaces as whitespace. */
  lemma NormalizeShape(s: string)
    ensures var r := NormalizeText(s);
      && (s == [] ==> r == [])
      && (r == [] || (!IsSpace(r[0]) && !IsSpace(r[|r| - 1])))
      && (forall i :: 0 <= i < |r| - 1 ==> !(IsSpace(r[i]) && IsSpace(r[i + 1])))
      && (forall i :: 0 <= i < |r| && IsSpace(r[i]) ==> r[i] == ' ')
  {
    NormalizeIsJoin(s);
    FieldsPieces(s, Whitespace);
    JoinSeparated(' ', Fields(s, Whitespace), Whitespace);
  }

  /** Normalising keeps the words of the text, in order. */
  lemma NormalizeKeepsWords(s: string)
    ensures Fields(NormalizeText(s), Whitespace) == Fields(s, Whitespace)
  {
    NormalizeIsJoin(s);
    FieldsPieces(s, Whitespace);
    FieldsJoin(' ', Fields(s, Whitespace), Whitespace);
  }

  /** Normalised text with no space in it is one word of the input, so it occurs in the
      input as it is. */
  lemma NormalizedWordOccurs(s: string)
    requires ' ' !in NormalizeText(s)
    ensures Contains(s, NormalizeText(s))
  {
    var f := Fields(s, Whitespace);
    var r := NormalizeText(s);
    NormalizeIsJoin(s);
    if |f| == 0 {
      assert OccursAt(s, r, 0);
    } else {
      assert r == f[0];
      var parts := SplitOn(s, Whitespace);
      assert f[0] in parts;
      var m :| 0 <= m < |parts| && parts[m] == f[0];
      SplitOnOccurs(s, Whitespace);
    }
  }

  /** Normalising twice is normalising once. */
  lemma NormalizeIdempotent(s: string)
    ensures NormalizeText(NormalizeText(s)) == NormalizeText(s)
  {
    NormalizeKeepsWords(s);
    NormalizeIsJoin(s);
    NormalizeIsJoin(NormalizeText(s));
  }

  // ---------------------------------------------------------------------------
  // sanitize_filename

  /** Characters that may not appear in a file name. */
  const Forbidden: set<char> := {'<', '>', ':', '"', '/', '\\', '|', '?', '*'}

  /** Characters stripped from both ends of a file name. */
  const EdgeChars: set<char> := {'.', ' '}

  const MaxNameLength: nat := 200

  /** `re.sub(r'[<>:"/\\|?*]', '_', s)`. */
  function ReplaceForbidden(s: string): (r: string)
    ensures |r| == |s| && NoneIn(r, Forbidden)
    ensures forall i :: 0 <= i < |s| ==> r[i] == if s[i] in Forbidden then '_' else s[i]
  {
    seq(|s|, i requires 0 <= i < |s| => if s[i] in Forbidden then '_' else s[i])
  }

  /** `sanitize_filename`. */
  function SanitizeFilename(name: string): string {
    TrimName(ReplaceForbidden(name))
  }

  /** The part of `sanitize_filename` after the replacement: strip the edges, then cut a
      long name to the limit. */
  function TrimName(u: string): string {
    CutIfLong(StripChars(u, EdgeChars))
  }

  /** A stripped name over the limit is cut; a shorter one is kept. */
  function CutIfLong(t: string): string {
    if |t| <= MaxNameLength then t else CutToLength(t)
  }

  /** The cleaned name has no forbidden character; a short one is the stripped name and
      neither starts nor ends with a dot or a space, and a long one is cut to the limit
      with its extension kept. */
  lemma SanitizeFilenameSpec(name: string)
    ensures NoneIn(SanitizeFilename(name), Forbidden)
    ensures var t := StripChars(ReplaceForbidden(name), EdgeChars);
      var r := SanitizeFilename(name);
      && (|t| <= MaxNameLength ==> r == t && (r == [] || (r[0] !in EdgeChars && r[|r| - 1] !in EdgeChars)))
      && (|t| > MaxNameLength && |SplitExt(t).1| <= MaxNameLength ==>
            |r| == MaxNameLength && IsSuffix(SplitExt(t).1, r))
  {
    var u := ReplaceForbidden(name);
    assert SanitizeFilename(name) == TrimName(u);
    TrimNameSpec(u);
  }

  /** Trimming a name free of forbidden characters keeps it free of them and gives it the
      shape `SanitizeFilenameSpec` states. */
  lemma TrimNameSpec(u: string)
    requires NoneIn(u, Forbidden)
    ensures NoneIn(TrimName(u), Forbidden)
    ensures var t := StripChars(u, EdgeChars);
      var r := TrimName(u);
      && (|t| <= MaxNameLength ==> r == t && (r == [] || (r[0] !in EdgeChars && r[|r| - 1] !in EdgeChars)))
      && (|t| > MaxNameLength && |SplitExt(t).1| <= MaxNameLength ==>
            |r| == MaxNameLength && IsSuffix(SplitExt(t).1, r))
  {
    var t := StripChars(u, EdgeChars);
    StripCharsShape(u, EdgeChars);
    SubstringNoneIn(u, t, Forbidden);
    CleanedName(t);
  }

  /** The stripped name, kept or cut, keeps its cleanliness and its shape. */
  lemma CleanedName(t: string)
    requires NoneIn(t, Forbidden)
    requires t == [] || (t[0] !in EdgeChars && t[|t| - 1] !in EdgeChars)
    ensures NoneIn(CutIfLong(t), Forbidden)
    ensures |t| <= MaxNameLength ==>
              CutIfLong(t) == t && (t == [] || (t[0] !in EdgeChars && t[|t| - 1] !in EdgeChars))
    ensures |t| > MaxNameLength && |SplitExt(t).1| <= MaxNameLength ==>
              |CutIfLong(t)| == MaxNameLength && IsSuffix(SplitExt(t).1, CutIfLong(t))
  {
  }

  /** The length cut: the stem is shortened (Python slicing, so a negative bound counts
      from its end) and the extension kept. */
  function CutToLength(t: string): (r: string)
    ensures NoneIn(t, Forbidden) ==> NoneIn(r, Forbidden)
    ensures |t| > MaxNameLength && |SplitExt(t).1| <= MaxNameLength ==>
              |r| == MaxNameLength && IsSuffix(SplitExt(t).1, r)
  {
    var (stem, ext) := SplitExt(t);
    assert stem == t[..|stem|] && ext == t[|stem|..];
    var r := Take(stem, MaxNameLength - |ext|) + ext;
    assert r[|r| - |ext|..] == ext;
    r
  }

  /** A piece of a string without forbidden characters has none either. */
  lemma SubstringNoneIn(s: string, t: string, cs: set<char>)
    requires NoneIn(s, cs) && exists i :: OccursAt(s, t, i)
    ensures NoneIn(t, cs)
  {
    var i :| OccursAt(s, t, i);
    forall k | 0 <= k < |t| ensures t[k] !in cs {
      assert t[k] == s[i..i + |t|][k] == s[i + k];
    }
  }

  /** A name that is already clean and short enough is left as it is. */
  lemma SanitizeFixedPoint(name: string)
    requires NoneIn(name, Forbidden) && |name| <= MaxNameLength
    requires name == [] || (name[0] !in EdgeChars && name[|name| - 1] !in EdgeChars)
    ensures SanitizeFilename(name) == name
  {
    assert ReplaceForbidden(name) == name;
    StripLeftIdle(name, EdgeChars);
    StripRightIdle(name, EdgeChars);
  }

  /** Sanitising a name that stays within the length limit is idempotent. */
  lemma SanitizeShortIdempotent(name: string)
    requires |StripChars(ReplaceForbidden(name), EdgeChars)| <= MaxNameLength
    ensures SanitizeFilename(SanitizeFilename(name)) == SanitizeFilename(name)
  {
    SanitizeFilenameSpec(name);
    SanitizeFixedPoint(SanitizeFilename(name));
  }

  // ---------------------------------------------------------------------------
  // parse_coupon_frequency and parse_boolean

  /** `text.lower().strip()`, the form in which table keys are looked up. */
  function Folded(text: string): (r: string)
    ensures |r| <= |text|
  {
    Strip(Lower(text))
  }

  /** `re.search(r'(\d+)', s).group(1)`: the leftmost maximal run of digits. */
  function FirstDigitRun(s: string): (r: Option<string>)
    ensures r.None? <==> forall i :: 0 <= i < |s| ==> !IsDigit(s[i])
    ensures r.Some? ==> r.value != [] && AllDigits(r.value)
    ensures r.Some? ==> exists i :: LeftmostDigitRun(s, i, |r.value|) && r.value == s[i..i + |r.value|]
    ensures r.Some? ==> Contains(s, r.value)
  {
    match FirstDigit(s, 0)
    case None => None
    case Some(i) =>
      var d := DigitPrefix(s[i..]);
      assert s[i..][..|d|] == s[i..i + |d|];
      assert i + |d| < |s| ==> s[i + |d|] == s[i..][|d|];
      assert forall k :: i <= k < i + |d| ==> s[k] == d[k - i];
      assert LeftmostDigitRun(s, i, |d|);
      assert OccursAt(s, d, i);
      Some(d)
  }

  /** The position of the first digit at or after `from`. */
  function FirstDigit(s: string, from: nat): (r: Option<nat>)
    requires from <= |s|
    ensures r.None? ==> forall j :: from <= j < |s| ==> !IsDigit(s[j])
    ensures r.Some? ==> from <= r.value < |s| && IsDigit(s[r.value])
    ensures r.Some? ==> forall j :: from <= j < r.value ==> !IsDigit(s[j])
    decreases |s| - from
  {
    if from == |s| then None
    else if IsDigit(s[from]) then Some(from)
    else FirstDigit(s, from + 1)
  }

  /** The longest prefix of digits. */
  function DigitPrefix(s: string): (r: string)
    ensures IsPrefix(r, s) && AllDigits(r)
    ensures |r| == |s| || !IsDigit(s[|r|])
    ensures s != [] && IsDigit(s[0]) ==> r != []
  {
    if s == [] || !IsDigit(s[0]) then []
    else [s[0]] + DigitPrefix(s[1..])
  }

  /** `parse_coupon_frequency`: the count of the first key found in the folded text, else
      the first digit run of the text as given, else the text itself; "" for "". */
  function ParseCouponFrequency(text: string): (r: string)
    ensures text == [] ==> r == []
    ensures text != [] && (exists j :: 0 <= j < |CouponFrequencyMapping| &&
                             Contains(Folded(text), CouponFrequencyMapping[j].0)) ==>
              r in ["1", "2", "4", "12"]
    ensures text != [] && (forall j :: 0 <= j < |CouponFrequencyMapping| ==>
                             !Contains(Folded(text), CouponFrequencyMapping[j].0)) ==>
              if exists i :: 0 <= i < |text| && IsDigit(text[i])
              then r != [] && AllDigits(r) && Contains(text, r)
              else r == text
  {
    if text == [] then []
    else match FirstMatch(CouponFrequencyMapping, Folded(text))
      case Some(i) =>
        CouponValuesAreCounts();
        CouponFrequencyMapping[i].1
      case None =>
        match FirstDigitRun(text)
        case Some(d) => d
        case None => text
  }

  /** A maximal run of `n` digits at `i`, with no digit anywhere before it. */
  predicate LeftmostDigitRun(s: string, i: int, n: int) {
    0 <= i && 0 < n && i + n <= |s| &&
    (forall k :: i <= k < i + n ==> IsDigit(s[k])) &&
    (forall k :: 0 <= k < i ==> !IsDigit(s[k])) &&
    (i + n == |s| || !IsDigit(s[i + n]))
  }

  /** A digit at `b` in a text with no digit before `a` puts `a` at or before `b`. */
  lemma DigitNotBefore(s: string, a: int, b: int)
    requires 0 <= b < |s| && IsDigit(s[b]) && a <= |s|
    requires forall j :: 0 <= j < a ==> !IsDigit(s[j])
    ensures a <= b
  {
  }

  /** Two maximal digit runs starting at the same place have the same length. */
  lemma MaximalRunsAgree(s: string, i: int, a: int, b: int)
    requires 0 <= i && i + a <= |s| && i + b <= |s| && 0 <= a && 0 <= b
    requires forall k :: i <= k < i + a ==> IsDigit(s[k])
    requires forall k :: i <= k < i + b ==> IsDigit(s[k])
    requires i + a == |s| || !IsDigit(s[i + a])
    requires i + b == |s| || !IsDigit(s[i + b])
    ensures a == b
  {
  }

  /** A key found in the folded text decides the count: the first such key in table order. */
  lemma CouponFrequencyFirstKey(text: string, j: int)
    requires text != [] && FirstKeyAt(CouponFrequencyMapping, Folded(text), j)
    ensures ParseCouponFrequency(text) == CouponFrequencyMapping[j].1
  {
    FirstMatchIsFirstKey(CouponFrequencyMapping, Folded(text), j);
  }

  /** With no key found, the count is the leftmost run of digits of the text as given. */
  lemma CouponFrequencyDigits(text: string, i: int, n: int)
    requires text != [] && FirstMatch(CouponFrequencyMapping, Folded(text)).None?
    requires LeftmostDigitRun(text, i, n)
    ensures ParseCouponFrequency(text) == text[i..i + n]
  {
    LeftmostRunUnique(text, i, n);
  }

  /** `FirstDigitRun` finds the one leftmost maximal run. */
  lemma LeftmostRunUnique(s: string, i: int, n: int)
    requires LeftmostDigitRun(s, i, n)
    ensures FirstDigitRun(s) == Some(s[i..i + n])
  {
    RunFound(s, i, n, FirstDigitRun(s));
  }

  /** Any result with the contract of `FirstDigitRun` is the leftmost maximal run. */
  lemma RunFound(s: string, i: int, n: int, r: Option<string>)
    requires LeftmostDigitRun(s, i, n)
    requires r.None? <==> forall k :: 0 <= k < |s| ==> !IsDigit(s[k])
    requires r.Some? ==> exists k :: LeftmostDigitRun(s, k, |r.value|) && r.value == s[k..k + |r.value|]
    ensures r == Some(s[i..i + n])
  {
    assert IsDigit(s[i]);
    var d := r.value;
    var i' :| LeftmostDigitRun(s, i', |d|) && d == s[i'..i' + |d|];
    SameRun(s, i, n, i', |d|);
  }

  /** There is only one leftmost maximal run of digits. */
  lemma SameRun(s: string, i: int, n: int, i': int, n': int)
    requires LeftmostDigitRun(s, i, n)
    requires LeftmostDigitRun(s, i', n')
    ensures i == i' && n == n'
  {
    assert IsDigit(s[i]) && IsDigit(s[i']);
    DigitNotBefore(s, i, i');
    DigitNotBefore(s, i', i);
    MaximalRunsAgree(s, i, n', n);
  }

  /** A schedule that mentions a half-year is read as two payments a year. */
  lemma HalfYearIsTwo(text: string)
    requires Contains(Folded(text), "полугодие")
    ensures ParseCouponFrequency(text) == "2"
  {
    HalfYearBeforeYear(Folded(text));
  }

  /** `parse_boolean`: "Yes" or "No" from the first key found in the folded text, else the
      text itself; "No" for "". */
  function ParseBoolean(text: string): (r: string)
    ensures text == [] ==> r == "No"
    ensures text != [] && (exists j :: 0 <= j < |BooleanMapping| &&
                             Contains(Folded(text), BooleanMapping[j].0)) ==>
              r == "Yes" || r == "No"
    ensures text != [] && (forall j :: 0 <= j < |BooleanMapping| ==>
                             !Contains(Folded(text), BooleanMapping[j].0)) ==>
              r == text
  {
    if text == [] then "No"
    else match FirstMatch(BooleanMapping, Folded(text))
      case Some(i) =>
        BooleanValuesAreYesNo();
        BooleanMapping[i].1
      case None => text
  }

  /** A key found in the folded text decides the answer: the first such key in table order. */
  lemma BooleanFirstKey(text: string, j: int)
    requires text != [] && FirstKeyAt(BooleanMapping, Folded(text), j)
    ensures ParseBoolean(text) == BooleanMapping[j].1
  {
    FirstMatchIsFirstKey(BooleanMapping, Folded(text), j);
  }

  /** The table order makes an explicit "not provided" read as "Yes". */
  lemma NotProvidedIsYes(text: string)
    requires Contains(Folded(text), "не предусмотрена") || Contains(Folded(text), "не предусмотрено")
    ensures ParseBoolean(text) == "Yes"
  {
    NegationReadsAsYes(Folded(text));
  }
}
